=== FILE: README.md ===
# socket.io-static in Dafny

socket.io-static serves a directory tree over socket.io and over Express.
The model covers its core:

- **Path sandbox.** `isup` rejects any caller-supplied path that climbs
  above its start. An accepted path is resolved as
  `join(root, normalize(p))`.
- **Two interchangeable filesystem adapters.**
  - `FSLocal` works on local storage.
  - `FSRemote` sends each call over a socket. It rewrites the path,
    chooses the event name, and decodes the `(err, res)` acknowledgement.
- **The `ioStatic` registrar.** This is the socket.io middleware on the
  serving side. It switches listeners on from its options, registers them
  once per socket, and answers with `{ok, data}` or `{ok: false, error}`
  envelopes.
- **The value projection** applied to every reply. It replaces function
  values by what they return, to a bounded depth, merging prototypes.
- **The stream helpers** `toReadStream`, `toWriteStream` and
  `toStreamParams`.
- **The decision logic of the four Express handlers:**
  - `http-static`: byte ranges after section 2.3 and sections 4.1-4.2 of
    RFC 7233;
  - `http-dir`: directory listings sorted newest first;
  - `http-action`: allow-listed actions;
  - `http-fs`: delete, JSON download and directory creation, multipart
    upload.

## Layout

One module per component, each in its own file:

| file | module | what it holds |
|---|---|---|
| `wrappers.dfy` | `Wrappers` | `Option` and `Result` |
| `decimal.dfy` | `Decimal` | the decimal text of integers and reading it back |
| `js.dfy` | `Js` | JavaScript values: primitives, opaque built-ins, function values, objects as ordered key lists with a prototype, arrays with holes; `String(v)` |
| `dates.dfy` | `Dates` | time values, `toISOString` and `Date.parse` of its text |
| `wire.dfy` | `Wire` | the JSON encoding socket.io applies to the arguments of an emit and of an acknowledgement |
| `events.dfy` | `Events` | the socket event names |
| `posix_path.dfy` | `PosixPath` | Node's POSIX `path.normalize`, `path.join` and `path.basename` over segment stacks |
| `sandbox.dfy` | `Sandbox` | `isup`, path resolution, and the sandbox theorem |
| `disk.dfy` | `Disk` | storage as a tree of named file and directory nodes, with `stat` and `readdir` on it |
| `fs_local.dfy` | `FsLocal` | the local adapter |
| `fs_remote.dfy` | `FsRemote` | the remote adapter |
| `transform.dfy` | `Transform` | the value projection |
| `node_values.dfy` | `NodeValues` | Node's `Stats`, `Dirent` and `struct` results as JavaScript values |
| `io_static.dfy` | `IoStatic` | the registrar, its listeners, and the remote/served round trip |
| `helpers.dfy` | `Helpers` | the stream helpers |
| `adapter.dfy` | `Adapter` | what an HTTP handler gets from `getFS()`: either adapter, with every call's outcome as it is awaited |
| `http.dfy` | `Http` | the request, the factories' root checks, the header values `setHeader` accepts |
| `http_static.dfy`, `http_dir.dfy`, `http_action.dfy`, `http_fs.dfy` | `HttpStatic`, `HttpDir`, `HttpAction`, `HttpFs` | the handlers |

## What becomes a parameter

Everything effectful is a parameter:

| effect | parameter |
|---|---|
| storage | a `Disk.Node` tree |
| writes, deletes and directory creation | `effects`, a function from the storage call to its outcome |
| the socket's far end | `peer`, a function from the emitted request to `(err, res)` |
| calling a function value | `invoke(fid, receiver)`, where `None` means the call threw |
| `range-parser` and `mime` | `parse` and `mime` |
| `new URL(...).pathname` | a parse function |
| busboy's events | a sequence of `FormEvent`s |
| a fresh stream | a `nat` |

## Model

| member | source | states |
|---|---|---|
| Sandbox.UpPatternAroundSep | src/util/path.js:3 | The pattern matches `x/y` exactly when it matches `x` or `y`, so no match straddles a '/'. |
| Sandbox.IsUpIff | src/util/path.js:7-10 | `isup(p)` holds iff some segment of the relative normalisation of `'./' + p` matches the pattern on its own. A `..` segment that survives normalisation always makes the path up. |
| Sandbox.PlainSegmentUp | src/util/path.js:3 | A segment without `/` or `\` matches the pattern iff it is exactly `..`. |
| Sandbox.AcceptedSegments | src/util/path.js:7-10 | An accepted path normalises to names only. Read as absolute or as relative, it gives the same segments. |
| Sandbox.SandboxHolds | src/fs.local.js:163-168 | For an accepted `p`, the segments of `join(root, normalize(p))` are the root's segments followed by `p`'s, and contain no `..`. So the root's segments are a prefix, and absoluteness follows the root. |
| Sandbox.ResolveNormalized | src/fs.local.js:167 | A resolved path is already normalised. |
| Sandbox.ResolvedIsAccepted | src/fs.remote.js:143-148 | Resolving an accepted path under an accepted root gives an accepted path whose segments are the two concatenated. So the peer's own check passes on what the remote adapter sends. |
| Sandbox.JoinedNameUp | src/fs.local.js:126 | Under an accepted path, `join(path, name)` is up iff the name matches the pattern, and it adds exactly one segment. |
| Sandbox.ResolveJoinedName | src/fs.local.js:126 | Resolving `join(p, name)` lands one segment below resolving `p`. |
| Sandbox.UpParent | src/util/isup.test.js:6-9 | `..` and `../` are up. |
| Sandbox.UpPastStart | src/util/isup.test.js:6-9 | `./a/../../b` is up for any names `a` and `b`. The tests' `./foo/../../foo` is one instance, and so is `./foo/../../bar` at src/fs.local.test.js:42. |
| Sandbox.UpAfterCancel | src/fs.local.test.js:42 | `../a/../b` is up for any names `a` and `b`: the inner `..` cancels `a`, and the leading one stays. |
| Sandbox.NotUpName | src/util/isup.test.js:12-15 | `./a` is not up for a name `a` without separators. |
| Sandbox.NotUpCancelled | src/util/isup.test.js:12-15 | `./a/../` is not up for any name `a`: a `..` that cancels inside the path is allowed. |
| Sandbox.NotUpCurrent | src/util/isup.test.js:12-15 | `./` is not up. |
| Sandbox.Unanchored | src/util/path.js:8 | A leading `/` does not anchor the path: `/a` is not up, and `/..` is up. |
| Sandbox.DottedName | src/util/path.js:3 | Names such as `..foo`, `foo..` or `...` are not up. |
| PosixPath.NormalizeSegments | src/fs.local.js:60 | `normalize` keeps a path's segments, and keeps whether it is absolute. |
| PosixPath.NormalizeIdempotent | src/fs.local.js:60 | Normalising twice is normalising once. |
| PosixPath.SegmentsOfRender | src/fs.local.js:167 | Printing a valid segment stack and reading it back gives the stack. |
| PosixPath.JoinNameSegments | src/fs.local.js:126 | `join(path, name)` for a name appends exactly that segment. |
| PosixPath.BasenameOfJoin | src/http-fs.js:105 | `basename(dir + '/' + name)` is `name`. |
| PosixPath.BasenameIdempotent | src/http-fs.js:61 | `basename` of a basename is itself. |
| Disk.StatAt | src/fs.local.js:77-80 | `stat` succeeds iff a node is at the path, and reports its type, size and birth time. Otherwise it fails with `ENOENT` on that path. |
| Disk.ReaddirAt | src/fs.local.js:94-97 | `readdir` succeeds iff the path holds a directory. It yields one entry per child, in order, with the child's name and type. |
| Disk.LookupChild | src/fs.local.js:126 | In a well-formed tree, the path one name below a directory finds that child. |
| Events.Name | src/util/events.js:1-10 | Every event has a string name except the action event, whose name is `undefined`. |
| Events.NamesDistinct | src/util/events.js:1-10 | Two events share a name iff they are the same event. |
| Js.Put | src/util/tranform.js:61 | Assigning a key makes a lookup of it give the new value. Other keys read as before. Key order grows only for a new key. |
| Js.Spread | src/util/tranform.js:87 | In `{...a, ...b}` every key reads `b`'s value when `b` has one, and `a`'s otherwise. |
| Js.StringOf | src/util/path.js:8 | `String(v)`, as `'.' + sep + path` applies it: a string is itself, an integer its decimal digits, a plain object `[object Object]`, a map or set its class tag (`[object Map]`, `[object Set]`). An array is the comma join of its elements' texts, with a hole, `undefined` or `null` as the empty text. |
| Js.SingletonText | src/util/path.js:8 | A one-element array reads as its element's text, or as the empty text for `undefined` and `null`. So `['..']` reads as `..`. |
| Js.JoinSplits | src/util/path.js:8 | Splitting an array's text at its commas gives back each element's text, as long as no element's text has a comma. |
| FsLocal.Create | src/fs.local.js:58-64 | The root is normalised once, keeping its segments. The emitter is kept. |
| FsLocal.IsConnected | src/fs.local.js:66-68 | The local adapter is always connected. |
| FsLocal.Path | src/fs.local.js:163-168 | `path(p)` throws `malicious path: p` iff `p` is up. Otherwise it returns a path whose segments are the root's followed by `p`'s. |
| FsLocal.PathOf | src/fs.local.js:163-168 | `path(v)` for any value: an up text, as `StringOf` reads the value, is malicious with that text. Otherwise a non-string fails with `normalize`'s type error. It succeeds iff the value is a string that is not up, with the resolved path. |
| FsLocal.UpArrayRefused | src/fs.local.js:163-165 | A one-element array holding an up path, such as `['..']`, is refused as `malicious path: ..`. |
| FsLocal.Exists | src/fs.local.js:71-74 | An up path rejects. Otherwise `exists` is true iff `stat` of the resolved path succeeds. |
| FsLocal.Stat | src/fs.local.js:77-80 | An up path rejects with the sandbox error. Otherwise `stat` succeeds iff storage holds the resolved path, and reports that node. |
| FsLocal.Readdir | src/fs.local.js:94-97 | An up path rejects with the sandbox error. Otherwise `readdir` succeeds iff storage's `readdir` of the resolved path does, and fails with storage's error. On success the result is the directory's entries there: one per child, in storage's order. |
| FsLocal.Call | src/fs.local.js:83-144 | `unlink`, `del`, `mkdir` and the two stream factories reach storage iff the path is not up, and then on `join(root, normalize(p))`, whose segments are the root's followed by `p`'s. `unlink` passes no further argument, `del` and `mkdir` pass the caller's, and a stream factory passes exactly its `opts` argument (`undefined` when absent). |
| FsLocal.Action | src/fs.local.js:152-158 | Without an emitter, `action` returns false and emits nothing, whatever the path. With one, it rejects an up path. Otherwise it emits `(ACTION, action, resolved path, ...args)` and returns true. |
| FsLocal.Struct | src/fs.local.js:115-132 | `struct` of an up path rejects, and of a missing path rejects with `ENOENT`. `struct` of an existing non-directory is `[]`. |
| FsLocal.StructChildren | src/fs.local.js:120-131 | One node per directory entry, in order, with the entry's name and type. The leaves counted below equal the non-directory descendants. |
| FsLocal.StructEntry | src/fs.local.js:121-130 | A directory entry becomes a `DirLike` node and any other entry a `FileLike` node, under the same name. |
| FsLocal.StructOfDirectory | src/fs.local.js:115-132 | For a directory, `struct` succeeds iff no directory below has a name the sandbox rejects. It then has one node per child, and its leaves number the non-directory descendants. |
| FsLocal.StructChildrenSucceeds | src/fs.local.js:126 | The recursion fails exactly on a directory whose name is up once joined. |
| FsLocal.StructStatFindsChild | src/fs.local.js:126 | The recursive call on `join(path, name)` finds that very child. |
| FsLocal.EveryOperationSandboxed | src/fs.local.js:71-168 | On an up path, every operation rejects with `malicious path: p` before touching storage: `exists`, `stat`, `readdir`, `struct`, the storage calls, and `action` with an emitter. |
| FsRemote.Create | src/fs.remote.js:32-43 | The constructor throws `invalid path` iff the normalised root is up. Otherwise it keeps the normalised root, the socket, and the timeout, which defaults to 10000 ms. |
| FsRemote.IsConnected | src/fs.remote.js:49-51 | Connected iff there is a socket whose `connected` is truthy. |
| FsRemote.Path | src/fs.remote.js:143-148 | `path(p)` throws `invalid path` iff `p` is up. Otherwise its segments are the root's followed by `p`'s. |
| FsRemote.Outgoing | src/fs.remote.js:54-96 | A path that is not up is sent under the method's event. The resolved path comes first. `exists` and `struct` send it alone, and the other methods send the caller's further arguments after it. |
| FsRemote.EventsIdentifyMethods | src/fs.remote.js:54-96 | Two methods send under the same event iff they are the same method. |
| FsRemote.SentPathAccepted | src/fs.remote.js:143-148 | What is sent for an accepted path under an accepted root is itself accepted, with the root's segments in front. |
| FsRemote.Settle | src/fs.remote.js:155-169 | A transport error rejects with that error. Otherwise a truthy reply with truthy `ok` resolves with `data`, and one with falsy `ok` rejects with `error`. A falsy reply resolves with `undefined`. |
| FsRemote.Call | src/fs.remote.js:155-169 | An up path throws. Without a socket the call rejects. With one, the call settles as the peer's answer to the outgoing request decodes. |
| FsRemote.OpenStream | src/fs.remote.js:102-124 | The stream factories fail iff the path is up or there is no socket. Otherwise they announce the fresh stream under `READ_FILE` or `WRITE_FILE` with `{path: resolved, opts}`, and return that same stream. |
| FsRemote.Action | src/fs.remote.js:132-138 | Without a socket, `action` returns false and sends nothing. With one, it throws on an up path, and otherwise sends `(ACTION, action, resolved path, ...args)` and returns true. |
| IoStatic.Flags | src/io-static.js:20-24 | `read` and `write` are always on. `delete` is on iff the option is truthy. |
| IoStatic.Create | src/io-static.js:18-24 | The server's local adapter is over `root` with no emitter, and its flags are the effective ones. |
| IoStatic.SwitchedOnOf | src/io-static.js:104-117 | Exactly the listeners the flags switch on are kept. |
| IoStatic.Registrations | src/io-static.js:104-120 | What an unmarked socket gets: every listener the flags switch on, under its event and on its channel, in registration order. |
| IoStatic.RegistrationsDistinct | src/io-static.js:104-120 | Each listener is registered once, under its own event. Only the two file streams use the stream channel. |
| IoStatic.AddListeners | src/io-static.js:100-124 | A marked socket is returned untouched. An unmarked one is marked after the registrations are appended. |
| IoStatic.AddListenersIdempotent | src/io-static.js:100-124 | Adding listeners twice is adding them once. |
| IoStatic.Middleware | src/io-static.js:130-135 | The middleware adds the listeners, and calls `next` iff it is a function. |
| IoStatic.ServedHandler | src/io-static.js:104-120 | On a served socket, an event's first handler is its own listener iff that listener is registered on the channel. |
| IoStatic.ServedEvents | src/io-static.js:104-120 | A served socket handles every event on its channel with its listener, except `del` when the `delete` option is falsy. |
| IoStatic.Reply | src/io-static.js:76-85 | The envelope is a plain object whose `ok` says whether the handler succeeded. It carries the projected result as `data`, or the error's message string as `error`. |
| IoStatic.Acknowledge | src/io-static.js:73-85 | A reply is made iff the callback is a function, and it is the envelope. |
| IoStatic.PathArg | src/io-static.js:76 | The handler's path argument is usable iff it is a string that is not up. An up text, as `StringOf` reads the value, fails with `malicious path: p`, because `isup` stringifies first. A non-string that is not up fails with Node's type-error message. |
| IoStatic.MapBoth | src/io-static.js:76-83 | A settled handler result maps to success or to its error's message. |
| IoStatic.Serve | src/io-static.js:90-95 | The stream listeners and the action logger produce no reply. An up text fails with `malicious path: p`, checked before the type, and a non-string fails with the type-error message. A usable path is served by the listener with the further arguments. |
| IoStatic.UpArrayPathRefused | src/io-static.js:55-64 | A path that is a one-element array holding an up path is refused with `malicious path: ..` by every request listener, and `onWriteFile` destroys its stream with that message. |
| IoStatic.ServePath | src/io-static.js:90-95 | An up path fails with `malicious path: p`. |
| IoStatic.ListenerOf | src/io-static.js:90-95 | Each remote method is answered by the plain-channel listener of the same event. |
| IoStatic.Exchange | src/io-static.js:71-88 | An event with no handler on the socket times out. The transport error is set exactly in that case. |
| IoStatic.ServedExchange | src/io-static.js:71-120 | On a served socket, a method's request reaches the listener with its arguments as JSON carries them. The listener's envelope comes back as JSON carries it. The exception is `del` with a falsy `delete` option, which times out. |
| IoStatic.OnReadFileOutcome | src/io-static.js:31-48 | A read stream is piped iff the path is a string that is not up and names an existing non-directory. The source is then the local read stream on the resolved path with the caller's options. Otherwise the stream is ended empty. |
| IoStatic.OnWriteFileOutcome | src/io-static.js:55-64 | A write stream is drained into the local one iff the path is a string that is not up, on the resolved path with the caller's options. An up text destroys the stream with the sandbox message, and any other non-string with the type-error message. |
| IoStatic.Delivered | src/io-static.js:76-85 | What the remote side settles to: the projected result as JSON carries it, or a rejection with the message string. |
| IoStatic.ReplySettles | src/io-static.js:76-85 | Round trip: the envelope, JSON-encoded and decoded by the remote adapter, resolves with the projected result as JSON carries it, or rejects with the message string. |
| IoStatic.SentRest | src/fs.remote.js:72-90 | `exists` and `struct` send no further arguments. The other methods send the caller's, which arrive as JSON carries them. |
| IoStatic.ExchangeHandled | src/io-static.js:73-85 | When a socket's handler for the event is an acknowledging listener and the first argument is a path string, the exchange serves that path with the other arguments as JSON carries them. The reply is the listener's envelope as JSON carries it. |
| IoStatic.SentPathFirst | src/fs.remote.js:157 | The path string crosses the wire unchanged, ahead of the other arguments. |
| IoStatic.RemoteOverServed | src/fs.remote.js:155-169 | A remote call on an accepted path, answered by a served socket, settles as the local operation on the resolved path delivers. The exception is `del` without the `delete` option, which rejects with the timeout. |
| IoStatic.RemoteAnswers | src/fs.remote.js:155-169 | Any method but `del` settles with what the served side delivers for the path sent. |
| IoStatic.RemoteDelTimesOut | src/io-static.js:115-117 | Without the `delete` option, a remote `del` rejects with the timeout. |
| IoStatic.ServedPath | src/fs.remote.js:143-148 | A path resolved by the remote adapter is accepted by the served one. It lands below both roots. |
| IoStatic.ServeExists | src/fs.local.js:71-74 | The `exists` listener succeeds with whether storage holds the resolved path. |
| IoStatic.ExistsDelivered | src/io-static.js:92 | `exists` delivers a boolean: whether storage holds the path under the server's root. |
| IoStatic.RemoteExistsIsLocal | src/fs.remote.js:72-75 | A remote `exists` resolves with whether storage holds the path resolved below both roots. |
| IoStatic.ServeStruct | src/io-static.js:94 | The `struct` listener succeeds with the local `struct` as values, or fails with its error's message. |
| IoStatic.StructDelivered | src/io-static.js:94 | `struct` delivers the local tree, or rejects with the local error's message. |
| IoStatic.EntriesJson | src/fs.local.js:123-129 | The `struct` nodes are data JSON carries unchanged. |
| IoStatic.RemoteStructIsLocal | src/fs.remote.js:87-90 | A remote `struct` resolves with the local `struct` of the doubly resolved path, or rejects with its message. |
| IoStatic.ServeStat | src/io-static.js:90 | The `stat` listener succeeds with the node's `Stats`, or fails with `ENOENT`. |
| IoStatic.StatDelivered | src/io-static.js:90 | A delivered `stat` reports the node's type as the booleans `isDirectory` and `isFile`, and its size. The birth time arrives as the ISO text of the `Date`. A missing node rejects with `ENOENT`. |
| IoStatic.StatsReceived | src/io-static.js:78 | The projected `Stats` as the peer reads it: the two predicates' answers and the size as they were, and the birth time as JSON writes a `Date`. |
| IoStatic.FieldsReceived | src/io-static.js:78 | Given an object's four `Stats` fields, the peer reads the booleans and the size back as they were and the birth time as a `Date`'s JSON text. |
| IoStatic.RemoteStatReportsType | src/fs.remote.js:54-57 | A remote `stat` resolves with `isDirectory`, `isFile` and `size` as storage has them. `birthtime` is the ISO text of storage's birth time, or `null` for an invalid date. A missing node rejects with `ENOENT`. |
| Wire.DateJson | src/io-static.js:78 | A `Date` travels as text iff its time value is valid, and that text parses back to the time value. An invalid date travels as `null`. |
| Wire.Encoded | src/io-static.js:78 | Only `undefined` and functions are left out. Primitives travel unchanged. An object arrives as a plain object of its encoded own properties. An array keeps its length. |
| Wire.OpaqueJson | src/io-static.js:78 | A `Date` travels as `DateJson` of its time value. Errors, maps, sets and promises arrive as `{}`. |
| Wire.EncodedSlots | src/io-static.js:78 | One element per element, in order, each encoded. |
| Wire.EncodedSlot | src/io-static.js:78 | A hole, `undefined` or a function in an array arrives as `null`. Any other element arrives as its encoding. |
| Wire.SentArgs | src/fs.remote.js:157 | The listener receives one argument per argument emitted, each encoded. |
| Wire.LookupEncoded | src/io-static.js:78 | A key of an encoded object holds the encoding of what it held, and an absent key stays absent. With distinct keys, a key whose value JSON leaves out is absent. |
| Wire.GetReceived | src/fs.remote.js:163-166 | Reading a property of a received plain object gives the encoding of the property sent. With distinct keys it gives `undefined` for a property left out. |
| Wire.JsonCarried | src/io-static.js:78 | Data without `undefined`, functions, class instances or holes, and with only plain objects, reads back unchanged. |
| Dates.YearOf | src/io-static.js:78 | The year a day count falls in and the day within it: the days of the years before plus the day give the count. |
| Dates.MonthOf | src/io-static.js:78 | The month a day of the year falls in and the day within it: the days of the months before plus the day give the day of the year. |
| Dates.CivilOf | src/io-static.js:78 | The calendar fields of a valid time value are in range, with the day within its month's length, and convert back to the same time value. |
| Dates.IsoText | src/io-static.js:78 | The ISO text has 24 characters, or 27 for a year past 9999. |
| Dates.ParseIso | src/http-dir.js:79 | Any time value read from the text is within the valid range. |
| Dates.ParseIsoText | src/http-dir.js:79 | Round trip: parsing the ISO text of a valid time value gives that time value. |
| Transform.Receiver | src/util/tranform.js:61 | The receiver `thisArg or target` is truthy whenever the target is. |
| Transform.Project | src/util/tranform.js:33-88 | Built-in instances, falsy values and non-objects come back unchanged. Otherwise arrays stay arrays and objects stay objects. |
| Transform.ProjectValue | src/util/tranform.js:57-77 | A function value becomes its call on the receiver, or is dropped when the call throws. A value at depth `MAX_DEPTH` (4) or beyond, or one that is not an object, is copied. |
| Transform.ProjectProps | src/util/tranform.js:56-79 | The projection introduces no key the target lacks. |
| Transform.ProjectPropsLookup | src/util/tranform.js:56-79 | Each own key reads its projected value. A key whose function threw is absent. |
| Transform.ProjectSlots | src/util/tranform.js:56-82 | Array slots are projected index by index. |
| Transform.ProjectSlot | src/util/tranform.js:56-79 | A hole stays a hole. |
| Transform.TrimHoles | src/util/tranform.js:80-82 | The array's length ends at its last assigned index. Only holes are cut. |
| Transform.ArrayIndices | src/util/tranform.js:55-82 | An array maps to an array with the same indices, merging no prototype. Trailing omitted slots are cut. |
| Transform.InheritedOverridesOwn | src/util/tranform.js:83-87 | An object becomes a plain object. A key the projected prototype has overrides the own key of the same name, and own keys read their projected values. |
| Transform.ProjectedKey | src/util/tranform.js:56-87 | The same rule, key by key. |
| Transform.ProjectedDataKey | src/util/tranform.js:75-76 | A key holding data keeps its value unless the prototype overrides it. |
| Transform.ReceiverThreaded | src/util/tranform.js:61-70 | Below the top level, the projection depends on the calls only through their results on the threaded receiver. |
| Transform.OutermostReceiver | src/util/tranform.js:61-87 | Every function in the tree is called on the outermost target. |
| Transform.PlainDataFixed | src/util/tranform.js:56-82 | Plain data without functions is its own projection, at any depth and with any receiver. |
| Transform.PlainSlotsFixed | src/util/tranform.js:80-82 | A plain array's slots are their own projection. |
| NodeValues.StatsMethodsReport | src/fs.local.js:117 | `isDirectory` and `isFile` are inherited methods of `Stats`. Called on it, they report the node's type. |
| NodeValues.StatsMode | src/fs.local.js:117 | The mode's file-type bits say directory or regular file. |
| NodeValues.StatsFields | src/http-static.js:38 | `size` and `birthtime` read the node's size and birth time. |
| NodeValues.StatsBaseProjected | src/util/tranform.js:83-87 | Projecting the prototype that holds the predicates calls each on the `Stats` object. Nothing else comes from it. |
| NodeValues.StatsChainProjected | src/util/tranform.js:83-87 | The whole prototype chain contributes only the two predicates' results. |
| NodeValues.StatsShapedKey | src/util/tranform.js:83-87 | A `Stats`-shaped object projects each key to its own data, or to the predicates' results. |
| NodeValues.StatsProjected | src/io-static.js:78 | A projected `Stats` carries `isDirectory` and `isFile` as booleans, with size and birth time. |
| NodeValues.EntriesVal | src/fs.local.js:123-129 | The `struct` result is an array with one value per node, in order. |
| NodeValues.ReaddirVal | src/fs.local.js:94-97 | `readdir` values: one per entry, named as the entry. |
| NodeValues.EntriesPlain | src/io-static.js:78 | A `struct` result is plain data, so the projection leaves it unchanged. |
| NodeValues.NamesPlain | src/io-static.js:78 | A list of entry names is plain data. |
| Helpers.StreamFor | src/util/helpers.js:12-33 | A stream is opened iff the value is a string or names a string `path`. A string opens that path with no options. An object opens its `path` with its `opts`. Anything else is returned as it is. |
| Helpers.ToReadStream | src/util/helpers.js:12-20 | The same dispatch, with the readable factory. |
| Helpers.ToWriteStream | src/util/helpers.js:25-33 | The same dispatch, with the writable factory. |
| Helpers.WriteMirrorsRead | src/util/helpers.js:25-33 | `toWriteStream` opens the same path with the same options as `toReadStream`, or returns the same value. |
| Helpers.ToStreamParams | src/util/helpers.js:40-47 | A string becomes `{path: s}`. Any other value, naming a path or not, comes back unchanged. |
| Helpers.ParamsOpenAlike | src/util/helpers.js:40-47 | Normalising to stream parameters first opens the same stream. |
| Helpers.ParamsIdempotent | src/util/helpers.js:40-47 | `toStreamParams` is idempotent. |
| Helpers.NoSandboxCheck | src/util/helpers.js:14-29 | Any path string, even one that climbs above every root, is opened as given. |
| Http.CheckRoot | src/http-action.js:44-54 | The factories' checks, in order: empty root, non-function `getSocket`, up root after normalisation. An accepted root is normalised with its segments kept. |
| Decimal.ParseNatText | src/http-static.js:38 | A size written as header text reads back as that size. |
| Decimal.IntText | src/http-static.js:48 | The text of an integer is non-empty and has only digits and a leading `-`, with no `/`, space, `.` or `,`. A non-negative integer is written as its digits without leading zeros. |
| Decimal.ParsePadded | src/http-dir.js:79 | A number written in a fixed number of digits, with leading zeros, reads back as that number when it fits. |
| Http.HeaderText | src/http-static.js:38 | `setHeader` accepts a value iff it is not `undefined` and its text has only tabs, visible ASCII, spaces and Latin-1 characters. The header is then that text. |
| Adapter.OverSocket | src/http-action.js:55-58 | `getFS()` yields a remote adapter iff there is a socket and the root is accepted. It keeps the socket and the root's segments. |
| Adapter.Exists | src/fs.local.js:71-74 | Awaiting `exists` fails on an up path. Locally it is whether storage holds the resolved path. |
| Adapter.Stat | src/fs.local.js:77-80 | Awaiting `stat` fails on an up path. Locally it is the node's `Stats`, or fails when the node is missing. |
| Adapter.Readdir | src/fs.local.js:94-97 | Awaiting `readdir` fails on an up path. Locally it is the directory's entries, with file types when asked. |
| Adapter.Mkdir | src/fs.local.js:106-109 | `mkdir` fails on an up path. |
| Adapter.Del | src/fs.local.js:100-103 | `del` fails on an up path. |
| Adapter.OpenStream | src/fs.local.js:135-144 | No stream is opened on an up path. |
| Adapter.OpenedUnderRoot | src/fs.remote.js:102-124 | Any stream either adapter opens is on a path whose segments are the root's followed by the caller's. |
| Adapter.ActionDispatch | src/fs.local.js:152-158 | On an accepted path, `action` is skipped iff there is no emitter. Otherwise it carries the action event, the action, the resolved path and the arguments. |
| Adapter.Flag | src/http-dir.js:56-61 | `call(stat, stat[key])` throws on `undefined` or `null`. It calls a function member on the stat, and returns any other member as it is. |
| Adapter.Member | src/http-dir.js:76 | Reading a member throws exactly on `undefined` or `null`. |
| Adapter.FlagsAgree | src/http-dir.js:56-78 | Whether `Stats` exposes `isFile` and `isDirectory` as methods or, after projection, as booleans, `call` reads the node's type. |
| HttpStatic.Create | src/http-static.js:12-22 | The factory throws `root path must not be empty`, then `getSocket must not be empty`, then `invalid root path`. An accepted root keeps its segments. |
| HttpStatic.CommonHeaders | src/http-static.js:29-34 | `Accept-Ranges: bytes` comes first. At most a `Content-Type` follows. |
| HttpStatic.TypeHead | src/http-static.js:30-34 | `Content-Type` is the MIME type with its charset, when a type is known. Otherwise it is not set. |
| HttpStatic.RangeHead | src/http-static.js:28-54 | Headers are set unless a Range header parses to an empty list. `Accept-Ranges` is always `bytes`. With no Range header, or an unsatisfiable or malformed one, the status is 200 with the full length, no `Content-Range` and no range options. |
| HttpStatic.WholeHead | src/http-static.js:37-39 | The whole file: 200, `Content-Length` the size, no `Content-Range`, no range options. |
| HttpStatic.Whole | src/http-static.js:37-39 | The whole-file plan exists iff `setHeader` accepts the size as a `Content-Length`, and is then the 200 plan. |
| HttpStatic.SizeHeaderSafe | src/http-static.js:38 | A numeric size is accepted as a header and written as its digits. |
| HttpStatic.ContentRangeSafe | src/http-static.js:49 | A `Content-Range` of numbers is always accepted as a header. |
| HttpStatic.PlanStatusMatchesOptions | src/http-static.js:36-53 | A plan's status is 206 iff it carries range options. |
| HttpStatic.UndefinedSizeHandedOn | src/http-static.js:38 | A stat without a `size` makes `setHeader` throw when there is no Range header, and the handler hands the request on. |
| HttpStatic.PartialHead | src/http-static.js:45-50 | A parsed range serves only the first range. The status is 206, and `Content-Length` reads back as `end - start + 1`. `Content-Range` parses back to `(start, end, size)`, and the options are `{start, end}`. |
| HttpStatic.PartialRange | src/http-static.js:46-50 | The partial plan's headers and options for one range, with `Content-Range` of `bytes start-end/size`. |
| HttpStatic.ContentRangeReadsBack | src/http-static.js:49 | `bytes start-end/size` parses back to its three numbers. |
| HttpStatic.StaticAnswers | src/http-static.js:60-96 | Any answer needs a URL that is not up, a socket, a truthy `exists`, a stat that resolves, and a truthy `isFile`. The head is the head of the plan `setHeaders` makes. HEAD answers with headers alone. GET streams `READ_FILE` on the resolved URL with exactly the plan's options, and its status is 206 iff range options were passed. |
| HttpStatic.StatAnswers | src/http-static.js:74-91 | Once the stat has been read, an answer needs a truthy `isFile` and a plan, and has the plan's head. A HEAD then answers with that head alone. A GET with a socket on an accepted URL then streams with the plan's options. |
| HttpStatic.HeadIsGetWithoutBody | src/http-static.js:79-88 | HEAD answers iff GET streams, with the same head. |
| HttpStatic.StatHeadIsGet | src/http-static.js:79-88 | The same, once the stat has been read. |
| HttpStatic.StatAnswered | src/http-static.js:74-76 | A remote stat that resolves gives the handler the `isFile` flag and size it carries. |
| HttpStatic.HeadDecision | src/http-static.js:70-82 | A HEAD without a Range header answers iff the path exists and is a file. It answers 200 with the size as `Content-Length`. |
| HttpStatic.HeadStat | src/http-static.js:76-82 | The same, once the stat has been read. |
| HttpStatic.HeadOverPeer | src/http-static.js:69-82 | Over any peer that answers `exists` and `stat` for a node, a HEAD answers iff the node is a file, and reports its size. |
| HttpStatic.StaticOverServed | src/http-static.js:60-82 | Over a socket served by `ioStatic`, a HEAD answers iff storage holds a file at the path resolved below both roots, and reports its size. |
| HttpDir.LocalFsFor | src/http-dir.js:21-24 | `httpDirLocal` builds a local adapter over the root, without an emitter. |
| HttpDir.CollapseSlashes | src/http-dir.js:74 | Collapsing `//` never lengthens the text. |
| HttpDir.CollapseUnchanged | src/http-dir.js:74 | Text without `//` is unchanged. |
| HttpDir.CollapseAfter | src/http-dir.js:74 | The scan replaces the first `//` and goes on after it. |
| HttpDir.EntityUrlAppends | src/http-dir.js:74 | After a clean URL ending in `/`, the entity URL is the URL followed by the name. |
| HttpDir.Names | src/http-dir.js:70-71 | The listing is usable iff it is an array of strings, and then gives those strings in order. |
| HttpDir.StatAll | src/http-dir.js:71 | All stats succeed or the listing fails. The i-th is the stat of `join(url, name_i)`. |
| HttpDir.EntityOf | src/http-dir.js:72-79 | An entity is built iff `size`, `isFile` and `isDirectory` can be read. It has the name, the collapsed URL and `parent = req.url`. |
| HttpDir.Entities | src/http-dir.js:72-79 | One entity per name, paired with the stat at the same index. |
| HttpDir.Listing | src/http-dir.js:70-79 | Every listed entity has `parent = req.url` and the URL built from its name. |
| HttpDir.Insert | src/http-dir.js:80-82 | Inserting adds exactly the entity. |
| HttpDir.SortByNewest | src/http-dir.js:80-82 | Sorting is a permutation. |
| HttpDir.InsertNewestFirst | src/http-dir.js:80-82 | Inserting a dated entity keeps a dated list newest first. |
| HttpDir.SortedNewestFirst | src/http-dir.js:80-82 | Dated entities come out newest first. |
| HttpDir.InsertKeepsOrder | src/http-dir.js:80-82 | Inserting keeps the order among entities created at the same time. |
| HttpDir.SortStable | src/http-dir.js:80-82 | Entities created at the same time keep their `readdir` order. |
| HttpDir.DirAnswers | src/http-dir.js:41-90 | Only a GET through a connected adapter on an existing path answers. A directory whose `originalUrl` lacks a trailing `/` is redirected to `originalUrl + '/'`. A listing has `parent = req.url` throughout, and dated entities are newest first. |
| HttpDir.DirectoryAnswered | src/http-dir.js:55-84 | For a directory, the handler redirects, lists the sorted entities, or hands on when the listing fails. |
| HttpDir.DirectoryListed | src/http-dir.js:63-84 | A listed directory answers with a newest-first permutation of its entities. |
| HttpDir.StatsEntity | src/http-dir.js:72-79 | A child's `Stats` make its entity: the child's size, type flags and birth time. |
| HttpDir.TimeOf | src/http-dir.js:79 | `new Date(v).getTime()` is within the valid range when valid. A string is read in the layout `toISOString` writes. |
| HttpDir.WireDateRead | src/http-dir.js:79 | A valid birth time read back from the ISO text the wire carries is the time value a local listing reads from the `Date`. |
| HttpDir.ChildrenDated | src/http-dir.js:72-79 | The children's entities are all dated iff every child's birth time is a valid date. |
| HttpDir.LocalDirFound | src/http-dir.js:47-55 | Locally, a listable directory exists, stats as a directory, and the adapter is connected. |
| HttpDir.LocalNames | src/http-dir.js:70 | Locally, `readdir` without file types gives the children's names. |
| HttpDir.LocalChildStat | src/http-dir.js:71 | Locally, each child's stat is found at `join(url, name)`. |
| HttpDir.LocalStats | src/http-dir.js:71 | Locally, the stats are the children's, in order. |
| HttpDir.LocalEntities | src/http-dir.js:72-79 | Locally, the entities are the children's. |
| HttpDir.LocalListing | src/http-dir.js:70-79 | Locally, the listing of a directory is one entity per child, in storage order. |
| HttpDir.ListingOf | src/http-dir.js:70-79 | When `readdir` gives the names and every name's stat succeeds, the listing is the entities built from them. |
| HttpDir.LocalDirAnswers | src/http-dir.js:41-90 | Locally, a GET on a directory redirects without a trailing `/`. With one, it lists a newest-first permutation of the children's entities. |
| HttpAction.LocalAdapter | src/http-action.js:87-97 | `httpActionLocal` throws on an empty or up root, and otherwise builds a local adapter that has an emitter iff one was given. |
| HttpAction.RemoteAdapter | src/http-action.js:44-59 | `httpActionRemote` throws on an empty root, a non-function `getSocket` or an up root. Per request it yields an adapter iff there is a socket. |
| HttpAction.Spread | src/http-action.js:112 | `args` defaults to `[]`. An array spreads its elements, with holes as `undefined`, and a string its characters. Anything else throws. |
| HttpAction.OnJsonAnswers | src/http-action.js:110-127 | `onJSON` answers iff the body names an allowed action, the adapter has an emitter, and the arguments spread. The action then goes out with its name and the resolved path before the arguments. |
| HttpAction.ActionAnswers | src/http-action.js:133-155 | The handler answers iff every condition holds: accepted path, connected adapter, POST, existing path, allowed action, emitter. An action not on the list is never dispatched. |
| HttpAction.LocalExists | src/http-action.js:146-149 | Locally, a path storage holds exists. |
| HttpAction.ReachesJson | src/http-action.js:133-150 | Locally, a POST on a path storage holds reaches `onJSON`. |
| HttpAction.JsonEmits | src/http-action.js:110-127 | Locally, with an emitter, an allowed action is emitted with the resolved path second. |
| HttpAction.LocalEmission | src/http-action.js:119-121 | The whole handler does the same. |
| HttpAction.LocalActionEmitted | src/http-action.js:87-97 | Through `httpActionLocal` with an emitter, the emitted path lies below the root. |
| HttpFs.ContentType | src/http-fs.js:184 | The content type is the header when it is set and non-empty, and `''` otherwise. |
| HttpFs.CaseBlind | src/http-fs.js:194-198 | The content-type tests ignore letter case. |
| HttpFs.ContentTypesTold | src/http-fs.js:194-198 | A multipart type with a boundary is form data. `application/json` is JSON and not form data. |
| HttpFs.DownloadFile | src/http-fs.js:58-72 | Nothing is written without a URL. At most one write is opened, fed from the URL, at `join(pathname, basename(name))` when a name is set. Otherwise it is at the basename of the URL's path. Conversely, a usable name is written to iff its write stream opens; a refused stream is thrown. Without a usable name, or with no name and a URL path of `/` or empty, nothing is written or thrown. `new URL` throws exactly on a URL it cannot parse. `basename` throws exactly on a truthy name that is not a string. |
| HttpFs.DownloadConfined | src/http-fs.js:58-72 | Every download target is accepted and opened below the adapter's root. |
| HttpFs.CreateDirectory | src/http-fs.js:79-86 | A directory is made iff the name is a non-empty string that is not up, at `join(pathname, normalize(name))`. A non-string name or a failing `mkdir` throws. |
| HttpFs.DirectoryBelow | src/http-fs.js:79-86 | The directory made lies below the request's path: its segments are the path's followed by the name's. |
| HttpFs.Upload | src/http-fs.js:103-116 | At most one write. A part is written iff its filename and the filename's basename are non-empty and the adapter opens a stream at `join(pathname, basename(filename))`. The write is then that stream, fed from the part. |
| HttpFs.UploadsConfined | src/http-fs.js:103-116 | Every uploaded part is written below the root. |
| HttpFs.Accepted | src/http-fs.js:102 | At most one file part is accepted per form. |
| HttpFs.Reported | src/http-fs.js:134-137 | Events are read up to the first parse error. |
| HttpFs.OnClose | src/http-fs.js:138-147 | The form is answered `OK` iff neither the download nor the directory creation throws. A throwing download is answered with its cause, and the directory is not created. Otherwise the calls are the download's, then the directory's. |
| HttpFs.ReceiveForm | src/http-fs.js:134-147 | A form with an error event is answered `400 FAIL`. Otherwise it is answered `OK` iff neither the download nor the directory creation throws. Either way the calls are the uploads', then the `close` handler's on the fields read. |
| HttpFs.ReadForm | src/http-fs.js:102-137 | A form writes at most one file, and fails iff busboy reports an error. |
| HttpFs.FieldsLastWin | src/http-fs.js:121-133 | `file_url`, `file_name` and `dir_name` each hold the last value given. Other fields are ignored. |
| HttpFs.ReceiveConfined | src/http-fs.js:102-147 | Every write and directory a form causes lies below the root. |
| HttpFs.OnFormData | src/http-fs.js:92-149 | A failing `exists` hands on with no calls. A missing target is created first. An existing one is not, and only the form's calls follow. When busboy refuses the headers, the request is handed on or answered 403, after at most the creation of the target. |
| HttpFs.FormRead | src/http-fs.js:92-148 | On a directory target, created first when missing, a form busboy reads is answered as the form is. The calls are the `mkdir`, if any, then the form's. |
| HttpFs.FormRefused | src/http-fs.js:102 | When busboy throws on the headers for an existing directory, the request is handed on with no calls. |
| HttpFs.UpArrayDirectory | src/http-fs.js:80 | A `dir_name` that is a one-element array holding an up path makes no directory. Without a `file_url`, the JSON handler hands on. |
| HttpFs.ArrayDirectoryThrows | src/http-fs.js:80-84 | A `dir_name` that is a one-element array holding an accepted path passes `isup` by its text, and then `normalize` throws. |
| HttpFs.ArrayUrlReadAsText | src/http-fs.js:59-61 | A `file_url` that is a one-element array holding a URL downloads as that URL would. |
| HttpFs.FormNeedsDirectory | src/http-fs.js:97-101 | An existing target that is not a directory is answered 403 `NOT ALLOWED` with no calls. |
| HttpFs.LocalFormOnFile | src/http-fs.js:94-101 | Locally, a form posted on a file is answered 403 with no calls. |
| HttpFs.FormConfined | src/http-fs.js:92-149 | Every call the form handler makes lies below the root. |
| HttpFs.JsonAnswers | src/http-fs.js:157-167 | The JSON handler answers `OK` iff there is a body, `dir_name` is non-empty and not up or `file_url` is set, and neither step threw. Otherwise it hands on. Without a URL, an answered request made exactly the one directory. |
| HttpFs.JsonOkWithoutFile | src/http-fs.js:160-164 | A URL whose path is `/`, with no name and no directory, is answered `OK` although nothing is written. |
| HttpFs.JsonConfined | src/http-fs.js:157-167 | Every call the JSON handler makes lies below the root. |
| HttpFs.OnDelete | src/http-fs.js:186-192 | A DELETE deletes the path or does nothing. |
| HttpFs.DeleteAnswers | src/http-fs.js:186-192 | The path is deleted iff it exists. The answer is `OK` iff the delete also succeeded, and otherwise the request is handed on. |
| HttpFs.LocalDeleteNeedsEntry | src/http-fs.js:186-189 | Locally, a DELETE on a missing path hands on with no calls. |
| HttpFs.HandlerConfined | src/http-fs.js:173-210 | No call is made for an up path or without an adapter. Every call lies below the adapter's root. |

The http-fs factories (src/http-fs.js:15-44) make the same checks as the
http-action ones and throw the same messages. `Http.CheckRoot` with the
adapter messages models both. `httpFSLocal` builds its adapter without an
emitter. `httpDirRemote`, like the other remote factories, builds its
adapter through `Adapter.OverSocket`.

## Left out

- **Byte streams, piping, backpressure and the content of files.**
  - Streams are fresh numbers.
  - A write or a delete is a call handed to the `effects` parameter.
  - Where the source pipes a stream, the model records the call that
    opened it.
- **socket.io transport.**
  - A socket's far end is the `peer` function.
  - The acknowledgement timer is the transport error it produces.
  - socket.io-stream is the stream channel of a registration. The
    `{path, opts}` a stream listener gets is taken as it arrives.
  - The JSON encoding of emitted and acknowledged values is modelled by
    `Wire`, with two gaps. A plain object's own `toJSON` method is not
    called. A `String`, `Number` or `Boolean` wrapper object travels as
    itself rather than as its primitive, because the model does not
    hold the primitive inside it.
- **External libraries whose results are parameters.**
  - `range-parser` and `mime` lookups.
  - busboy's parsing of multipart bodies, given as a sequence of file,
    field and error events.
  - `got` downloads.
  - WHATWG URL parsing of a download URL, a function to its `pathname`.
  - The request's `pathname`, taken as given on the request.
- **Express.** `req`, `res` and `next` become the reply datatypes. Only
  the decisions are modelled, not the HTTP wire format.
- **Windows path semantics.** Only Node's POSIX `normalize`, `join` and
  `basename` are modelled. The pattern still treats `\` as a boundary.
- **Floating-point numbers, `NaN` and date strings.**
  - Numbers are integers.
  - `new Date(stat.birthtime)` is read from a `Date`, a number, `null`,
    a boolean, or text in the layout `toISOString` writes. The other
    layouts `Date.parse` accepts are read as invalid dates. So are
    years before 1970 and the hour `24`.
  - A `Date`'s time value is a `nat`, so dates before 1970 are not
    modelled.
  - An entity without a valid date keeps its place among equals, where
    JavaScript's comparator returns `NaN`.
- **Property getters.**
  - A property read never throws, so the projection's `catch` that keeps
    the raw value on a throwing nested projection is never reached.
  - Spreading a `Map` or a `Set` is not modelled. A string spreads into
    its characters, as a `seq<char>` does.
- **debug logging.**
- **Error objects.**
  - Only the messages the model needs are kept: `malicious path: p`,
    Node's type error for a non-string path, and the factories'
    messages.
  - A storage error's message is abbreviated to its code. A missing
    path rejects with `ENOENT`, where Node's message reads
    `ENOENT: no such file or directory, stat '<path>'`.
  - Transport errors and the missing-socket `TypeError` are opaque
    values.
- **The 1 GB busboy `fileSize` limit.** It is recorded as a constant and
  not enforced, because file contents are not modelled.
- **A second response after a busboy error.** When the form errors and
  then closes, the source answers `FAIL` first. The `close` handler
  still runs: its download and directory creation are among the calls.
  Its own answer, sent after `FAIL`, is not modelled.
- **Other files.**
  - src/io-stream.js wires streams to the helpers.
  - index.js exports the modules.
  - src/util/devNull.js is a discarding sink.
  - src/util/deffer.js is folded into the remote call's settlement.
  - src/util/parseurl.js is replaced by the request's `pathname`.
- **`isup`'s module.** src/fs.local.js:4 requires `./util/isup`, which
  is not part of this model. The model takes it to be the `isup` that
  src/util/path.js:7-10 defines, and the `Sandbox` rows cite that file.
- **Headers and URLs of unusual types.**
  - A header set before a throwing `setHeader` stays on the response.
    The model records only that the request is handed on.
  - `setHeader` with an array value sets several header lines. The
    model reads an array size as its text.
  - `got.stream` is given the download URL as it is. How got treats a
    URL that is not a string is not modelled.
- **The action event name.** src/util/events.js defines no `ACTION` key,
  so the action event's name is `undefined` wherever the source emits or
  listens for it. `Events.Name` models exactly that.
- **The projection's precedence.** A key the projected prototype has
  overrides an own key of the same name, because the code spreads the
  prototype after the own keys. The model follows the code rather than
  the opposite reading.
- Js.StringOf: a built-in instance whose text depends on its contents,
  and a function, read `[object Object]`. This covers a buffer's bytes, a
  date's text, an error's `Error: message`, a boxed string and a typed
  array's numbers. Values carry no contents, so `String(v)` of these
  cannot be computed. As a consequence, a path argument that is a
  `Buffer` or a `String` object holding `..` is refused with the type
  error rather than `malicious path: ..`. A `Buffer` can arrive that way,
  since binary data crosses the socket as a `Buffer`.
- Disk.LookupPath: absolute and relative paths look up alike from the
  top of the tree, and a leading `..` that a relative path keeps is
  dropped. In Node a relative root resolves against the process's
  working directory, which the model does not have.
- Adapter.Mkdir: states only that an up path fails. What storage or the
  peer does with an accepted path is the `effects` or `peer` parameter's.
- Adapter.Del: states only that an up path fails, for the same reason.
- Adapter.OpenStream: states only that an up path opens nothing.
  `Adapter.OpenedUnderRoot` states where an opened stream lies.
- IoStatic.ServePath: its own contract states only the sandbox failure.
  `ServeExists`, `ServeStat` and `ServeStruct` state the listeners'
  results one by one.
- HttpDir.CollapseSlashes: its own contract states only that the text
  does not grow. `CollapseUnchanged` and `CollapseAfter` state the
  left-to-right replacement.

=== FILE: adapter.dfy ===
/**
 * The adapter an HTTP handler obtains from `getFS()`, as the handler sees
 * it: either a local adapter over a storage tree, or a remote adapter over
 * a socket whose far end answers each request. Every call is awaited by
 * the handlers inside a `try`, so a synchronous throw and a rejected
 * promise are one and the same outcome to them.
 */
module Adapter {
  import opened Wrappers
  import opened PosixPath
  import opened Sandbox
  import opened Disk
  import opened Js
  import opened NodeValues
  import opened Transform
  import FsLocal
  import FsRemote
  import Events

  /** What storage answers to the calls that change it (`del`, `mkdir`): a value, or an error message. */
  type Effects = FsLocal.StorageCall -> Result<Val, string>

  /** The far end of a socket: the `(err, res)` each request is acknowledged with. */
  type Peer = FsRemote.Request -> (Val, Val)

  datatype Fs =
    | LocalFs(local: FsLocal.Local, disk: Node, effects: Effects)
    | RemoteFs(remote: FsRemote.Remote, peer: Peer)

  /** An awaited adapter call: the value it resolved with, or `Failed` when it threw or rejected. */
  datatype Awaited = Done(value: Val) | Failed

  /** A stream an adapter opened: the storage call of a local one, the announcement of a remote one. */
  datatype Opened = LocalStream(call: FsLocal.StorageCall) | RemoteStream(announcement: FsRemote.Announcement)

  /** What `action` did: emitted locally, sent over the socket, or nothing for want of an emitter. */
  datatype Dispatched = Emitted(emission: FsLocal.Emission) | Sent(request: FsRemote.Request) | Skipped

  function Root(fs: Fs): string {
    match fs
    case LocalFs(local, _, _) => local.root
    case RemoteFs(remote, _) => remote.root
  }

  /** `fs.isConnected()` read as a condition. */
  predicate Connected(fs: Fs) {
    match fs
    case LocalFs(local, _, _) => FsLocal.IsConnected(local)
    case RemoteFs(remote, _) => Truthy(FsRemote.IsConnected(remote))
  }

  /** `fs.emitter` read as a condition: the local adapter's emitter, the remote adapter's socket. */
  predicate HasEmitter(fs: Fs) {
    match fs
    case LocalFs(local, _, _) => local.hasEmitter
    case RemoteFs(remote, _) => remote.socket.Some?
  }

  /**
   * The `getFS()` of a remote factory, `socket ? new FSRemote(root, socket)
   * : undefined`: nothing without a socket, and nothing when the
   * constructor throws on an up root, which the handlers' `try` turns into
   * `next()` just as they do a missing adapter.
   */
  function OverSocket(root: string, socket: Option<FsRemote.Socket>, peer: Peer): (r: Option<Fs>)
    ensures r.Some? <==> socket.Some? && !IsUp(Normalize(root))
    ensures r.Some? ==> r.value.RemoteFs? && r.value.remote.socket == socket && Segments(Root(r.value)) == Segments(root)
  {
    if socket.None? then None
    else
      match FsRemote.Create(root, socket, None)
      case Failure(_) => None
      case Success(remote) => Some(RemoteFs(remote, peer))
  }

  function FromLocal<T>(res: Result<T, FsLocal.LocalError>, f: T -> Val): (r: Awaited)
    ensures r.Done? <==> res.Success?
    ensures r.Done? ==> r.value == f(res.value)
  {
    match res
    case Success(v) => Done(f(v))
    case Failure(_) => Failed
  }

  function FromEffect(call: Result<FsLocal.StorageCall, FsLocal.LocalError>, effects: Effects): (r: Awaited)
    ensures r.Done? <==> call.Success? && effects(call.value).Success?
    ensures r.Done? ==> r.value == effects(call.value).value
  {
    match call
    case Failure(_) => Failed
    case Success(c) =>
      (match effects(c)
       case Success(v) => Done(v)
       case Failure(_) => Failed)
  }

  function FromRemote(res: Result<FsRemote.Settled, FsRemote.RemoteError>): (r: Awaited)
    ensures r.Done? <==> res.Success? && res.value.Resolved?
    ensures r.Done? ==> r.value == res.value.value
  {
    match res
    case Success(Resolved(v)) => Done(v)
    case _ => Failed
  }

  /** `await fs.exists(p)` */
  function Exists(fs: Fs, p: string): (r: Awaited)
    ensures IsUp(p) ==> r == Failed
    ensures fs.LocalFs? && !IsUp(p) ==> r == Done(Bool(StatAt(fs.disk, Resolve(fs.local.root, p)).Success?))
  {
    match fs
    case LocalFs(local, disk, _) => FromLocal(FsLocal.Exists(local, disk, p), b => Bool(b))
    case RemoteFs(remote, peer) => FromRemote(FsRemote.Call(remote, FsRemote.ExistsCall, p, [], peer))
  }

  /** `await fs.stat(p)`: a local adapter resolves with a `Stats` object, a remote one with what its peer sent. */
  function Stat(fs: Fs, p: string): (r: Awaited)
    ensures IsUp(p) ==> r == Failed
    ensures fs.LocalFs? && !IsUp(p) ==>
      match LookupPath(fs.disk, Resolve(fs.local.root, p))
      case Some(n) => r == Done(StatsVal(StatOf(n)))
      case None => r == Failed
  {
    match fs
    case LocalFs(local, disk, _) => FromLocal(FsLocal.Stat(local, disk, p), StatsVal)
    case RemoteFs(remote, peer) => FromRemote(FsRemote.Call(remote, FsRemote.StatCall, p, [], peer))
  }

  /** `await fs.readdir(p, opts)` */
  function Readdir(fs: Fs, p: string, opts: Val): (r: Awaited)
    ensures IsUp(p) ==> r == Failed
    ensures fs.LocalFs? && !IsUp(p) ==>
      match ReaddirAt(fs.disk, Resolve(fs.local.root, p))
      case Success(entries) => r == Done(ReaddirVal(entries, WithFileTypes(opts)))
      case Failure(_) => r == Failed
  {
    match fs
    case LocalFs(local, disk, _) =>
      FromLocal(FsLocal.Readdir(local, disk, p), entries => ReaddirVal(entries, WithFileTypes(opts)))
    case RemoteFs(remote, peer) => FromRemote(FsRemote.Call(remote, FsRemote.ReaddirCall, p, [opts], peer))
  }

  /** `await fs.mkdir(p, opts)` */
  function Mkdir(fs: Fs, p: string, opts: Val): (r: Awaited)
    ensures IsUp(p) ==> r == Failed
  {
    match fs
    case LocalFs(local, _, effects) => FromEffect(FsLocal.Call(local, FsLocal.MkdirOp, p, [opts]), effects)
    case RemoteFs(remote, peer) => FromRemote(FsRemote.Call(remote, FsRemote.MkdirCall, p, [opts], peer))
  }

  /** `await fs.del(p)` */
  function Del(fs: Fs, p: string): (r: Awaited)
    ensures IsUp(p) ==> r == Failed
  {
    match fs
    case LocalFs(local, _, effects) => FromEffect(FsLocal.Call(local, FsLocal.DelOp, p, []), effects)
    case RemoteFs(remote, peer) => FromRemote(FsRemote.Call(remote, FsRemote.DelCall, p, [], peer))
  }

  /**
   * `fs.createReadStream(p, opts)` or `fs.createWriteStream(p, opts)`;
   * `stream` is the remote adapter's fresh duplex. `None` when it throws.
   */
  function OpenStream(fs: Fs, write: bool, p: string, opts: Val, stream: nat): (r: Option<Opened>)
    ensures IsUp(p) ==> r == None
  {
    match fs
    case LocalFs(local, _, _) =>
      (match FsLocal.Call(local, if write then FsLocal.WriteStreamOp else FsLocal.ReadStreamOp, p, [opts])
       case Success(c) => Some(LocalStream(c))
       case Failure(_) => None)
    case RemoteFs(remote, _) =>
      match FsRemote.OpenStream(remote, write, p, opts, stream)
      case Success(pair) => Some(RemoteStream(pair.1))
      case Failure(_) => None
  }

  /** `fs.action(action, p, ...args)`; `None` when it throws. */
  function Action(fs: Fs, action: string, p: string, args: seq<Val>): (r: Option<Dispatched>)
  {
    match fs
    case LocalFs(local, _, _) =>
      (match FsLocal.Action(local, action, p, args)
       case Success(outcome) => Some(if outcome.emitted.Some? then Emitted(outcome.emitted.value) else Skipped)
       case Failure(_) => None)
    case RemoteFs(remote, _) =>
      match FsRemote.Action(remote, action, p, args)
      case Success(pair) => Some(if pair.1.Some? then Sent(pair.1.value) else Skipped)
      case Failure(_) => None
  }

  /** The storage path a local stream was opened on, or the path a remote one announced. */
  function OpenedPath(o: Opened): Val {
    match o
    case LocalStream(c) => Str(c.path)
    case RemoteStream(a) => Get(a.target, "path")
  }

  /** What an action carries: the event and its arguments. */
  function Payload(d: Dispatched): (Val, seq<Val>) {
    match d
    case Emitted(e) => (e.event, e.args)
    case Sent(q) => (q.event, q.args)
    case Skipped => (Undefined, [])
  }

  // ---------------------------------------------------------------------
  // The `call(target, fn)` helper of the handlers

  /**
   * `call(stat, stat[key])`: a member that is a function is called with
   * `stat` as receiver, any other member is its own answer. `None` when
   * this throws, which reading a member of `undefined` or `null` does.
   */
  function Flag(stat: Val, key: string, invoke: Invoke): (r: Option<Val>)
    ensures stat == Undefined || stat == Null ==> r == None
    ensures stat != Undefined && stat != Null && !Get(stat, key).Fn? ==> r == Some(Get(stat, key))
    ensures stat != Undefined && stat != Null && Get(stat, key).Fn? ==> r == invoke(Get(stat, key).fid, stat)
  {
    if stat == Undefined || stat == Null then None
    else
      var member := Get(stat, key);
      if member.Fn? then invoke(member.fid, stat) else Some(member)
  }

  /** `stat[key]`, which throws on `undefined` and `null`. */
  function Member(v: Val, key: string): (r: Option<Val>)
    ensures r.None? <==> v == Undefined || v == Null
    ensures r.Some? ==> r.value == Get(v, key)
  {
    if v == Undefined || v == Null then None else Some(Get(v, key))
  }

  // ---------------------------------------------------------------------
  // Properties

  /**
   * The helper reads a stat's type alike from a local `Stats` object,
   * whose predicates are inherited methods, and from its projection as a
   * peer receives it, where they are booleans.
   */
  lemma FlagsAgree(st: Stat, invoke: Invoke)
    requires ImplementsStats(invoke)
    ensures Flag(StatsVal(st), "isDirectory", invoke) == Some(Bool(st.isDirectory))
    ensures Flag(StatsVal(st), "isFile", invoke) == Some(Bool(!st.isDirectory))
    ensures Flag(TransformValues(StatsVal(st), invoke), "isDirectory", invoke) == Some(Bool(st.isDirectory))
    ensures Flag(TransformValues(StatsVal(st), invoke), "isFile", invoke) == Some(Bool(!st.isDirectory))
  {
    StatsMethodsReport(st);
    StatsProjected(st, invoke);
  }

  /**
   * Whatever the adapter, a stream is only ever opened on a path below the
   * adapter's root: the root's segments followed by those of the
   * caller's path.
   */
  lemma OpenedUnderRoot(fs: Fs, write: bool, p: string, opts: Val, stream: nat)
    requires OpenStream(fs, write, p, opts, stream).Some?
    ensures !IsUp(p)
    ensures var path := OpenedPath(OpenStream(fs, write, p, opts, stream).value);
      path.Str? && Segments(path.s) == Segments(Root(fs)) + Segments(p)
  { }

  /**
   * An action is dispatched exactly when the adapter has an emitter, as
   * the ACTION event with the action's name and the resolved path in front
   * of the caller's arguments.
   */
  lemma ActionDispatch(fs: Fs, action: string, p: string, args: seq<Val>)
    requires !IsUp(p)
    ensures Action(fs, action, p, args).Some?
    ensures Action(fs, action, p, args).value.Skipped? <==> !HasEmitter(fs)
    ensures HasEmitter(fs) ==>
      Payload(Action(fs, action, p, args).value) ==
        (Events.Name(Events.Action), [Str(action), Str(Resolve(Root(fs), p))] + args)
  { }
}

=== FILE: dates.dfy ===
/**
 * Time values of ECMA-262 `Date` objects, the text
 * `Date.prototype.toISOString` writes for them, and `Date.parse` of that
 * text. A time value counts milliseconds from 1970-01-01T00:00:00Z; the
 * times stored here are never before the epoch.
 */
module Dates {
  import opened Wrappers
  import opened Decimal

  const MsPerDay: nat := 86400000

  /** The largest time value a `Date` holds: 8.64e15 ms, 100 000 000 days. */
  const MaxTime: nat := 8640000000000000

  /** TimeClip: an integral time value beyond 8.64e15 ms either side of the epoch is invalid (`NaN`), which is `None`. */
  function TimeClip(n: int): (r: Option<int>)
    ensures r.Some? <==> -(MaxTime as int) <= n <= MaxTime
    ensures r.Some? ==> r.value == n
  {
    if -(MaxTime as int) <= n <= MaxTime then Some(n) else None
  }

  predicate IsLeap(y: int) {
    y % 4 == 0 && (y % 100 != 0 || y % 400 == 0)
  }

  function YearDays(y: int): nat {
    if IsLeap(y) then 366 else 365
  }

  function MonthDays(y: int, m: int): nat
    requires 1 <= m <= 12
  {
    if m == 2 then (if IsLeap(y) then 29 else 28)
    else if m == 4 || m == 6 || m == 9 || m == 11 then 30
    else 31
  }

  /** The days of the months `m` to December of year `y`. */
  function RestOfYear(y: int, m: int): nat
    requires 1 <= m <= 13
    decreases 13 - m
  {
    if m == 13 then 0 else MonthDays(y, m) + RestOfYear(y, m + 1)
  }

  /** The days of the years from `lo` up to, not including, `hi`. */
  function YearSpan(lo: int, hi: int): nat
    requires lo <= hi
    decreases hi - lo
  {
    if lo == hi then 0 else YearDays(lo) + YearSpan(lo + 1, hi)
  }

  /** The days of the months from `lo` up to, not including, `hi`, in year `y`. */
  function MonthSpan(y: int, lo: int, hi: int): nat
    requires 1 <= lo <= hi <= 13
    decreases hi - lo
  {
    if lo == hi then 0 else MonthDays(y, lo) + MonthSpan(y, lo + 1, hi)
  }

  /** The year `days` days after 1 January of year `y` falls in, and the day within it, from 0. */
  function YearOf(y: nat, days: nat): (r: (nat, nat))
    ensures y <= r.0 && r.1 < YearDays(r.0)
    ensures YearSpan(y, r.0) + r.1 == days
    decreases days
  {
    if days < YearDays(y) then (y, days) else YearOf(y + 1, days - YearDays(y))
  }

  /** The month day `d` of year `y`, counted from 0 at the start of month `m`, falls in, and the day within it. */
  function MonthOf(y: int, m: int, d: nat): (r: (int, nat))
    requires 1 <= m <= 12 && d < RestOfYear(y, m)
    ensures m <= r.0 <= 12 && r.1 < MonthDays(y, r.0)
    ensures MonthSpan(y, m, r.0) + r.1 == d
    decreases 12 - m
  {
    if d < MonthDays(y, m) then (m, d) else MonthOf(y, m + 1, d - MonthDays(y, m))
  }

  /** The twelve months make up the year. */
  lemma WholeYear(y: int)
    ensures RestOfYear(y, 1) == YearDays(y)
  { }

  lemma {:induction false} YearSpanAtLeast(lo: int, hi: int)
    requires lo <= hi
    ensures YearSpan(lo, hi) >= 365 * (hi - lo)
    decreases hi - lo
  {
    if lo < hi {
      YearSpanAtLeast(lo + 1, hi);
    }
  }

  /** Every valid time falls in a year of at most six digits. */
  lemma YearBound(days: nat)
    requires days <= MaxTime / MsPerDay
    ensures YearOf(1970, days).0 < 1000000
  {
    YearSpanAtLeast(1970, YearOf(1970, days).0);
  }

  /** The year as `toISOString` writes it: four digits, or a sign and six digits past 9999. */
  function YearText(y: nat): (r: string)
    requires y < 1000000
    ensures |r| == (if y <= 9999 then 4 else 7)
  {
    if y <= 9999 then Padded(y, 4) else "+" + Padded(y, 6)
  }

  /** `-MM-DDTHH:mm:ss.sssZ` */
  function ClockText(m: nat, d: nat, h: nat, mi: nat, s: nat, ms: nat): (r: string)
    ensures |r| == 20
  {
    "-" + Padded(m, 2) + "-" + Padded(d, 2) + "T" + Padded(h, 2) + ":" + Padded(mi, 2) + ":" + Padded(s, 2)
      + "." + Padded(ms, 3) + "Z"
  }

  /** A calendar date and time of day in UTC; `d` counts from 1. */
  datatype Civil = Civil(y: nat, m: nat, d: nat, h: nat, mi: nat, s: nat, ms: nat)
  {
    /** The fields are in range for a time `toISOString` writes. */
    predicate Valid() {
      1970 <= y < 1000000 && 1 <= m <= 12 && 1 <= d <= MonthDays(y, m) && h < 24 && mi < 60 && s < 60 && ms < 1000
    }
  }

  /** The time value of a calendar date and time from 1970 on. */
  function TimeValue(c: Civil): nat
    requires 1970 <= c.y && 1 <= c.m <= 12 && 1 <= c.d
  {
    (YearSpan(1970, c.y) + MonthSpan(c.y, 1, c.m) + c.d - 1) * MsPerDay + ((c.h * 60 + c.mi) * 60 + c.s) * 1000 + c.ms
  }

  /** The calendar date and time of the time value `t`. */
  function CivilOf(t: nat): (r: Civil)
    requires t <= MaxTime
    ensures r.Valid() && TimeValue(r) == t
  {
    var days := t / MsPerDay;
    var yd := YearOf(1970, days);
    YearBound(days);
    WholeYear(yd.0);
    var md := MonthOf(yd.0, 1, yd.1);
    var ms := t % MsPerDay;
    var sec := ms / 1000;
    var min := sec / 60;
    var r := Civil(yd.0, md.0, md.1 + 1, min / 60, min % 60, sec % 60, ms % 1000);
    assert ms == ((r.h * 60 + r.mi) * 60 + r.s) * 1000 + r.ms;
    r
  }

  /**
   * `new Date(t).toISOString()` for a valid time value: the calendar date
   * and the time of day, in UTC, to the millisecond.
   */
  function IsoText(t: nat): (r: string)
    requires t <= MaxTime
    ensures |r| == 24 || |r| == 27
  {
    var c := CivilOf(t);
    YearText(c.y) + ClockText(c.m, c.d, c.h, c.mi, c.s, c.ms)
  }

  /**
   * `Date.parse(s)` for text in the layout `toISOString` writes: the time
   * value, or `None` for text out of that layout, a field out of range, a
   * year before 1970 or a time past the largest.
   */
  function ParseIso(s: string): (r: Option<nat>)
    ensures r.Some? ==> r.value <= MaxTime
  {
    if |s| == 24 then ParseFields(s[..4], s[4..])
    else if |s| == 27 && s[0] == '+' then ParseFields(s[1..7], s[7..])
    else None
  }

  /** The layout of the text after the year. */
  predicate ClockLayout(c: string) {
    && |c| == 20
    && c[0] == '-' && c[3] == '-' && c[6] == 'T' && c[9] == ':' && c[12] == ':' && c[15] == '.' && c[19] == 'Z'
    && AllDigits(c[1..3]) && AllDigits(c[4..6]) && AllDigits(c[7..9]) && AllDigits(c[10..12])
    && AllDigits(c[13..15]) && AllDigits(c[16..19])
  }

  function ParseFields(year: string, clock: string): (r: Option<nat>)
    ensures r.Some? ==> r.value <= MaxTime
  {
    if !AllDigits(year) || !ClockLayout(clock) then None
    else
      var c := Civil(ParseNat(year), ParseNat(clock[1..3]), ParseNat(clock[4..6]), ParseNat(clock[7..9]),
                     ParseNat(clock[10..12]), ParseNat(clock[13..15]), ParseNat(clock[16..19]));
      if c.y < 1970 || c.m < 1 || c.m > 12 || c.d < 1 || c.d > MonthDays(c.y, c.m) || c.h > 23 || c.mi > 59 || c.s > 59 then None
      else if TimeValue(c) > MaxTime then None
      else Some(TimeValue(c))
  }

  // ---------------------------------------------------------------------
  // Reading the text back

  lemma ClockFields(m: nat, d: nat, h: nat, mi: nat, s: nat, ms: nat)
    requires m < 100 && d < 100 && h < 100 && mi < 100 && s < 100 && ms < 1000
    ensures var c := ClockText(m, d, h, mi, s, ms);
      && ClockLayout(c)
      && ParseNat(c[1..3]) == m && ParseNat(c[4..6]) == d && ParseNat(c[7..9]) == h
      && ParseNat(c[10..12]) == mi && ParseNat(c[13..15]) == s && ParseNat(c[16..19]) == ms
  {
    var c := ClockText(m, d, h, mi, s, ms);
    assert c[1..3] == Padded(m, 2);
    assert c[4..6] == Padded(d, 2);
    assert c[7..9] == Padded(h, 2);
    assert c[10..12] == Padded(mi, 2);
    assert c[13..15] == Padded(s, 2);
    assert c[16..19] == Padded(ms, 3);
    assert Pow10(2) == 100 && Pow10(3) == 1000;
    ParsePadded(m, 2);
    ParsePadded(d, 2);
    ParsePadded(h, 2);
    ParsePadded(mi, 2);
    ParsePadded(s, 2);
    ParsePadded(ms, 3);
  }

  /** The year text and the clock text split apart again where `ParseIso` splits them. */
  lemma YearFields(y: nat, clock: string)
    requires y < 1000000 && |clock| == 20
    ensures ParseIso(YearText(y) + clock) == ParseFields(Padded(y, if y <= 9999 then 4 else 6), clock)
    ensures AllDigits(Padded(y, if y <= 9999 then 4 else 6))
    ensures ParseNat(Padded(y, if y <= 9999 then 4 else 6)) == y
  {
    var s := YearText(y) + clock;
    assert Pow10(4) == 10000 && Pow10(6) == 1000000 by {
      assert Pow10(2) == 100;
    }
    if y <= 9999 {
      assert s[..4] == Padded(y, 4) && s[4..] == clock;
      ParsePadded(y, 4);
    } else {
      assert s[0] == '+' && s[1..7] == Padded(y, 6) && s[7..] == clock;
      ParsePadded(y, 6);
    }
  }

  /** Reading back the text `toISOString` writes gives the time value. */
  lemma ParseIsoText(t: nat)
    requires t <= MaxTime
    ensures ParseIso(IsoText(t)) == Some(t)
  {
    var c := CivilOf(t);
    var clock := ClockText(c.m, c.d, c.h, c.mi, c.s, c.ms);
    YearFields(c.y, clock);
    ClockFields(c.m, c.d, c.h, c.mi, c.s, c.ms);
  }
}

=== FILE: decimal.dfy ===
/**
 * Decimal text: the digits JavaScript writes for a number, and reading
 * them back, as response headers and date strings need them.
 */
module Decimal {

  function DigitChar(d: int): char
    requires 0 <= d < 10
  {
    ('0' as int + d) as char
  }

  predicate IsDigit(c: char) {
    '0' <= c <= '9'
  }

  predicate AllDigits(s: string) {
    |s| > 0 && forall i | 0 <= i < |s| :: IsDigit(s[i])
  }

  /** The decimal digits of `n`, without leading zeros. */
  function NatText(n: nat): (r: string)
    ensures AllDigits(r)
    ensures |r| > 1 ==> r[0] != '0'
  {
    if n < 10 then [DigitChar(n)]
    else NatText(n / 10) + [DigitChar(n % 10)]
  }

  /** `String(n)` for an integer. */
  function IntText(n: int): (r: string)
    ensures |r| > 0
    ensures '/' !in r && ' ' !in r && '.' !in r && ',' !in r
    ensures n >= 0 ==> '-' !in r && r == NatText(n)
    ensures forall i | 0 <= i < |r| :: IsDigit(r[i]) || r[i] == '-'
  {
    if n < 0 then "-" + NatText(-n) else NatText(n)
  }

  /** The value of a string of decimal digits, read from the left. */
  function ParseNat(s: string): nat
    requires forall i | 0 <= i < |s| :: IsDigit(s[i])
  {
    if s == [] then 0
    else
      assert IsDigit(s[|s| - 1]);
      ParseNat(s[..|s| - 1]) * 10 + (s[|s| - 1] as int - '0' as int)
  }

  /** The last `width` digits of `n`, with leading zeros: how dates write their fields. */
  function Padded(n: nat, width: nat): (r: string)
    ensures |r| == width
    ensures forall i | 0 <= i < |r| :: IsDigit(r[i])
  {
    if width == 0 then []
    else Padded(n / 10, width - 1) + [DigitChar(n % 10)]
  }

  /** 10 to the power `k`. */
  function Pow10(k: nat): (r: nat)
    ensures r > 0
  {
    if k == 0 then 1 else 10 * Pow10(k - 1)
  }

  /** Reading the digits back gives the number. */
  lemma {:induction false} ParseNatText(n: nat)
    ensures ParseNat(NatText(n)) == n
  {
    if n >= 10 {
      var s := NatText(n / 10) + [DigitChar(n % 10)];
      assert s[..|s| - 1] == NatText(n / 10);
      ParseNatText(n / 10);
    }
  }

  /** A number that fits in `width` digits reads back from its padded text. */
  lemma {:induction false} ParsePadded(n: nat, width: nat)
    requires n < Pow10(width)
    ensures ParseNat(Padded(n, width)) == n
  {
    if width > 0 {
      var s := Padded(n / 10, width - 1) + [DigitChar(n % 10)];
      assert s[..|s| - 1] == Padded(n / 10, width - 1);
      assert n / 10 < Pow10(width - 1);
      ParsePadded(n / 10, width - 1);
    }
  }
}

=== FILE: disk.dfy ===
/**
 * The storage a local adapter reads: a tree of named files and
 * directories standing for what `fs.promises.stat` and
 * `fs.promises.readdir` observe. A path is looked up by its normalised
 * segments from the top of the tree, which plays the filesystem root and
 * the working directory at once.
 */
module Disk {
  import opened Wrappers
  import opened PosixPath
  import Dates

  /** A directory's `size` is what the filesystem reports for the directory itself, not its contents. */
  datatype Node =
    | File(name: string, size: nat, birthtimeMs: nat)
    | Dir(name: string, size: nat, birthtimeMs: nat, children: seq<Node>)

  /** What `stat` reports about a node. */
  datatype Stat = Stat(isDirectory: bool, size: nat, birthtimeMs: nat)

  /** What `readdir(path, { withFileTypes: true })` lists for one entry. */
  datatype Dirent = Dirent(name: string, isDirectory: bool)

  /** The storage errors the model distinguishes. */
  datatype FsError = NoEntry(path: string) | NotADirectory(path: string)
  {
    /** The `code` Node puts on the error. */
    function Code(): string {
      match this
      case NoEntry(_) => "ENOENT"
      case NotADirectory(_) => "ENOTDIR"
    }
  }

  /**
   * Entry names are names in the path sense and unique within their
   * directory, and every birth time is a valid `Date`, all the way down.
   */
  predicate WellFormed(n: Node) {
    && n.birthtimeMs <= Dates.MaxTime
    && match n
    case File(_, _, _) => true
    case Dir(_, _, _, children) =>
      && (forall i | 0 <= i < |children| :: IsName(children[i].name) && WellFormed(children[i]))
      && (forall i, j | 0 <= i < j < |children| :: children[i].name != children[j].name)
  }

  /** The first child called `name`. */
  function Child(children: seq<Node>, name: string): (r: Option<Node>)
    ensures r.Some? ==> r.value in children && r.value.name == name
    ensures r.None? ==> forall i | 0 <= i < |children| :: children[i].name != name
  {
    if children == [] then None
    else if children[0].name == name then Some(children[0])
    else Child(children[1..], name)
  }

  /** Following `segs` down from `n`. */
  function Descend(n: Node, segs: seq<string>): (r: Option<Node>)
    decreases |segs|
  {
    if segs == [] then Some(n)
    else if !n.Dir? then None
    else
      match Child(n.children, segs[0])
      case None => None
      case Some(c) => Descend(c, segs[1..])
  }

  /** A ".." at the start of a relative path goes nowhere above the top of the tree. */
  function DropParents(segs: seq<string>): (r: seq<string>)
    ensures |r| <= |segs| && r == segs[|segs| - |r|..]
    ensures r == [] || r[0] != ".."
  {
    if segs != [] && segs[0] == ".." then DropParents(segs[1..]) else segs
  }

  /** The node a path names, if any. */
  function LookupPath(disk: Node, path: string): Option<Node>
  {
    Descend(disk, DropParents(Segments(path)))
  }

  /** What `stat` reports: the node's type, and the size and birth time storage holds for it. */
  function StatOf(n: Node): (r: Stat)
    ensures r.isDirectory <==> n.Dir?
    ensures r.size == n.size && r.birthtimeMs == n.birthtimeMs
  {
    match n
    case File(_, size, birth) => Stat(false, size, birth)
    case Dir(_, size, birth, _) => Stat(true, size, birth)
  }

  function DirentOf(n: Node): (r: Dirent)
    ensures r.name == n.name && (r.isDirectory <==> n.Dir?)
  {
    Dirent(n.name, n.Dir?)
  }

  /** `fs.promises.stat(path)` */
  function StatAt(disk: Node, path: string): (r: Result<Stat, FsError>)
    ensures r.Success? <==> LookupPath(disk, path).Some?
    ensures r.Success? ==> r.value == StatOf(LookupPath(disk, path).value)
    ensures r.Failure? ==> r.error == NoEntry(path)
  {
    match LookupPath(disk, path)
    case None => Failure(NoEntry(path))
    case Some(n) => Success(StatOf(n))
  }

  /** `fs.promises.readdir(path, { withFileTypes: true })`, in directory order. */
  function ReaddirAt(disk: Node, path: string): (r: Result<seq<Dirent>, FsError>)
    ensures r.Success? <==> LookupPath(disk, path).Some? && LookupPath(disk, path).value.Dir?
    ensures r.Success? ==> var children := LookupPath(disk, path).value.children;
      |r.value| == |children| && forall i | 0 <= i < |children| :: r.value[i] == DirentOf(children[i])
  {
    match LookupPath(disk, path)
    case None => Failure(NoEntry(path))
    case Some(n) =>
      if n.Dir? then Success(seq(|n.children|, i requires 0 <= i < |n.children| => DirentOf(n.children[i])))
      else Failure(NotADirectory(path))
  }

  // ---------------------------------------------------------------------
  // Looking up one level further

  /** In a directory with distinct names, looking up a child's name finds that child. */
  lemma ChildFound(children: seq<Node>, i: nat)
    requires i < |children|
    requires forall a, b | 0 <= a < b < |children| :: children[a].name != children[b].name
    ensures Child(children, children[i].name) == Some(children[i])
  { }

  /** Descending one segment further is one more child step. */
  lemma {:induction false} DescendSnoc(n: Node, segs: seq<string>, name: string)
    ensures Descend(n, segs + [name]) ==
      match Descend(n, segs)
      case Some(d) => if d.Dir? then Child(d.children, name) else None
      case None => None
    decreases |segs|
  {
    if segs == [] {
      assert segs + [name] == [name];
      if n.Dir? {
        match Child(n.children, name)
        case None =>
        case Some(c) => assert Descend(c, []) == Some(c);
      }
    } else {
      assert (segs + [name])[0] == segs[0];
      assert (segs + [name])[1..] == segs[1..] + [name];
      if n.Dir? {
        match Child(n.children, segs[0])
        case None =>
        case Some(c) => DescendSnoc(c, segs[1..], name);
      }
    }
  }

  lemma {:induction false} DropParentsSnoc(segs: seq<string>, name: string)
    requires name != ".."
    ensures DropParents(segs + [name]) == DropParents(segs) + [name]
    decreases |segs|
  {
    if segs != [] {
      assert (segs + [name])[0] == segs[0];
      if segs[0] == ".." {
        assert (segs + [name])[1..] == segs[1..] + [name];
        DropParentsSnoc(segs[1..], name);
      }
    }
  }

  /** Every node found in a well-formed tree is well-formed. */
  lemma {:induction false} DescendWellFormed(n: Node, segs: seq<string>)
    requires WellFormed(n)
    requires Descend(n, segs).Some?
    ensures WellFormed(Descend(n, segs).value)
    decreases |segs|
  {
    if segs != [] {
      var c := Child(n.children, segs[0]).value;
      DescendWellFormed(c, segs[1..]);
    }
  }

  /**
   * A path whose segments extend those of a directory's path by the name
   * of one of its children finds that child.
   */
  lemma LookupChild(disk: Node, dirPath: string, childPath: string, i: nat)
    requires WellFormed(disk)
    requires LookupPath(disk, dirPath).Some? && LookupPath(disk, dirPath).value.Dir?
    requires i < |LookupPath(disk, dirPath).value.children|
    requires Segments(childPath) == Segments(dirPath) + [LookupPath(disk, dirPath).value.children[i].name]
    ensures LookupPath(disk, childPath) == Some(LookupPath(disk, dirPath).value.children[i])
  {
    var d := LookupPath(disk, dirPath).value;
    var c := d.children[i];
    DescendWellFormed(disk, DropParents(Segments(dirPath)));
    DropParentsSnoc(Segments(dirPath), c.name);
    DescendSnoc(disk, DropParents(Segments(dirPath)), c.name);
    ChildFound(d.children, i);
  }
}

=== FILE: events.dfy ===
/**
 * The socket event names of src/util/events.js. The table has no entry
 * for actions, so every place that emits `EVENTS.ACTION` emits under
 * `undefined`.
 */
module Events {
  import opened Js

  datatype Event = ReadFile | WriteFile | Stat | Readdir | Exists | Del | Struct | Mkdir | Action

  /** `EVENTS[...]` as a JavaScript value. */
  function Name(e: Event): (r: Val)
    ensures r.Str? <==> e != Action
    ensures e == Action ==> r == Undefined
  {
    match e
    case ReadFile => Str("$fs.readFile")
    case WriteFile => Str("$fs.writeFile")
    case Stat => Str("$fs.stat")
    case Readdir => Str("$fs.readdir")
    case Exists => Str("$fs.exists")
    case Del => Str("$fs.del")
    case Struct => Str("$fs.struct")
    case Mkdir => Str("$fs.mkdir")
    case Action => Undefined
  }

  /** The events are told apart by their names, the unnamed one included. */
  lemma NamesDistinct(e1: Event, e2: Event)
    ensures Name(e1) == Name(e2) <==> e1 == e2
  { }
}

=== FILE: fs_local.dfy ===
/**
 * `FSLocal` of src/fs.local.js: the adapter that answers every call from
 * local storage, after passing the caller's path through the sandbox.
 * Reads are evaluated against a `Disk.Node` tree; calls that change
 * storage or open a stream are returned as the storage call they make.
 */
module FsLocal {
  import opened Wrappers
  import opened PosixPath
  import opened Sandbox
  import opened Disk
  import opened Js
  import Events

  /** An adapter: its normalised root and whether it was given an emitter. */
  datatype Local = Local(root: string, hasEmitter: bool)

  datatype LocalError =
    | Malicious(path: string)
      /** The `TypeError` `normalize` throws for a path that is not a string. */
    | NotAString
    | Storage(e: FsError)
  {
    /** The `message` the error carries, which is what a reply reports. */
    function Message(): string {
      match this
      case Malicious(p) => "malicious path: " + p
      case NotAString => PathTypeMessage
      case Storage(e) => e.Code()
    }
  }

  /**
   * Stands for the message of the `TypeError` `normalize` raises when the
   * path argument is not a string.
   */
  const PathTypeMessage: string := "The \"path\" argument must be of type string"

  /** The storage calls that change what is stored or open a stream. */
  datatype StorageOp = UnlinkOp | DelOp | MkdirOp | WriteStreamOp | ReadStreamOp

  /** A call into storage: which one, on which resolved path, with which further arguments. */
  datatype StorageCall = StorageCall(op: StorageOp, path: string, rest: seq<Val>)

  /** One `emitter.emit(...)` call. */
  datatype Emission = Emission(event: Val, args: seq<Val>)

  /** What `action` returns, and what it emitted on the way. */
  datatype ActionOutcome = ActionOutcome(sent: bool, emitted: Option<Emission>)

  /** The nodes `struct` returns. */
  datatype Entry = FileLike(name: string) | DirLike(name: string, files: seq<Entry>)

  /** `new FSLocal(root, emitter)`: the root is normalised once, here. */
  function Create(root: string, hasEmitter: bool): (r: Local)
    ensures Normalize(r.root) == r.root
    ensures Segments(r.root) == Segments(root)
    ensures r.hasEmitter == hasEmitter
  {
    NormalizeIdempotent(root);
    NormalizeSegments(root);
    Local(Normalize(root), hasEmitter)
  }

  /** A local adapter is always connected. */
  function IsConnected(fs: Local): (r: bool)
    ensures r
  {
    true
  }

  /**
   * `path(p)`: an up path throws `malicious path: p`; any other resolves
   * under the root, adding only names to the root's segments.
   */
  function Path(fs: Local, p: string): (r: Result<string, LocalError>)
    ensures r.Failure? <==> IsUp(p)
    ensures r.Failure? ==> r.error == Malicious(p) && r.error.Message() == "malicious path: " + p
    ensures r.Success? ==> Segments(r.value) == Segments(fs.root) + Segments(p) && ".." !in Segments(p)
  {
    if IsUp(p) then Failure(Malicious(p))
    else
      SandboxHolds(fs.root, p);
      Success(Resolve(fs.root, p))
  }

  /**
   * `path(v)` for any value a caller passes: the sandbox reads the value's
   * text, so an array or object whose text is up is refused as malicious;
   * any other value that is not a string makes `normalize` throw.
   */
  function PathOf(fs: Local, v: Val): (r: Result<string, LocalError>)
    ensures IsUp(StringOf(v)) ==> r == Failure(Malicious(StringOf(v)))
    ensures !IsUp(StringOf(v)) && !v.Str? ==> r == Failure(NotAString)
    ensures r.Success? <==> v.Str? && !IsUp(v.s)
    ensures r.Success? ==> r.value == Resolve(fs.root, v.s)
  {
    if IsUp(StringOf(v)) then Failure(Malicious(StringOf(v)))
    else if !v.Str? then Failure(NotAString)
    else Path(fs, v.s)
  }

  /** `exists(p)`: a failed stat means `false`, but an up path still throws. */
  function Exists(fs: Local, disk: Node, p: string): (r: Result<bool, LocalError>)
    ensures r.Failure? <==> IsUp(p)
    ensures r.Failure? ==> r.error == Malicious(p)
    ensures r.Success? ==> (r.value <==> StatAt(disk, Resolve(fs.root, p)).Success?)
  {
    var resolved :- Path(fs, p);
    Success(StatAt(disk, resolved).Success?)
  }

  /** `stat(p, ...)` */
  function Stat(fs: Local, disk: Node, p: string): (r: Result<Disk.Stat, LocalError>)
    ensures IsUp(p) ==> r == Failure(Malicious(p))
    ensures !IsUp(p) ==> (r.Success? <==> LookupPath(disk, Resolve(fs.root, p)).Some?)
    ensures r.Success? ==> r.value == StatOf(LookupPath(disk, Resolve(fs.root, p)).value)
  {
    var resolved :- Path(fs, p);
    match StatAt(disk, resolved)
    case Success(st) => Success(st)
    case Failure(e) => Failure(Storage(e))
  }

  /**
   * `readdir(p, opts)`: storage's entries for the resolved path, one per
   * child of the directory there and in its order, or storage's error.
   */
  function Readdir(fs: Local, disk: Node, p: string): (r: Result<seq<Dirent>, LocalError>)
    ensures IsUp(p) ==> r == Failure(Malicious(p))
    ensures !IsUp(p) ==> (r.Success? <==> ReaddirAt(disk, Resolve(fs.root, p)).Success?)
    ensures !IsUp(p) && r.Failure? ==> r.error == Storage(ReaddirAt(disk, Resolve(fs.root, p)).error)
    ensures r.Success? ==>
      var n := LookupPath(disk, Resolve(fs.root, p));
      && n.Some? && n.value.Dir?
      && |r.value| == |n.value.children|
      && forall i | 0 <= i < |r.value| :: r.value[i] == DirentOf(n.value.children[i])
  {
    var resolved :- Path(fs, p);
    match ReaddirAt(disk, resolved)
    case Success(entries) => Success(entries)
    case Failure(e) => Failure(Storage(e))
  }

  /**
   * The calls routed to storage: `unlink(p)`, `del(p, ...)`,
   * `mkdir(p, ...)`, `createWriteStream(p, opts)` and
   * `createReadStream(p, opts)`. The first argument is replaced by the
   * resolved path; `unlink` passes nothing else and the stream factories
   * pass only their second argument.
   */
  function Call(fs: Local, op: StorageOp, p: string, rest: seq<Val>): (r: Result<StorageCall, LocalError>)
    ensures r.Failure? <==> IsUp(p)
    ensures r.Failure? ==> r.error == Malicious(p)
    ensures r.Success? ==> r.value.op == op && r.value.path == Resolve(fs.root, p)
    ensures r.Success? ==> Segments(r.value.path) == Segments(fs.root) + Segments(p)
    ensures r.Success? && op == UnlinkOp ==> r.value.rest == []
    ensures r.Success? && (op == DelOp || op == MkdirOp) ==> r.value.rest == rest
    ensures r.Success? && (op == WriteStreamOp || op == ReadStreamOp) ==>
      r.value.rest == [if |rest| > 0 then rest[0] else Undefined]
  {
    var resolved :- Path(fs, p);
    var passed :=
      match op
      case UnlinkOp => []
      case DelOp => rest
      case MkdirOp => rest
      case _ => [if |rest| > 0 then rest[0] else Undefined];
    Success(StorageCall(op, resolved, passed))
  }

  /**
   * `action(action, p, ...args)`: without an emitter nothing is checked or
   * emitted and the answer is `false`; with one the path is resolved
   * (throwing when up), the action is emitted and the answer is `true`.
   */
  function Action(fs: Local, action: string, p: string, args: seq<Val>): (r: Result<ActionOutcome, LocalError>)
    ensures !fs.hasEmitter ==> r == Success(ActionOutcome(false, None))
    ensures fs.hasEmitter ==> (r.Failure? <==> IsUp(p))
    ensures r.Failure? ==> r.error == Malicious(p)
    ensures r.Success? ==> (r.value.sent <==> fs.hasEmitter) && (r.value.emitted.Some? <==> fs.hasEmitter)
    ensures r.Success? && fs.hasEmitter ==>
      r.value.emitted == Some(Emission(Events.Name(Events.Action), [Str(action), Str(Resolve(fs.root, p))] + args))
  {
    if fs.hasEmitter then
      var resolved :- Path(fs, p);
      Success(ActionOutcome(true, Some(Emission(Events.Name(Events.Action), [Str(action), Str(resolved)] + args))))
    else Success(ActionOutcome(false, None))
  }

  // ---------------------------------------------------------------------
  // struct

  /** Non-directory descendants. */
  function FileCount(children: seq<Node>): nat
    decreases children
  {
    if children == [] then 0
    else (if children[0].Dir? then FileCount(children[0].children) else 1) + FileCount(children[1..])
  }

  /** `FileLike` leaves of a `struct` result. */
  function LeafCount(entries: seq<Entry>): nat
    decreases entries
  {
    if entries == [] then 0
    else (if entries[0].DirLike? then LeafCount(entries[0].files) else 1) + LeafCount(entries[1..])
  }

  /** Some directory below, on its own, has a name the sandbox pattern matches. */
  predicate SomeUpDir(children: seq<Node>)
    decreases children
  {
    children != [] &&
      ((children[0].Dir? && (UpPattern(children[0].name) || SomeUpDir(children[0].children)))
        || SomeUpDir(children[1..]))
  }

  /**
   * `struct(p)`: the stat error of a missing path propagates, a
   * non-directory gives `[]`, and a directory gives one node per entry.
   */
  function Struct(fs: Local, disk: Node, p: string): (r: Result<seq<Entry>, LocalError>)
    ensures IsUp(p) ==> r == Failure(Malicious(p))
    ensures !IsUp(p) && LookupPath(disk, Resolve(fs.root, p)).None? ==>
      r == Failure(Storage(NoEntry(Resolve(fs.root, p))))
    ensures !IsUp(p) && LookupPath(disk, Resolve(fs.root, p)).Some? && !LookupPath(disk, Resolve(fs.root, p)).value.Dir? ==>
      r == Success([])
  {
    var st :- Stat(fs, disk, p);
    if !st.isDirectory then Success([])
    else StructChildren(fs, p, LookupPath(disk, Resolve(fs.root, p)).value.children)
  }

  /**
   * The entries of a directory found at the accepted path `p`, in readdir
   * order; an entry that is a directory is described by `struct` of
   * `join(p, name)`, which again passes the sandbox.
   */
  function StructChildren(fs: Local, p: string, children: seq<Node>): (r: Result<seq<Entry>, LocalError>)
    ensures r.Success? ==> |r.value| == |children|
    ensures r.Success? ==> forall i | 0 <= i < |children| ::
      r.value[i].name == children[i].name && (r.value[i].DirLike? <==> children[i].Dir?)
    ensures r.Success? ==> LeafCount(r.value) == FileCount(children)
    decreases children
  {
    if children == [] then Success([])
    else
      var head :- StructEntry(fs, p, children[0]);
      var tail :- StructChildren(fs, p, children[1..]);
      Success([head] + tail)
  }

  function StructEntry(fs: Local, p: string, c: Node): (r: Result<Entry, LocalError>)
    ensures r.Success? ==> r.value.name == c.name && (r.value.DirLike? <==> c.Dir?)
    ensures r.Success? && c.Dir? ==> LeafCount(r.value.files) == FileCount(c.children)
    decreases c
  {
    if !c.Dir? then Success(FileLike(c.name))
    else
      var sub := JoinPaths(p, c.name);
      if IsUp(sub) then Failure(Malicious(sub))
      else
        var files :- StructChildren(fs, sub, c.children);
        Success(DirLike(c.name, files))
  }

  // ---------------------------------------------------------------------
  // Properties

  /**
   * Every operation that names a path fails on an up path, with the
   * sandbox's error, before storage is consulted.
   */
  lemma EveryOperationSandboxed(fs: Local, disk: Node, p: string, op: StorageOp, rest: seq<Val>, action: string)
    requires IsUp(p)
    ensures Exists(fs, disk, p) == Failure(Malicious(p))
    ensures Stat(fs, disk, p) == Failure(Malicious(p))
    ensures Readdir(fs, disk, p) == Failure(Malicious(p))
    ensures Struct(fs, disk, p) == Failure(Malicious(p))
    ensures Call(fs, op, p, rest) == Failure(Malicious(p))
    ensures fs.hasEmitter ==> Action(fs, action, p, rest) == Failure(Malicious(p))
  { }

  /**
   * A value that is not a string is refused by the sandbox when its text
   * is up: a one-element array holding an up path, such as `['..']`, is
   * malicious and never reaches `normalize`.
   */
  lemma UpArrayRefused(fs: Local, s: string)
    requires IsUp(s)
    ensures PathOf(fs, Arr([Some(Str(s))])) == Failure(Malicious(s))
    ensures PathOf(fs, Arr([Some(Str(s))])).error.Message() == "malicious path: " + s
  {
    SingletonText(Str(s));
  }

  /**
   * The stat `struct` makes for a directory entry finds that entry: when
   * `join(p, name)` is accepted, resolving it looks up exactly the child.
   */
  lemma StructStatFindsChild(fs: Local, disk: Node, p: string, i: nat)
    requires WellFormed(disk) && !IsUp(p)
    requires LookupPath(disk, Resolve(fs.root, p)).Some? && LookupPath(disk, Resolve(fs.root, p)).value.Dir?
    requires i < |LookupPath(disk, Resolve(fs.root, p)).value.children|
    requires !IsUp(JoinPaths(p, LookupPath(disk, Resolve(fs.root, p)).value.children[i].name))
    ensures var c := LookupPath(disk, Resolve(fs.root, p)).value.children[i];
      LookupPath(disk, Resolve(fs.root, JoinPaths(p, c.name))) == Some(c)
  {
    var dirPath := Resolve(fs.root, p);
    var d := LookupPath(disk, dirPath).value;
    var c := d.children[i];
    DescendWellFormed(disk, DropParents(Segments(dirPath)));
    assert IsName(c.name);
    ResolveJoinedName(fs.root, p, c.name);
    LookupChild(disk, dirPath, Resolve(fs.root, JoinPaths(p, c.name)), i);
  }

  /**
   * Below an accepted path, the listing of well-formed entries fails
   * exactly when some directory among them has a name the sandbox pattern
   * matches (such as `a\..`), since `struct` re-checks the joined path.
   */
  lemma {:induction false} StructChildrenSucceeds(fs: Local, p: string, children: seq<Node>)
    requires !IsUp(p)
    requires forall i | 0 <= i < |children| :: IsName(children[i].name) && WellFormed(children[i])
    ensures StructChildren(fs, p, children).Success? <==> !SomeUpDir(children)
    decreases children
  {
    if children != [] {
      var c := children[0];
      StructChildrenSucceeds(fs, p, children[1..]);
      if c.Dir? {
        JoinedNameUp(p, c.name);
        if !UpPattern(c.name) {
          StructChildrenSucceeds(fs, JoinPaths(p, c.name), c.children);
        }
      }
    }
  }

  /**
   * `struct` of an accepted directory in a well-formed tree succeeds
   * unless some directory below has a pattern-matching name, and then it
   * lists one node per entry and as many leaves as there are
   * non-directory descendants.
   */
  lemma StructOfDirectory(fs: Local, disk: Node, p: string)
    requires WellFormed(disk) && !IsUp(p)
    requires LookupPath(disk, Resolve(fs.root, p)).Some? && LookupPath(disk, Resolve(fs.root, p)).value.Dir?
    ensures var children := LookupPath(disk, Resolve(fs.root, p)).value.children;
      var r := Struct(fs, disk, p);
      && (r.Success? <==> !SomeUpDir(children))
      && (r.Success? ==> |r.value| == |children| && LeafCount(r.value) == FileCount(children))
  {
    var d := LookupPath(disk, Resolve(fs.root, p)).value;
    DescendWellFormed(disk, DropParents(Segments(Resolve(fs.root, p))));
    StructChildrenSucceeds(fs, p, d.children);
  }
}

=== FILE: fs_remote.dfy ===
/**
 * `FSRemote` of src/fs.remote.js: the adapter that forwards every call
 * over a socket to a peer and decodes the acknowledgement. What is
 * modelled is what goes out (event name and argument list, after the
 * path passed the sandbox) and how the `(err, res)` answer settles the
 * returned promise; the socket itself is a parameter.
 */
module FsRemote {
  import opened Wrappers
  import opened PosixPath
  import opened Sandbox
  import opened Js
  import Events

  /** A socket: `socket.connected` as the value it holds. */
  datatype Socket = Socket(connected: Val)

  /** An adapter: its root, its socket (absent when none was given) and its acknowledgement timeout. */
  datatype Remote = Remote(root: string, socket: Option<Socket>, timeout: int)

  /**
   * The errors thrown synchronously: `InvalidPath` is the `Error('invalid
   * path')` of the constructor and of `path`; `NoSocket` is the
   * `TypeError` of wrapping a socket that is not there for streaming.
   */
  datatype RemoteError = InvalidPath | NoSocket

  /** The methods that go through `send`. */
  datatype Method = StatCall | ReaddirCall | ExistsCall | DelCall | StructCall | MkdirCall

  /** One `socket.emit(event, args, ack)`. */
  datatype Request = Request(event: Val, args: seq<Val>)

  /** How the promise `send` returns settles. */
  datatype Settled = Resolved(value: Val) | Rejected(reason: Val)

  /** One `ss(socket).emit(event, stream, { path, opts })`. */
  datatype Announcement = Announcement(event: Val, stream: nat, target: Val)

  /** The default acknowledgement timeout, in milliseconds. */
  const DefaultTimeout: int := 10 * 1000

  /** Stands for the `TypeError` raised when `send` reaches for a socket that is not there. */
  const MissingSocketError: Val := Opaque(ErrorObject, 0)

  /**
   * `new FSRemote(root, socket, timeout)`: the root is normalised, then
   * rejected when up; an omitted timeout is 10 seconds.
   */
  function Create(root: string, socket: Option<Socket>, timeout: Option<int>): (r: Result<Remote, RemoteError>)
    ensures r.Failure? <==> IsUp(Normalize(root))
    ensures r.Failure? ==> r.error == InvalidPath
    ensures r.Success? ==> !IsUp(r.value.root) && Normalize(r.value.root) == r.value.root
    ensures r.Success? ==> Segments(r.value.root) == Segments(root) && r.value.socket == socket
    ensures r.Success? ==> r.value.timeout == if timeout.Some? then timeout.value else DefaultTimeout
  {
    var normalized := Normalize(root);
    if IsUp(normalized) then Failure(InvalidPath)
    else
      NormalizeIdempotent(root);
      NormalizeSegments(root);
      Success(Remote(normalized, socket, timeout.GetOr(DefaultTimeout)))
  }

  /** `!!this.socket && this.socket.connected`: the second operand is returned as it is. */
  function IsConnected(fs: Remote): (r: Val)
    ensures Truthy(r) <==> fs.socket.Some? && Truthy(fs.socket.value.connected)
  {
    if fs.socket.None? then Bool(false) else fs.socket.value.connected
  }

  /** `path(p)`: the same resolution as the local adapter's, with the error `'invalid path'`. */
  function Path(fs: Remote, p: string): (r: Result<string, RemoteError>)
    ensures r.Failure? <==> IsUp(p)
    ensures r.Failure? ==> r.error == InvalidPath
    ensures r.Success? ==> r.value == Resolve(fs.root, p)
    ensures r.Success? ==> Segments(r.value) == Segments(fs.root) + Segments(p)
  {
    if IsUp(p) then Failure(InvalidPath)
    else
      SandboxHolds(fs.root, p);
      Success(Resolve(fs.root, p))
  }

  function EventOf(m: Method): Events.Event {
    match m
    case StatCall => Events.Stat
    case ReaddirCall => Events.Readdir
    case ExistsCall => Events.Exists
    case DelCall => Events.Del
    case StructCall => Events.Struct
    case MkdirCall => Events.Mkdir
  }

  /**
   * What a method sends: the resolved path in place of the first
   * argument, followed by the caller's other arguments, except that
   * `exists` and `struct` send the path alone.
   */
  function Outgoing(fs: Remote, m: Method, p: string, rest: seq<Val>): (r: Result<Request, RemoteError>)
    ensures r.Failure? <==> IsUp(p)
    ensures r.Success? ==> r.value.event == Events.Name(EventOf(m)) && r.value.event.Str?
    ensures r.Success? ==> |r.value.args| >= 1 && r.value.args[0] == Str(Resolve(fs.root, p))
    ensures r.Success? && (m == ExistsCall || m == StructCall) ==> |r.value.args| == 1
    ensures r.Success? && !(m == ExistsCall || m == StructCall) ==> r.value.args[1..] == rest
  {
    var resolved :- Path(fs, p);
    var args := if m == ExistsCall || m == StructCall then [Str(resolved)] else [Str(resolved)] + rest;
    Success(Request(Events.Name(EventOf(m)), args))
  }

  /**
   * The acknowledgement callback of `send`: a transport error (a timeout
   * included) rejects with that error; otherwise a truthy reply resolves
   * with its `data` when its `ok` is truthy and rejects with its `error`
   * when not; a falsy reply resolves with `undefined`.
   */
  function Settle(err: Val, res: Val): (r: Settled)
    ensures Truthy(err) ==> r == Rejected(err)
    ensures !Truthy(err) && !Truthy(res) ==> r == Resolved(Undefined)
    ensures !Truthy(err) && Truthy(res) ==>
      r == if Truthy(Get(res, "ok")) then Resolved(Get(res, "data")) else Rejected(Get(res, "error"))
  {
    if Truthy(err) then Rejected(err)
    else if Truthy(res) && Truthy(Get(res, "ok")) then Resolved(Get(res, "data"))
    else if Truthy(res) && !Truthy(Get(res, "ok")) then Rejected(Get(res, "error"))
    else Resolved(Undefined)
  }

  /**
   * A whole call against a peer that answers each request with
   * `(err, res)`: `Failure` when `path` throws before anything is sent,
   * otherwise how the returned promise settles. `isConnected` is not
   * consulted; only a missing socket makes `send` reject on its own.
   */
  function Call(fs: Remote, m: Method, p: string, rest: seq<Val>, peer: Request -> (Val, Val)): (r: Result<Settled, RemoteError>)
    ensures r.Failure? <==> IsUp(p)
    ensures r.Success? && fs.socket.None? ==> r.value == Rejected(MissingSocketError)
    ensures r.Success? && fs.socket.Some? ==>
      var answer := peer(Outgoing(fs, m, p, rest).value);
      r.value == Settle(answer.0, answer.1)
  {
    var request :- Outgoing(fs, m, p, rest);
    if fs.socket.None? then Success(Rejected(MissingSocketError))
    else
      var answer := peer(request);
      Success(Settle(answer.0, answer.1))
  }

  /**
   * `createWriteStream(p, opts)` / `createReadStream(p, opts)`: the fresh
   * stream `stream` is announced with `{ path, opts }` under WRITE_FILE or
   * READ_FILE and returned at once, without waiting for an answer.
   */
  function OpenStream(fs: Remote, write: bool, p: string, opts: Val, stream: nat): (r: Result<(nat, Announcement), RemoteError>)
    ensures r.Failure? <==> IsUp(p) || fs.socket.None?
    ensures r.Failure? ==> (r.error == InvalidPath <==> IsUp(p))
    ensures r.Success? ==> r.value.0 == stream && r.value.1.stream == stream
    ensures r.Success? ==> r.value.1.event == Events.Name(if write then Events.WriteFile else Events.ReadFile)
    ensures r.Success? ==> Get(r.value.1.target, "path") == Str(Resolve(fs.root, p)) && Get(r.value.1.target, "opts") == opts
  {
    var resolved :- Path(fs, p);
    if fs.socket.None? then Failure(NoSocket)
    else
      var props := [Prop("path", Str(resolved)), Prop("opts", opts)];
      assert props[..1] == [Prop("path", Str(resolved))];
      assert Lookup(props, "path") == Some(Str(resolved));
      var target := Record(props);
      Success((stream, Announcement(Events.Name(if write then Events.WriteFile else Events.ReadFile), stream, target)))
  }

  /**
   * `action(action, p, ...args)`: emits on the socket only when there is
   * one, and answers exactly whether there is.
   */
  function Action(fs: Remote, action: string, p: string, args: seq<Val>): (r: Result<(bool, Option<Request>), RemoteError>)
    ensures fs.socket.None? ==> r == Success((false, None))
    ensures fs.socket.Some? ==> (r.Failure? <==> IsUp(p))
    ensures r.Success? ==> (r.value.0 <==> fs.socket.Some?) && (r.value.1.Some? <==> fs.socket.Some?)
    ensures r.Success? && fs.socket.Some? ==>
      r.value.1 == Some(Request(Events.Name(Events.Action), [Str(action), Str(Resolve(fs.root, p))] + args))
  {
    if fs.socket.Some? then
      var resolved :- Path(fs, p);
      Success((true, Some(Request(Events.Name(Events.Action), [Str(action), Str(resolved)] + args))))
    else Success((false, None))
  }

  // ---------------------------------------------------------------------
  // Properties

  /** Each method is told apart at the peer by the event it is sent under. */
  lemma EventsIdentifyMethods(m1: Method, m2: Method)
    ensures Events.Name(EventOf(m1)) == Events.Name(EventOf(m2)) <==> m1 == m2
  { }

  /**
   * The path a remote adapter sends is one the peer's own sandbox accepts,
   * and it names the remote root's segments followed by the caller's.
   */
  lemma SentPathAccepted(fs: Remote, m: Method, p: string, rest: seq<Val>)
    requires !IsUp(fs.root) && !IsUp(p)
    ensures Outgoing(fs, m, p, rest).Success?
    ensures var sent := Resolve(fs.root, p);
      !IsUp(sent) && Segments(sent) == Segments(fs.root) + Segments(p)
  {
    ResolvedIsAccepted(fs.root, p);
  }
}

=== FILE: helpers.dfy ===
/**
 * The stream helpers of src/util/helpers.js: a value that names a path,
 * either as a string or as an object with a string `path`, is turned into
 * a stream opened on that path; any other value is taken to be a stream
 * already. Opening is left to Node's `fs` and is represented here by the
 * path and options it would be given.
 */
module Helpers {
  import opened Js

  /** Which factory of Node's `fs` a helper calls. */
  datatype Direction = Reading | Writing

  /**
   * What a helper hands back: a stream the factory opened on `path` with
   * `opts` (`undefined` when none were given), or the value it was passed.
   */
  datatype Stream =
    | Opened(direction: Direction, path: string, opts: Val)
    | Given(value: Val)

  /** `value && typeof value.path === 'string'`. */
  predicate NamesPath(v: Val) {
    Truthy(v) && Get(v, "path").Str?
  }

  /**
   * The dispatch the two helpers share: a string is a path with no
   * options, an object naming a path gives its `path` and `opts`, and the
   * path is opened as it stands, up or not.
   */
  function StreamFor(direction: Direction, v: Val): (r: Stream)
    ensures r.Opened? <==> v.Str? || NamesPath(v)
    ensures r.Opened? ==> r.direction == direction
    ensures v.Str? ==> r.Opened? && r.path == v.s && r.opts == Undefined
    ensures !v.Str? && NamesPath(v) ==> r.Opened? && r.path == Get(v, "path").s && r.opts == Get(v, "opts")
    ensures r.Given? ==> r.value == v
  {
    if v.Str? then Opened(direction, v.s, Undefined)
    else if NamesPath(v) then Opened(direction, Get(v, "path").s, Get(v, "opts"))
    else Given(v)
  }

  /** `toReadStream(value)`. */
  function ToReadStream(v: Val): (r: Stream)
    ensures r.Opened? <==> v.Str? || NamesPath(v)
    ensures r.Opened? ==> r.direction == Reading
    ensures r.Opened? && v.Str? ==> r.path == v.s && r.opts == Undefined
    ensures r.Given? ==> r.value == v
  {
    StreamFor(Reading, v)
  }

  /** `toWriteStream(value)`: the same choice, with the writable factory. */
  function ToWriteStream(v: Val): (r: Stream)
    ensures r.Opened? <==> v.Str? || NamesPath(v)
    ensures r.Opened? ==> r.direction == Writing
    ensures r.Opened? && v.Str? ==> r.path == v.s && r.opts == Undefined
    ensures r.Given? ==> r.value == v
  {
    StreamFor(Writing, v)
  }

  /**
   * `toStreamParams(value)`: a string becomes the plain object `{path}`;
   * every other value, an object naming a path or not, comes back as it
   * was given.
   */
  function ToStreamParams(v: Val): (r: Val)
    ensures !r.Str?
    ensures v.Str? ==> r.Obj? && Get(r, "path") == v && Get(r, "opts") == Undefined
    ensures !v.Str? ==> r == v
    ensures NamesPath(r) <==> v.Str? || NamesPath(v)
  {
    if v.Str? then Record([Prop("path", v)]) else v
  }

  // ---------------------------------------------------------------------
  // Properties

  /** Writing mirrors reading: the same path and options, or the same value. */
  lemma WriteMirrorsRead(v: Val)
    ensures ToReadStream(v).Opened? <==> ToWriteStream(v).Opened?
    ensures ToReadStream(v).Opened? ==>
      ToWriteStream(v) == Opened(Writing, ToReadStream(v).path, ToReadStream(v).opts)
    ensures ToReadStream(v).Given? ==> ToWriteStream(v) == ToReadStream(v)
  { }

  /** Normalising to stream parameters first opens the same stream. */
  lemma ParamsOpenAlike(direction: Direction, v: Val)
    ensures StreamFor(direction, ToStreamParams(v)) == StreamFor(direction, v)
  { }

  /** Normalising twice is normalising once. */
  lemma ParamsIdempotent(v: Val)
    ensures ToStreamParams(ToStreamParams(v)) == ToStreamParams(v)
  { }

  /**
   * No sandbox: whatever string a caller names, including one that climbs
   * above every root, is what the factory is asked to open.
   */
  lemma NoSandboxCheck(direction: Direction, p: string, opts: Val)
    ensures StreamFor(direction, Str(p)) == Opened(direction, p, Undefined)
    ensures StreamFor(direction, Record([Prop("path", Str(p)), Prop("opts", opts)])) == Opened(direction, p, opts)
  {
    var props := [Prop("path", Str(p)), Prop("opts", opts)];
    LookupAt(props, 0);
    LookupAt(props, 1);
    var params := Record(props);
    assert Get(params, "path") == Str(p);
    assert Get(params, "opts") == opts;
  }
}

=== FILE: http.dfy ===
/**
 * What the Express handlers share: the request as they read it, and the
 * factory checks on the root.
 */
module Http {
  import opened Wrappers
  import opened PosixPath
  import opened Sandbox
  import opened Js

  /**
   * An Express request: `method` (as `verb`), `url` (relative to the mount point),
   * `originalUrl`, the `pathname` of `parseUrl(url)`, the headers by
   * lower-case name, and the parsed `body`.
   */
  datatype Request = Request(verb: string, url: string, originalUrl: string, pathname: string,
                             headers: map<string, string>, body: Val)

  /** `req.headers[name]`, which is `undefined` when absent. */
  function Header(req: Request, name: string): (r: Val)
    ensures r == Undefined || r.Str?
    ensures r.Str? <==> name in req.headers
  {
    if name in req.headers then Str(req.headers[name]) else Undefined
  }

  /**
   * A header value Node writes: tab, printable ASCII and the upper half of
   * Latin-1; any other character makes `setHeader` throw.
   */
  predicate HeaderSafe(s: string) {
    forall i | 0 <= i < |s| :: s[i] == '\t' || ' ' <= s[i] <= '~' || '\U{80}' <= s[i] <= '\U{FF}'
  }

  /**
   * `res.setHeader(name, v)` for a single value: `undefined` and a value
   * whose text is not header-safe make it throw (`None`); otherwise the
   * header is the value's text.
   */
  function HeaderText(v: Val): (r: Option<string>)
    ensures r.Some? <==> v != Undefined && HeaderSafe(StringOf(v))
    ensures r.Some? ==> r.value == StringOf(v)
  {
    if v == Undefined || !HeaderSafe(StringOf(v)) then None else Some(StringOf(v))
  }

  // ---------------------------------------------------------------------
  // Factories

  /** The messages a factory throws with, worded differently by the static handler. */
  datatype FactoryMessages = FactoryMessages(emptyRoot: string, badGetSocket: string, invalidRoot: string)

  const StaticMessages: FactoryMessages :=
    FactoryMessages("root path must not be empty", "getSocket must not be empty", "invalid root path")

  const AdapterMessages: FactoryMessages :=
    FactoryMessages("root must not be empty", "getSocket must be a function", "invalid root")

  /**
   * The checks a factory makes before it builds its handler, in order: the
   * root must not be empty; a remote factory's `getSocket` (`None` for a
   * local factory, which takes none) must be a function; the normalised
   * root must not be up. The result is the normalised root.
   */
  function CheckRoot(root: string, getSocket: Option<Val>, messages: FactoryMessages): (r: Result<string, string>)
    ensures root == "" ==> r == Failure(messages.emptyRoot)
    ensures root != "" && getSocket.Some? && !getSocket.value.Fn? ==> r == Failure(messages.badGetSocket)
    ensures root != "" && (getSocket.None? || getSocket.value.Fn?) ==>
      (r.Failure? <==> IsUp(Normalize(root))) && (r.Failure? ==> r.error == messages.invalidRoot)
    ensures r.Success? ==> !IsUp(r.value) && Normalize(r.value) == r.value && Segments(r.value) == Segments(root)
  {
    if root == "" then Failure(messages.emptyRoot)
    else if getSocket.Some? && !getSocket.value.Fn? then Failure(messages.badGetSocket)
    else
      var normalized := Normalize(root);
      if IsUp(normalized) then Failure(messages.invalidRoot)
      else
        NormalizeIdempotent(root);
        NormalizeSegments(root);
        Success(normalized)
  }
}

=== FILE: http_action.dfy ===
/**
 * The action handler of src/http-action.js: a POST naming an allowed
 * action on an existing path is passed to the adapter's `action`, which
 * emits it with the resolved path, and is answered `OK`; anything else
 * hands the request on.
 */
module HttpAction {
  import opened Wrappers
  import opened PosixPath
  import opened Sandbox
  import opened Js
  import opened Http
  import opened Adapter
  import Disk
  import FsLocal
  import FsRemote
  import Events

  datatype ActionReply =
    | Next
      /** `res.send('OK')` after the adapter's `action` did `dispatched`. */
    | Ok(dispatched: Dispatched)

  /**
   * `httpActionLocal(root, emitter, actions)` builds its one adapter up
   * front: `hasEmitter` says whether an emitter was given.
   */
  function LocalAdapter(root: string, hasEmitter: bool, disk: Disk.Node, effects: Effects): (r: Result<Fs, string>)
    ensures r.Failure? <==> root == "" || IsUp(Normalize(root))
    ensures root == "" ==> r == Failure("root must not be empty")
    ensures root != "" && IsUp(Normalize(root)) ==> r == Failure("invalid root")
    ensures r.Success? ==> r.value.LocalFs? && (HasEmitter(r.value) <==> hasEmitter)
    ensures r.Success? ==> Segments(Root(r.value)) == Segments(root) && !IsUp(Root(r.value))
  {
    var normalized :- CheckRoot(root, None, AdapterMessages);
    Success(LocalFs(FsLocal.Create(normalized, hasEmitter), disk, effects))
  }

  /**
   * `httpActionRemote(root, getSocket, actions)`: the checked root, and
   * then per request the adapter over whatever socket `getSocket()` gives.
   */
  function RemoteAdapter(root: string, getSocket: Val, socket: Option<FsRemote.Socket>, peer: Peer): (r: Result<Option<Fs>, string>)
    ensures r.Failure? <==> root == "" || !getSocket.Fn? || IsUp(Normalize(root))
    ensures r.Success? ==> (r.value.Some? <==> socket.Some?)
    ensures r.Success? && r.value.Some? ==> HasEmitter(r.value.value) && Segments(Root(r.value.value)) == Segments(root)
  {
    var normalized :- CheckRoot(root, Some(getSocket), AdapterMessages);
    Success(OverSocket(normalized, socket, peer))
  }

  /**
   * `...args`, with `args` defaulting to `[]` when the body has none: an
   * array gives its elements (a hole reads `undefined`), a string its
   * characters; spreading anything else a parsed body can hold throws.
   */
  function Spread(args: Val): (r: Option<seq<Val>>)
    ensures r.Some? <==> args == Undefined || args.Arr? || args.Str?
    ensures args == Undefined ==> r == Some([])
    ensures args.Arr? ==> r.Some? && |r.value| == |args.slots|
    ensures args.Arr? ==> forall i | 0 <= i < |args.slots| :: args.slots[i].Some? ==> r.value[i] == args.slots[i].value
    ensures args.Str? ==> r.Some? && |r.value| == |args.s|
    ensures args.Str? ==> forall i | 0 <= i < |args.s| :: r.value[i] == Str([args.s[i]])
  {
    match args
    case Undefined => Some([])
    case Arr(slots) => Some(seq(|slots|, i requires 0 <= i < |slots| => if slots[i].Some? then slots[i].value else Undefined))
    case Str(s) => Some(seq(|s|, i requires 0 <= i < |s| => Str([s[i]])))
    case _ => None
  }

  /** `actions.includes(action)`: only a string can equal a listed name. */
  predicate Allowed(actions: seq<string>, action: Val) {
    action.Str? && action.s in actions
  }

  /** `onJSON`: the body's `action` and `args` on the request's path. */
  function OnJson(fs: Fs, actions: seq<string>, req: Request): ActionReply {
    var action := Get(req.body, "action");
    if !Truthy(req.body) || !Truthy(action) then Next
    else if !Allowed(actions, action) then Next
    else if !HasEmitter(fs) then Next
    else
      match Spread(Get(req.body, "args"))
      case None => Next
      case Some(args) =>
        match Action(fs, action.s, req.pathname, args)
        case None => Next
        case Some(d) => Ok(d)
  }

  /**
   * The handler, with `fs` what `getFS()` returned: only a POST through a
   * connected adapter on a path that exists reaches `onJSON`.
   */
  function OnRequest(fs: Option<Fs>, actions: seq<string>, req: Request): ActionReply {
    if IsUp(req.pathname) then Next
    else if fs.None? || !Connected(fs.value) then Next
    else if req.verb != "POST" then Next
    else
      OnFound(fs.value, actions, req, Exists(fs.value, req.pathname))
  }

  /** What the handler does once `fs.exists` has settled with `found`. */
  function OnFound(fs: Fs, actions: seq<string>, req: Request, found: Awaited): ActionReply {
    match found
    case Failed => Next
    case Done(v) => if !Truthy(v) then Next else OnJson(fs, actions, req)
  }

  // ---------------------------------------------------------------------
  // Properties

  /** The conditions under which the handler answers rather than hand on. */
  predicate Answerable(fs: Option<Fs>, actions: seq<string>, req: Request) {
    && !IsUp(req.pathname)
    && fs.Some? && Connected(fs.value) && HasEmitter(fs.value)
    && req.verb == "POST"
    && Exists(fs.value, req.pathname).Done? && Truthy(Exists(fs.value, req.pathname).value)
    && Truthy(req.body) && Truthy(Get(req.body, "action")) && Allowed(actions, Get(req.body, "action"))
    && Spread(Get(req.body, "args")).Some?
  }

  /** The payload an allowed action goes out with. */
  function Expected(fs: Fs, req: Request): (Val, seq<Val>)
    requires Get(req.body, "action").Str? && Spread(Get(req.body, "args")).Some?
  {
    (Events.Name(Events.Action),
     [Get(req.body, "action"), Str(Resolve(Root(fs), req.pathname))] + Spread(Get(req.body, "args")).value)
  }

  lemma OnJsonAnswers(fs: Fs, actions: seq<string>, req: Request)
    requires !IsUp(req.pathname)
    ensures OnJson(fs, actions, req).Ok? <==>
      && Truthy(req.body) && Truthy(Get(req.body, "action")) && Allowed(actions, Get(req.body, "action"))
      && HasEmitter(fs) && Spread(Get(req.body, "args")).Some?
    ensures OnJson(fs, actions, req).Ok? ==> Payload(OnJson(fs, actions, req).dispatched) == Expected(fs, req)
  { }

  /**
   * The handler answers exactly when every condition holds, and then the
   * action went out with its name and the resolved path in front of the
   * body's arguments; an action not on the list is never dispatched.
   */
  lemma ActionAnswers(fs: Option<Fs>, actions: seq<string>, req: Request)
    ensures OnRequest(fs, actions, req).Ok? <==> Answerable(fs, actions, req)
    ensures OnRequest(fs, actions, req).Ok? ==>
      && Get(req.body, "action").Str? && Get(req.body, "action").s in actions
      && Payload(OnRequest(fs, actions, req).dispatched) == Expected(fs.value, req)
  { }

  /**
   * Through a local adapter with an emitter, an allowed action on a path
   * that storage holds is emitted with the path resolved below the root.
   */
  lemma LocalActionEmitted(root: string, disk: Disk.Node, effects: Effects, actions: seq<string>, req: Request)
    requires LocalAdapter(root, true, disk, effects).Success?
    requires !IsUp(req.pathname) && req.verb == "POST"
    requires Disk.StatAt(disk, Resolve(Root(LocalAdapter(root, true, disk, effects).value), req.pathname)).Success?
    requires Truthy(req.body) && Truthy(Get(req.body, "action")) && Allowed(actions, Get(req.body, "action"))
    requires Get(req.body, "args").Arr?
    ensures var r := OnRequest(Some(LocalAdapter(root, true, disk, effects).value), actions, req);
      && r.Ok? && r.dispatched.Emitted? && |r.dispatched.emission.args| > 1
      && r.dispatched.emission.args[1] == Str(Resolve(Root(LocalAdapter(root, true, disk, effects).value), req.pathname))
      && Segments(r.dispatched.emission.args[1].s) == Segments(root) + Segments(req.pathname)
  {
    var fs := LocalAdapter(root, true, disk, effects).value;
    LocalEmission(fs, actions, req);
    SandboxHolds(fs.local.root, req.pathname);
  }

  /** Through any local adapter with an emitter, the allowed action goes out with the resolved path. */
  lemma LocalEmission(fs: Fs, actions: seq<string>, req: Request)
    requires fs.LocalFs? && HasEmitter(fs)
    requires !IsUp(req.pathname) && req.verb == "POST"
    requires Disk.StatAt(fs.disk, Resolve(Root(fs), req.pathname)).Success?
    requires Truthy(req.body) && Truthy(Get(req.body, "action")) && Allowed(actions, Get(req.body, "action"))
    requires Get(req.body, "args").Arr?
    ensures var r := OnRequest(Some(fs), actions, req);
      && r.Ok? && r.dispatched.Emitted? && |r.dispatched.emission.args| > 1
      && r.dispatched.emission.args[1] == Str(Resolve(Root(fs), req.pathname))
  {
    ReachesJson(fs, actions, req);
    JsonEmits(fs, actions, req);
  }

  /** A POST on a path local storage holds gets as far as `onJSON`. */
  lemma ReachesJson(fs: Fs, actions: seq<string>, req: Request)
    requires fs.LocalFs?
    requires !IsUp(req.pathname) && req.verb == "POST"
    requires Disk.StatAt(fs.disk, Resolve(Root(fs), req.pathname)).Success?
    ensures OnRequest(Some(fs), actions, req) == OnJson(fs, actions, req)
  { }

  /** A path local storage holds exists through the adapter. */
  lemma LocalExists(fs: Fs, p: string)
    requires fs.LocalFs? && !IsUp(p)
    requires Disk.StatAt(fs.disk, Resolve(Root(fs), p)).Success?
    ensures Exists(fs, p) == Done(Bool(true))
  { }

  /** `onJSON` on a local adapter with an emitter emits an allowed action with the resolved path second. */
  lemma JsonEmits(fs: Fs, actions: seq<string>, req: Request)
    requires fs.LocalFs? && HasEmitter(fs) && !IsUp(req.pathname)
    requires Truthy(req.body) && Truthy(Get(req.body, "action")) && Allowed(actions, Get(req.body, "action"))
    requires Get(req.body, "args").Arr?
    ensures var r := OnJson(fs, actions, req);
      && r.Ok? && r.dispatched.Emitted? && |r.dispatched.emission.args| > 1
      && r.dispatched.emission.args[1] == Str(Resolve(Root(fs), req.pathname))
  { }
}

=== FILE: http_dir.dfy ===
/**
 * The directory listing handler of src/http-dir.js: for a GET of a URL
 * that names a directory it redirects to the URL with a trailing slash,
 * or, when the URL has one, puts the directory's entries, newest first,
 * on `req.entities` before handing the request on.
 */
module HttpDir {
  import opened Wrappers
  import opened PosixPath
  import opened Sandbox
  import opened Js
  import opened Http
  import opened Adapter
  import opened NodeValues
  import Disk
  import FsLocal
  import FsRemote
  import opened Dates
  import Wire

  /**
   * One listed entry. `createdAt` is the time value of the `Date` built
   * from the stat's birth time, `None` for an invalid date.
   */
  datatype Entity = Entity(name: string, url: string, parent: string, size: Val,
                           isFile: Val, isDirectory: Val, createdAt: Option<int>)

  datatype DirReply =
    | Next
    | Redirect(location: string)
      /** `req.entities` set to `entities`, then `next()`. */
    | Listed(entities: seq<Entity>)

  /** `httpDirLocal(root)`: a local adapter over `root`, never checked here. */
  function LocalFsFor(root: string, disk: Disk.Node, effects: Effects): (r: Fs)
    ensures r.LocalFs? && Segments(Root(r)) == Segments(root) && !r.local.hasEmitter
  {
    LocalFs(FsLocal.Create(root, false), disk, effects)
  }

  // ---------------------------------------------------------------------
  // Entities

  /**
   * `new Date(v).getTime()`, `None` for an invalid date. A `Date` keeps
   * its time value. `null` and booleans convert to 0 and 1. A number is
   * clipped to the valid range. Text, and an array through its joined
   * text, is parsed in the layout `toISOString` writes.
   */
  function TimeOf(v: Val): (r: Option<int>)
    ensures r.Some? ==> -(MaxTime as int) <= r.value <= MaxTime
    ensures v.Str? ==> r == (if ParseIso(v.s).Some? then Some(ParseIso(v.s).value as int) else None)
  {
    match v
    case Opaque(DateObject, ms) => TimeClip(ms)
    case Null => Some(0)
    case Bool(b) => Some(if b then 1 else 0)
    case Num(n) => TimeClip(n)
    case Str(s) => ParsedTime(s)
    case Arr(_) => ParsedTime(StringOf(v))
    case _ => None
  }

  function ParsedTime(s: string): (r: Option<int>)
    ensures r.Some? ==> 0 <= r.value <= MaxTime
  {
    match ParseIso(s)
    case Some(t) => Some(t)
    case None => None
  }

  /**
   * A listing over a remote adapter reads the birth time back from the
   * ISO text the wire carries: the same time value a local listing reads
   * from the `Date` itself.
   */
  lemma WireDateRead(ms: nat)
    ensures ms <= MaxTime ==> TimeOf(Wire.DateJson(ms)) == Some(ms)
    ensures TimeOf(Opaque(DateObject, ms)) == TimeClip(ms)
  { }

  /** `s.replace(/\/\//g, '/')`: each `//`, scanning from the left without overlap, becomes `/`. */
  function CollapseSlashes(s: string): (r: string)
    ensures |r| <= |s|
  {
    if |s| >= 2 && s[0] == '/' && s[1] == '/' then "/" + CollapseSlashes(s[2..])
    else if s == [] then []
    else [s[0]] + CollapseSlashes(s[1..])
  }

  /** An entity's `url`: the original URL, a slash and the name, with doubled slashes collapsed. */
  function EntityUrl(originalUrl: string, name: string): string {
    CollapseSlashes(originalUrl + "/" + name)
  }

  /** The names of a `readdir` result; `None` when it is not an array of strings, which `join` or `map` throws on. */
  function Names(listing: Val): (r: Option<seq<string>>)
    ensures r.Some? <==> listing.Arr? && forall i | 0 <= i < |listing.slots| :: listing.slots[i].Some? && listing.slots[i].value.Str?
    ensures r.Some? ==> |r.value| == |listing.slots| && forall i | 0 <= i < |r.value| :: listing.slots[i] == Some(Str(r.value[i]))
  {
    if listing.Arr? && forall i | 0 <= i < |listing.slots| :: listing.slots[i].Some? && listing.slots[i].value.Str?
    then Some(seq(|listing.slots|, i requires 0 <= i < |listing.slots| => listing.slots[i].value.s))
    else None
  }

  /** `Promise.all(names.map(name => fs.stat(join(dir, name))))`: `None` when any one fails. */
  function StatAll(fs: Fs, dir: string, names: seq<string>): (r: Option<seq<Val>>)
    ensures r.Some? <==> forall i | 0 <= i < |names| :: Stat(fs, JoinPaths(dir, names[i])).Done?
    ensures r.Some? ==> |r.value| == |names| && forall i | 0 <= i < |names| :: Stat(fs, JoinPaths(dir, names[i])) == Done(r.value[i])
  {
    if names == [] then Some([])
    else
      match Stat(fs, JoinPaths(dir, names[0]))
      case Failed => None
      case Done(v) =>
        match StatAll(fs, dir, names[1..])
        case None => None
        case Some(rest) => Some([v] + rest)
  }

  /** The entity for one name and its stat; `None` when reading the stat throws. */
  function EntityOf(req: Request, name: string, stat: Val, invoke: Invoke): (r: Option<Entity>)
    ensures r.Some? <==> Member(stat, "size").Some? && Flag(stat, "isFile", invoke).Some? && Flag(stat, "isDirectory", invoke).Some?
    ensures r.Some? ==> r.value.name == name && r.value.parent == req.url && r.value.url == EntityUrl(req.originalUrl, name)
  {
    var size :- Member(stat, "size");
    var isFile :- Flag(stat, "isFile", invoke);
    var isDirectory :- Flag(stat, "isDirectory", invoke);
    Some(Entity(name, EntityUrl(req.originalUrl, name), req.url, size, isFile, isDirectory, TimeOf(Get(stat, "birthtime"))))
  }

  /** The entities of all names, in listing order; `None` when any one throws. */
  function Entities(req: Request, names: seq<string>, stats: seq<Val>, invoke: Invoke): (r: Option<seq<Entity>>)
    requires |names| == |stats|
    ensures r.Some? <==> forall i | 0 <= i < |names| :: EntityOf(req, names[i], stats[i], invoke).Some?
    ensures r.Some? ==> |r.value| == |names| && forall i | 0 <= i < |names| :: EntityOf(req, names[i], stats[i], invoke) == Some(r.value[i])
  {
    if names == [] then Some([])
    else
      match EntityOf(req, names[0], stats[0], invoke)
      case None => None
      case Some(e) =>
        match Entities(req, names[1..], stats[1..], invoke)
        case None => None
        case Some(rest) => Some([e] + rest)
  }

  // ---------------------------------------------------------------------
  // Newest first

  /**
   * The comparator `b.createdAt - a.createdAt` is positive for `(e, x)`:
   * `x` is strictly newer. An invalid date compares as equal to anything.
   */
  predicate Newer(x: Entity, e: Entity) {
    x.createdAt.Some? && e.createdAt.Some? && x.createdAt.value > e.createdAt.value
  }

  /** Placing `e`, which came first, into a list already in order: it passes only strictly newer entries. */
  function Insert(e: Entity, s: seq<Entity>): (r: seq<Entity>)
    ensures multiset(r) == multiset(s) + multiset{e}
  {
    if s == [] || !Newer(s[0], e) then [e] + s
    else
      assert s == [s[0]] + s[1..];
      [s[0]] + Insert(e, s[1..])
  }

  /** `files.sort((a, b) => b.createdAt - a.createdAt)`, a stable sort. */
  function SortByNewest(es: seq<Entity>): (r: seq<Entity>)
    ensures multiset(r) == multiset(es)
  {
    if es == [] then []
    else
      assert es == [es[0]] + es[1..];
      Insert(es[0], SortByNewest(es[1..]))
  }

  // ---------------------------------------------------------------------
  // The handler

  /** Read `{ withFileTypes: false }` as it is passed to `readdir`. */
  const NamesOnly: Val := Record([Prop("withFileTypes", Bool(false))])

  /**
   * The handler, with `fs` what `getFS()` returned and `invoke` the calls
   * of function values: anything but a GET of an existing directory, and
   * any failure, hands the request on.
   */
  function OnRequest(fs: Option<Fs>, req: Request, invoke: Invoke): (r: DirReply)
  {
    if req.verb != "GET" then Next
    else if fs.None? || !Connected(fs.value) then Next
    else
      var f := fs.value;
      match Exists(f, req.url)
      case Failed => Next
      case Done(found) =>
        if !Truthy(found) then Next
        else
          match Stat(f, req.url)
          case Failed => Next
          case Done(stat) =>
            match Flag(stat, "isDirectory", invoke)
            case None => Next
            case Some(isDirectory) =>
              if !Truthy(isDirectory) then Next
              else if !EndsWithSep(req.originalUrl) then Redirect(req.originalUrl + "/")
              else
                match Listing(f, req, invoke)
                case None => Next
                case Some(es) => Listed(SortByNewest(es))
  }

  /**
   * The entities of the directory at `req.url`, in listing order: its
   * names, each name's stat and the entity built from it. `None` when any
   * step throws or rejects.
   */
  function Listing(f: Fs, req: Request, invoke: Invoke): (r: Option<seq<Entity>>)
    ensures r.Some? ==> forall i | 0 <= i < |r.value| ::
      r.value[i].parent == req.url && r.value[i].url == EntityUrl(req.originalUrl, r.value[i].name)
  {
    match Readdir(f, req.url, NamesOnly)
    case Failed => None
    case Done(listing) =>
      match Names(listing)
      case None => None
      case Some(names) =>
        match StatAll(f, req.url, names)
        case None => None
        case Some(stats) => Entities(req, names, stats, invoke)
  }

  // ---------------------------------------------------------------------
  // Properties of the order

  /** No entry is strictly newer than one listed before it. */
  predicate NewestFirst(s: seq<Entity>) {
    forall i, j | 0 <= i < j < |s| :: !Newer(s[j], s[i])
  }

  predicate AllDated(s: seq<Entity>) {
    forall i | 0 <= i < |s| :: s[i].createdAt.Some?
  }

  /** The entries created at `t` (or, for `None`, with an invalid date), in order. */
  function CreatedAt(s: seq<Entity>, t: Option<int>): seq<Entity> {
    if s == [] then []
    else (if s[0].createdAt == t then [s[0]] else []) + CreatedAt(s[1..], t)
  }

  lemma {:induction false} InsertNewestFirst(e: Entity, s: seq<Entity>)
    requires e.createdAt.Some? && AllDated(s) && NewestFirst(s)
    ensures AllDated(Insert(e, s)) && NewestFirst(Insert(e, s))
  {
    var r := Insert(e, s);
    if s == [] || !Newer(s[0], e) {
      assert r == [e] + s;
      forall j | 1 <= j < |r|
        ensures !Newer(r[j], e)
      {
        assert r[j] == s[j - 1];
        assert !Newer(s[j - 1], s[0]);
      }
    } else {
      var tail := Insert(e, s[1..]);
      InsertNewestFirst(e, s[1..]);
      assert r == [s[0]] + tail;
      forall j | 0 <= j < |tail|
        ensures !Newer(tail[j], s[0])
      {
        assert tail[j] in multiset(s[1..]) + multiset{e} by {
          assert tail[j] in multiset(tail);
        }
        if tail[j] != e {
          var k :| 0 <= k < |s[1..]| && s[1..][k] == tail[j];
          assert tail[j] == s[k + 1];
        }
      }
    }
  }

  /** With every date valid, the sorted list has the newest entries first. */
  lemma {:induction false} SortedNewestFirst(es: seq<Entity>)
    requires AllDated(es)
    ensures NewestFirst(SortByNewest(es))
    ensures AllDated(SortByNewest(es))
  {
    if es != [] {
      SortedNewestFirst(es[1..]);
      InsertNewestFirst(es[0], SortByNewest(es[1..]));
    }
  }

  lemma {:induction false} InsertKeepsOrder(e: Entity, s: seq<Entity>, t: Option<int>)
    ensures CreatedAt(Insert(e, s), t) == (if e.createdAt == t then [e] else []) + CreatedAt(s, t)
  {
    if s != [] && Newer(s[0], e) {
      InsertKeepsOrder(e, s[1..], t);
      var r := Insert(e, s);
      assert r[0] == s[0] && r[1..] == Insert(e, s[1..]);
    } else {
      assert ([e] + s)[1..] == s;
    }
  }

  /**
   * The sort is stable: entries created at the same time (and those with
   * an invalid date) keep their listing order.
   */
  lemma {:induction false} SortStable(es: seq<Entity>, t: Option<int>)
    ensures CreatedAt(SortByNewest(es), t) == CreatedAt(es, t)
  {
    if es != [] {
      SortStable(es[1..], t);
      InsertKeepsOrder(es[0], SortByNewest(es[1..]), t);
    }
  }

  // ---------------------------------------------------------------------
  // Properties of the URLs

  predicate NoDoubleSlash(s: string) {
    forall i | 0 <= i < |s| - 1 :: !(s[i] == '/' && s[i + 1] == '/')
  }

  lemma {:induction false} CollapseUnchanged(s: string)
    requires NoDoubleSlash(s)
    ensures CollapseSlashes(s) == s
  {
    if s != [] {
      CollapseUnchanged(s[1..]);
      assert [s[0]] + s[1..] == s;
    }
  }

  lemma {:induction false} CollapseAfter(q: string, rest: string)
    requires NoDoubleSlash(q) && (q == [] || q[|q| - 1] != '/')
    ensures CollapseSlashes(q + "//" + rest) == q + "/" + CollapseSlashes(rest)
  {
    var s := q + "//" + rest;
    if q == [] {
      assert s[2..] == rest;
    } else {
      assert s[0] == q[0];
      assert |q| >= 2 ==> s[1] == q[1];
      assert |q| == 1 ==> s[1] == '/' && q[0] != '/';
      assert s[1..] == q[1..] + "//" + rest;
      CollapseAfter(q[1..], rest);
    }
  }

  /**
   * Under a directory URL that ends in its only doubled-free slash, an
   * entity's URL is the directory URL followed by the name.
   */
  lemma EntityUrlAppends(originalUrl: string, name: string)
    requires EndsWithSep(originalUrl) && NoDoubleSlash(originalUrl) && '/' !in name
    ensures EntityUrl(originalUrl, name) == originalUrl + name
  {
    var q := originalUrl[..|originalUrl| - 1];
    assert originalUrl == q + "/";
    assert q != [] ==> q[|q| - 1] == originalUrl[|originalUrl| - 2];
    assert originalUrl + "/" + name == q + "//" + name;
    CollapseAfter(q, name);
    CollapseUnchanged(name);
  }

  // ---------------------------------------------------------------------
  // Properties of the handler

  /**
   * Only a GET through a connected adapter of an existing directory is
   * answered: by a redirect to the URL with a slash appended when the
   * original URL lacks one, and by a listing otherwise, whose entities
   * are newest first whenever their dates are valid.
   */
  lemma DirAnswers(fs: Option<Fs>, req: Request, invoke: Invoke)
    ensures var r := OnRequest(fs, req, invoke);
      && (r != Next ==> req.verb == "GET" && fs.Some? && Connected(fs.value))
      && (r != Next ==> Exists(fs.value, req.url).Done? && Truthy(Exists(fs.value, req.url).value))
      && (r.Redirect? <==> r != Next && !EndsWithSep(req.originalUrl))
      && (r.Redirect? ==> r.location == req.originalUrl + "/")
      && (r.Listed? && AllDated(r.entities) ==> NewestFirst(r.entities))
      && (r.Listed? ==> forall i | 0 <= i < |r.entities| :: r.entities[i].parent == req.url)
  {
    var r := OnRequest(fs, req, invoke);
    if r.Listed? {
      var es := Listing(fs.value, req, invoke).value;
      assert r.entities == SortByNewest(es);
      forall i | 0 <= i < |r.entities|
        ensures r.entities[i].parent == req.url
      {
        assert r.entities[i] in multiset(es);
      }
      if AllDated(r.entities) {
        assert AllDated(es) by {
          forall i | 0 <= i < |es|
            ensures es[i].createdAt.Some?
          {
            assert es[i] in multiset(r.entities);
          }
        }
        SortedNewestFirst(es);
      }
    }
  }

  // ---------------------------------------------------------------------
  // A listing of local storage

  /** The entity a listing shows for an entry of storage: its name, URL, size, type and birth time. */
  function ChildEntity(req: Request, c: Disk.Node): Entity {
    Entity(c.name, EntityUrl(req.originalUrl, c.name), req.url, Num(Disk.StatOf(c).size),
           Bool(!c.Dir?), Bool(c.Dir?), TimeClip(c.birthtimeMs))
  }

  /** The directory a local adapter over `root` finds at `url`, if any. */
  function LocalDir(root: string, disk: Disk.Node, url: string): Option<Disk.Node> {
    Disk.LookupPath(disk, Resolve(FsLocal.Create(root, false).root, url))
  }

  /** A directory whose entries' names the sandbox accepts one by one. */
  predicate Listable(d: Option<Disk.Node>) {
    d.Some? && d.value.Dir? && forall i | 0 <= i < |d.value.children| :: !UpPattern(d.value.children[i].name)
  }

  lemma StatsEntity(req: Request, c: Disk.Node, invoke: Invoke)
    requires ImplementsStats(invoke)
    ensures EntityOf(req, c.name, StatsVal(Disk.StatOf(c)), invoke) == Some(ChildEntity(req, c))
  {
    var st := Disk.StatOf(c);
    var s := StatsVal(st);
    FlagsAgree(st, invoke);
    StatsFields(st);
    assert Member(s, "size") == Some(Num(st.size));
    WireDateRead(c.birthtimeMs);
    assert TimeOf(Get(s, "birthtime")) == TimeClip(c.birthtimeMs);
  }

  lemma LocalChildStat(root: string, disk: Disk.Node, effects: Effects, url: string, i: nat)
    requires Disk.WellFormed(disk) && !IsUp(url) && Listable(LocalDir(root, disk, url))
    requires i < |LocalDir(root, disk, url).value.children|
    ensures var c := LocalDir(root, disk, url).value.children[i];
      Stat(LocalFsFor(root, disk, effects), JoinPaths(url, c.name)) == Done(StatsVal(Disk.StatOf(c)))
  {
    var local := FsLocal.Create(root, false);
    var dirPath := Resolve(local.root, url);
    var c := LocalDir(root, disk, url).value.children[i];
    Disk.DescendWellFormed(disk, Disk.DropParents(Segments(dirPath)));
    assert IsName(c.name);
    JoinedNameUp(url, c.name);
    FsLocal.StructStatFindsChild(local, disk, url, i);
  }

  function ChildNames(children: seq<Disk.Node>): seq<string> {
    seq(|children|, i requires 0 <= i < |children| => children[i].name)
  }

  function ChildStats(children: seq<Disk.Node>): seq<Val> {
    seq(|children|, i requires 0 <= i < |children| => StatsVal(Disk.StatOf(children[i])))
  }

  function ChildEntities(req: Request, children: seq<Disk.Node>): (r: seq<Entity>)
    ensures |r| == |children|
  {
    seq(|children|, i requires 0 <= i < |children| => ChildEntity(req, children[i]))
  }

  /** The children's entities are all dated iff every child's birth time is a valid date. */
  lemma ChildrenDated(req: Request, children: seq<Disk.Node>)
    ensures AllDated(ChildEntities(req, children)) <==> forall i | 0 <= i < |children| :: children[i].birthtimeMs <= MaxTime
  {
    var r := ChildEntities(req, children);
    assert forall i | 0 <= i < |r| :: r[i].createdAt == TimeClip(children[i].birthtimeMs);
  }

  lemma NamesOfListing(entries: seq<Disk.Dirent>)
    ensures Names(ReaddirVal(entries, false)) == Some(seq(|entries|, i requires 0 <= i < |entries| => entries[i].name))
  {
    var v := ReaddirVal(entries, false);
    var want := seq(|entries|, i requires 0 <= i < |entries| => entries[i].name);
    assert forall i | 0 <= i < |entries| :: v.slots[i] == Some(Str(entries[i].name));
    var r := Names(v);
    assert r.Some?;
    assert forall i | 0 <= i < |want| :: r.value[i] == want[i];
    assert r.value == want;
  }

  lemma ListedNames(entries: seq<Disk.Dirent>, children: seq<Disk.Node>)
    requires |entries| == |children| && forall i | 0 <= i < |entries| :: entries[i].name == children[i].name
    ensures Names(ReaddirVal(entries, false)) == Some(ChildNames(children))
  {
    NamesOfListing(entries);
    assert seq(|entries|, i requires 0 <= i < |entries| => entries[i].name) == ChildNames(children);
  }

  lemma LocalNames(root: string, disk: Disk.Node, effects: Effects, url: string)
    requires !IsUp(url) && LocalDir(root, disk, url).Some? && LocalDir(root, disk, url).value.Dir?
    ensures var f := LocalFsFor(root, disk, effects);
      && Readdir(f, url, NamesOnly).Done?
      && Names(Readdir(f, url, NamesOnly).value) == Some(ChildNames(LocalDir(root, disk, url).value.children))
  {
    var f := LocalFsFor(root, disk, effects);
    var children := LocalDir(root, disk, url).value.children;
    var entries := Disk.ReaddirAt(disk, Resolve(f.local.root, url)).value;
    assert !WithFileTypes(NamesOnly) by {
      LookupAt(NamesOnly.props, 0);
    }
    assert Readdir(f, url, NamesOnly) == Done(ReaddirVal(entries, false));
    ListedNames(entries, children);
  }

  lemma LocalStats(root: string, disk: Disk.Node, effects: Effects, url: string)
    requires Disk.WellFormed(disk) && !IsUp(url) && Listable(LocalDir(root, disk, url))
    ensures var children := LocalDir(root, disk, url).value.children;
      StatAll(LocalFsFor(root, disk, effects), url, ChildNames(children)) == Some(ChildStats(children))
  {
    var f := LocalFsFor(root, disk, effects);
    var children := LocalDir(root, disk, url).value.children;
    var names := ChildNames(children);
    var want := ChildStats(children);
    assert forall i | 0 <= i < |names| :: Stat(f, JoinPaths(url, names[i])) == Done(want[i]) by {
      forall i | 0 <= i < |names|
        ensures Stat(f, JoinPaths(url, names[i])) == Done(want[i])
      {
        LocalChildStat(root, disk, effects, url, i);
      }
    }
    StatAllOf(f, url, names, want);
  }

  lemma StatAllOf(f: Fs, dir: string, names: seq<string>, stats: seq<Val>)
    requires |names| == |stats|
    requires forall i | 0 <= i < |names| :: Stat(f, JoinPaths(dir, names[i])) == Done(stats[i])
    ensures StatAll(f, dir, names) == Some(stats)
  {
    var r := StatAll(f, dir, names);
    assert r.Some?;
    assert forall i | 0 <= i < |stats| :: r.value[i] == stats[i];
    assert r.value == stats;
  }

  lemma LocalEntities(req: Request, children: seq<Disk.Node>, invoke: Invoke)
    requires ImplementsStats(invoke)
    ensures Entities(req, ChildNames(children), ChildStats(children), invoke) == Some(ChildEntities(req, children))
  {
    var names, stats, want := ChildNames(children), ChildStats(children), ChildEntities(req, children);
    forall i | 0 <= i < |children|
      ensures EntityOf(req, names[i], stats[i], invoke) == Some(want[i])
    {
      StatsEntity(req, children[i], invoke);
    }
    var r := Entities(req, names, stats, invoke);
    assert r.Some?;
    assert |r.value| == |want|;
    assert forall i | 0 <= i < |want| :: r.value[i] == want[i];
    assert r.value == want;
  }

  /**
   * Over a well-formed storage tree, the entities of a directory whose
   * entries the sandbox accepts are those of its entries, in order.
   */
  lemma LocalListing(root: string, disk: Disk.Node, effects: Effects, req: Request, invoke: Invoke)
    requires Disk.WellFormed(disk) && !IsUp(req.url) && ImplementsStats(invoke)
    requires Listable(LocalDir(root, disk, req.url))
    ensures Listing(LocalFsFor(root, disk, effects), req, invoke) ==
      Some(ChildEntities(req, LocalDir(root, disk, req.url).value.children))
  {
    var f := LocalFsFor(root, disk, effects);
    var children := LocalDir(root, disk, req.url).value.children;
    LocalNames(root, disk, effects, req.url);
    LocalStats(root, disk, effects, req.url);
    LocalEntities(req, children, invoke);
    ListingOf(f, req, invoke, ChildNames(children), ChildStats(children));
  }

  /** The listing is the entities of the names `readdir` gives and of their stats. */
  lemma ListingOf(f: Fs, req: Request, invoke: Invoke, names: seq<string>, stats: seq<Val>)
    requires Readdir(f, req.url, NamesOnly).Done? && Names(Readdir(f, req.url, NamesOnly).value) == Some(names)
    requires StatAll(f, req.url, names) == Some(stats)
    ensures Listing(f, req, invoke) == Entities(req, names, stats, invoke)
  {
  }

  /** Past its checks on a directory, the handler redirects or lists. */
  lemma DirectoryAnswered(f: Fs, req: Request, invoke: Invoke, st: Disk.Stat)
    requires req.verb == "GET" && Connected(f) && ImplementsStats(invoke) && st.isDirectory
    requires Exists(f, req.url) == Done(Bool(true)) && Stat(f, req.url) == Done(StatsVal(st))
    ensures OnRequest(Some(f), req, invoke) ==
      if !EndsWithSep(req.originalUrl) then Redirect(req.originalUrl + "/")
      else if Listing(f, req, invoke).None? then Next
      else Listed(SortByNewest(Listing(f, req, invoke).value))
  {
    FlagsAgree(st, invoke);
  }

  /**
   * A GET of a directory through a local adapter: redirected to the URL
   * with a slash when the original URL lacks one, otherwise listed with
   * exactly the directory's entries, newest first.
   */
  lemma LocalDirAnswers(root: string, disk: Disk.Node, effects: Effects, req: Request, invoke: Invoke)
    requires Disk.WellFormed(disk) && !IsUp(req.url) && ImplementsStats(invoke) && req.verb == "GET"
    requires Listable(LocalDir(root, disk, req.url))
    ensures var r := OnRequest(Some(LocalFsFor(root, disk, effects)), req, invoke);
      var children := LocalDir(root, disk, req.url).value.children;
      && (!EndsWithSep(req.originalUrl) ==> r == Redirect(req.originalUrl + "/"))
      && (EndsWithSep(req.originalUrl) ==>
            && r.Listed?
            && multiset(r.entities) == multiset(ChildEntities(req, children))
            && NewestFirst(r.entities))
  {
    var f := LocalFsFor(root, disk, effects);
    var n := LocalDir(root, disk, req.url).value;
    LocalDirFound(root, disk, effects, req.url);
    LocalListing(root, disk, effects, req, invoke);
    Disk.DescendWellFormed(disk, Disk.DropParents(Segments(Resolve(FsLocal.Create(root, false).root, req.url))));
    ChildrenDated(req, n.children);
    DirectoryListed(f, req, invoke, Disk.StatOf(n), ChildEntities(req, n.children));
  }

  /** A directory whose listing succeeds is redirected or listed newest first. */
  lemma DirectoryListed(f: Fs, req: Request, invoke: Invoke, st: Disk.Stat, es: seq<Entity>)
    requires req.verb == "GET" && Connected(f) && ImplementsStats(invoke) && st.isDirectory
    requires Exists(f, req.url) == Done(Bool(true)) && Stat(f, req.url) == Done(StatsVal(st))
    requires Listing(f, req, invoke) == Some(es) && AllDated(es)
    ensures var r := OnRequest(Some(f), req, invoke);
      && (!EndsWithSep(req.originalUrl) ==> r == Redirect(req.originalUrl + "/"))
      && (EndsWithSep(req.originalUrl) ==>
            r.Listed? && multiset(r.entities) == multiset(es) && NewestFirst(r.entities))
  {
    DirectoryAnswered(f, req, invoke, st);
    SortedNewestFirst(es);
  }

  /** A directory storage holds is found, and its stat says so. */
  lemma LocalDirFound(root: string, disk: Disk.Node, effects: Effects, url: string)
    requires !IsUp(url) && Listable(LocalDir(root, disk, url))
    ensures var f := LocalFsFor(root, disk, effects);
      && Exists(f, url) == Done(Bool(true))
      && Stat(f, url) == Done(StatsVal(Disk.StatOf(LocalDir(root, disk, url).value)))
      && Disk.StatOf(LocalDir(root, disk, url).value).isDirectory
      && Connected(f)
  {
  }
}

=== FILE: http_fs.dfy ===
/**
 * The upload handler of src/http-fs.js: a DELETE removes an existing path;
 * a POST with a JSON or URL-encoded body downloads a file from a URL and
 * creates a directory below the request's path; a POST with a multipart
 * form does the same from the form's fields and also stores its file
 * part. Anything else hands the request on.
 */
module HttpFs {
  import opened Wrappers
  import opened PosixPath
  import opened Sandbox
  import opened Js
  import opened Http
  import opened Adapter
  import opened NodeValues
  import Disk

  /** The busboy limits: one file per form, each of at most one gigabyte. */
  const FileCountLimit: nat := 1
  const FileSizeLimit: nat := 1024 * 1024 * 1024

  /** What the handler asked of the adapter. */
  datatype Call =
    | MakeDir(path: string)
    | Delete(path: string)
      /** A write stream opened on `path`, fed from a URL or from the form's file part. */
    | Write(path: string, target: Opened, source: Source)

  datatype Source = FromUrl(url: string) | FromPart(filename: string)

  /** Why a form's `close` handler failed: the text after `FAIL: ` is the thrown error's message. */
  datatype Cause =
      /** `new URL(file.url)` threw. */
    | InvalidUrl
      /** A path function was given something other than a string. */
    | NotAPath
      /** The adapter threw or rejected. */
    | Refused

  datatype FsReply =
    | Next
    | Replied(status: nat, text: string)
      /** `res.status(400).send('FAIL: ' + e.message)`. */
    | FailedWith(cause: Cause)

  /** The reply and the adapter calls made on the way to it, in order. */
  datatype Handled = Handled(reply: FsReply, calls: seq<Call>)

  /** The calls a step made, and what it threw, if anything. */
  datatype Run = Run(calls: seq<Call>, thrown: Option<Cause>)

  /** Read `{ recursive: true }` as it is passed to `mkdir`. */
  const Recursive: Val := Record([Prop("recursive", Bool(true))])

  /** `isup(v)` for any value: the pattern is tested on its string form. */
  predicate UpVal(v: Val) {
    IsUp(StringOf(v))
  }

  // ---------------------------------------------------------------------
  // Content types

  function Lower(c: char): char {
    if 'A' <= c <= 'Z' then (c as int + 32) as char else c
  }

  /** `needle`, in lower case, occurs at `i` of `hay` when letter case is ignored. */
  predicate MatchesIgnoringCase(hay: string, needle: string, i: int) {
    0 <= i && i + |needle| <= |hay| && forall k | 0 <= k < |needle| :: Lower(hay[i + k]) == needle[k]
  }

  /** A case-insensitive regular expression without metacharacters, tested on `hay`. */
  predicate ContainsIgnoringCase(hay: string, needle: string) {
    exists i | 0 <= i <= |hay| :: MatchesIgnoringCase(hay, needle, i)
  }

  /** `/multipart\/form\-data/i` */
  predicate IsFormData(contentType: string) {
    ContainsIgnoringCase(contentType, "multipart/form-data")
  }

  /** `/application\/(?:json|x\-www\-form\-urlencoded)/i` */
  predicate IsJsonOrUrlEncoded(contentType: string) {
    ContainsIgnoringCase(contentType, "application/json") || ContainsIgnoringCase(contentType, "application/x-www-form-urlencoded")
  }

  /** `req.headers['content-type'] || ''` */
  function ContentType(req: Request): (r: string)
    ensures r != "" ==> Header(req, "content-type") == Str(r)
    ensures r == "" ==> !Truthy(Header(req, "content-type"))
  {
    if "content-type" in req.headers then req.headers["content-type"] else ""
  }

  // ---------------------------------------------------------------------
  // Downloads and directories

  /**
   * `downloadFile(req, fs, { url, name })`, with `parse` the `pathname` of
   * `new URL(text)` (`None` when that throws): a file is written below the
   * request's path under the basename of the given name, or else of the
   * URL's path unless that is `/`; no file without a URL or a name.
   * `new URL` throwing, `basename` of a name that is not a string and
   * `createWriteStream` throwing are the three throws.
   */
  function DownloadFile(fs: Fs, pathname: string, url: Val, name: Val, parse: string -> Option<string>, stream: nat): (r: Run)
    ensures !Truthy(url) ==> r == Run([], None)
    ensures |r.calls| <= 1 && (r.calls != [] ==> r.thrown.None?)
    ensures r.calls != [] ==> r.calls[0].Write? && r.calls[0].source == FromUrl(StringOf(url))
    ensures r.calls != [] && Truthy(name) ==> name.Str? && r.calls[0].path == JoinPaths(pathname, Basename(name.s))
    ensures r.calls != [] && !Truthy(name) ==>
      parse(StringOf(url)).Some? && r.calls[0].path == JoinPaths(pathname, Basename(parse(StringOf(url)).value))
    // the throws
    ensures r.thrown == Some(InvalidUrl) <==> Truthy(url) && parse(StringOf(url)).None?
    ensures r.thrown == Some(NotAPath) <==> Truthy(url) && parse(StringOf(url)).Some? && Truthy(name) && !name.Str?
    // a usable name is written to when its stream opens, and the stream's refusal is thrown
    ensures Truthy(url) && parse(StringOf(url)).Some? && Truthy(name) && name.Str? && Basename(name.s) != "" ==>
      var target := OpenStream(fs, true, JoinPaths(pathname, Basename(name.s)), Undefined, stream);
      && (r.calls != [] <==> target.Some?)
      && (r.calls != [] ==> r.calls[0].target == target.value)
      && (r.calls == [] ==> r.thrown == Some(Refused))
    ensures Truthy(url) && parse(StringOf(url)).Some? && !Truthy(name) &&
            parse(StringOf(url)).value !in {"", "/"} && Basename(parse(StringOf(url)).value) != "" ==>
      var target := OpenStream(fs, true, JoinPaths(pathname, Basename(parse(StringOf(url)).value)), Undefined, stream);
      && (r.calls != [] <==> target.Some?)
      && (r.calls != [] ==> r.calls[0].target == target.value)
      && (r.calls == [] ==> r.thrown == Some(Refused))
    // without a usable name nothing is written and nothing is thrown
    ensures Truthy(url) && parse(StringOf(url)).Some? && Truthy(name) && name.Str? && Basename(name.s) == "" ==>
      r == Run([], None)
    ensures Truthy(url) && parse(StringOf(url)).Some? && !Truthy(name) &&
            (parse(StringOf(url)).value in {"", "/"} || Basename(parse(StringOf(url)).value) == "") ==>
      r == Run([], None)
  {
    if !Truthy(url) then Run([], None)
    else
      match parse(StringOf(url))
      case None => Run([], Some(InvalidUrl))
      case Some(urlPath) =>
        if Truthy(name) && !name.Str? then Run([], Some(NotAPath))
        else
          var named := if Truthy(name) then Some(name.s) else if urlPath != "" && urlPath != "/" then Some(urlPath) else None;
          if named.None? || Basename(named.value) == "" then Run([], None)
          else
            var filepath := JoinPaths(pathname, Basename(named.value));
            match OpenStream(fs, true, filepath, Undefined, stream)
            case None => Run([], Some(Refused))
            case Some(o) => Run([Write(filepath, o, FromUrl(StringOf(url)))], None)
  }

  /**
   * `createDirectory(req, fs, { name })`: a name that is not up is
   * normalised and created, recursively, below the request's path.
   */
  function CreateDirectory(fs: Fs, pathname: string, name: Val): (r: Run)
    ensures r.calls != [] <==> Truthy(name) && !UpVal(name) && name.Str?
    ensures r.calls != [] ==> r.calls == [MakeDir(Resolve(pathname, name.s))]
    ensures r.thrown.Some? <==> Truthy(name) && !UpVal(name) && (!name.Str? || Mkdir(fs, Resolve(pathname, name.s), Recursive).Failed?)
  {
    if !Truthy(name) || UpVal(name) then Run([], None)
    else if !name.Str? then Run([], Some(NotAPath))
    else
      var dirpath := Resolve(pathname, name.s);
      Run([MakeDir(dirpath)], if Mkdir(fs, dirpath, Recursive).Done? then None else Some(Refused))
  }

  // ---------------------------------------------------------------------
  // Forms

  /** What busboy reports while it reads a form; the form ends with `close` unless it fails. */
  datatype FormEvent = FilePart(filename: string) | Field(name: string, value: string) | ParseError

  /** The `file` and `dir` objects the field handler fills in. */
  datatype FormFields = FormFields(url: Val, name: Val, dir: Val)

  const NoFields := FormFields(Undefined, Undefined, Undefined)

  /** The field handler: three names are kept, any other is ignored. */
  function SetField(f: FormFields, name: string, value: string): FormFields {
    if name == "file_url" then f.(url := Str(value))
    else if name == "file_name" then f.(name := Str(value))
    else if name == "dir_name" then f.(dir := Str(value))
    else f
  }

  /**
   * The file handler: a part with a filename is written below the
   * request's path under its basename; one without is drained. A throw
   * is caught and the part is dropped.
   */
  function Upload(fs: Fs, pathname: string, filename: string, stream: nat): (r: seq<Call>)
    ensures |r| <= 1
    ensures r != [] ==> r[0].Write? && r[0].source == FromPart(filename) && r[0].path == JoinPaths(pathname, Basename(filename))
    ensures r != [] <==>
      filename != "" && Basename(filename) != "" && OpenStream(fs, true, JoinPaths(pathname, Basename(filename)), Undefined, stream).Some?
    ensures r != [] ==> r[0].target == OpenStream(fs, true, JoinPaths(pathname, Basename(filename)), Undefined, stream).value
  {
    var base := if filename != "" then Basename(filename) else "";
    if base == "" then []
    else
      match OpenStream(fs, true, JoinPaths(pathname, base), Undefined, stream)
      case None => []
      case Some(o) => [Write(JoinPaths(pathname, base), o, FromPart(filename))]
  }

  /** The events busboy reports before the first error, if any. */
  function Reported(events: seq<FormEvent>): (r: seq<FormEvent>)
    ensures r <= events && ParseError !in r
    ensures |r| < |events| ==> events[|r|] == ParseError
  {
    if events == [] || events[0] == ParseError then []
    else [events[0]] + Reported(events[1..])
  }

  /** The filenames of the file parts, in order. */
  function FileParts(events: seq<FormEvent>): (r: seq<string>)
    ensures |r| <= |events|
  {
    if events == [] then []
    else (if events[0].FilePart? then [events[0].filename] else []) + FileParts(events[1..])
  }

  /** The field handler applied to each field in turn. */
  function FoldFields(f: FormFields, events: seq<FormEvent>): FormFields
    decreases |events|
  {
    if events == [] then f
    else FoldFields(if events[0].Field? then SetField(f, events[0].name, events[0].value) else f, events[1..])
  }

  /** The file handler applied to each accepted part in turn. */
  function Uploads(fs: Fs, pathname: string, filenames: seq<string>, stream: nat): (r: seq<Call>)
    ensures |r| <= |filenames|
  {
    if filenames == [] then []
    else Upload(fs, pathname, filenames[0], stream) + Uploads(fs, pathname, filenames[1..], stream)
  }

  /** The parts busboy hands to the file handler: the first ones, up to the limit. */
  function Accepted(events: seq<FormEvent>): (r: seq<string>)
    ensures |r| <= FileCountLimit
  {
    var parts := FileParts(Reported(events));
    if |parts| <= FileCountLimit then parts else parts[..FileCountLimit]
  }

  datatype Parsed = Parsed(calls: seq<Call>, fields: FormFields, failed: bool)

  /**
   * What reading the form leaves behind: the streams of the accepted file
   * parts, the fields, and whether the form failed.
   */
  function ReadForm(fs: Fs, pathname: string, events: seq<FormEvent>, stream: nat): (r: Parsed)
    ensures |r.calls| <= FileCountLimit
    ensures r.failed <==> ParseError in events
  {
    var seen := Reported(events);
    assert ParseError in events <==> |seen| < |events| by {
      if |seen| == |events| {
        assert seen == events;
      }
    }
    Parsed(Uploads(fs, pathname, Accepted(events), stream), FoldFields(NoFields, seen), |seen| < |events|)
  }

  /**
   * The `close` handler: the URL of the fields is downloaded, then their
   * directory created, and the form answered `OK`; a throw is answered
   * with its message.
   */
  function OnClose(fs: Fs, p: string, fields: FormFields, parse: string -> Option<string>, stream: nat): (r: Handled)
    ensures var d := DownloadFile(fs, p, fields.url, fields.name, parse, stream);
      var c := CreateDirectory(fs, p, fields.dir);
      && (r.reply == Replied(200, "OK") <==> d.thrown.None? && c.thrown.None?)
      && (d.thrown.Some? ==> r == Handled(FailedWith(d.thrown.value), d.calls))
      && (d.thrown.None? ==> r.calls == d.calls + c.calls)
      && (d.thrown.None? && c.thrown.Some? ==> r.reply == FailedWith(c.thrown.value))
  {
    var d := DownloadFile(fs, p, fields.url, fields.name, parse, stream);
    if d.thrown.Some? then Handled(FailedWith(d.thrown.value), d.calls)
    else
      var c := CreateDirectory(fs, p, fields.dir);
      if c.thrown.Some? then Handled(FailedWith(c.thrown.value), d.calls + c.calls)
      else Handled(Replied(200, "OK"), d.calls + c.calls)
  }

  /**
   * Busboy reading the form. A failed form is answered `FAIL`; busboy
   * still closes afterwards, so the `close` handler runs on the fields
   * read before the error, and its calls are made, but its answer comes
   * too late to be sent. A form read to the end is answered by its
   * `close` handler.
   */
  function ReceiveForm(fs: Fs, p: string, events: seq<FormEvent>, parse: string -> Option<string>, stream: nat): (r: Handled)
    ensures ParseError in events ==> r.reply == Replied(400, "FAIL")
    ensures var fields := ReadForm(fs, p, events, stream).fields;
      && r.calls == ReadForm(fs, p, events, stream).calls + OnClose(fs, p, fields, parse, stream).calls
      && (r.reply == Replied(200, "OK") <==>
            && ParseError !in events
            && DownloadFile(fs, p, fields.url, fields.name, parse, stream).thrown.None?
            && CreateDirectory(fs, p, fields.dir).thrown.None?)
      && (ParseError !in events && DownloadFile(fs, p, fields.url, fields.name, parse, stream).thrown.Some? ==>
            r.reply == FailedWith(DownloadFile(fs, p, fields.url, fields.name, parse, stream).thrown.value))
  {
    var form := ReadForm(fs, p, events, stream);
    var closed := OnClose(fs, p, form.fields, parse, stream);
    Handled(if form.failed then Replied(400, "FAIL") else closed.reply, form.calls + closed.calls)
  }

  /**
   * What `busboy({ headers })` makes of the request: it throws on headers
   * it cannot read a form from (a multipart type without a boundary, or a
   * type it does not parse that the route's pattern still matched), or it
   * reads the body and reports events.
   */
  datatype Busboy = Refuses | Reads(events: seq<FormEvent>)

  /**
   * `onFormData`: the request's path is created when missing and must be
   * a directory; only then is the form read. When busboy refuses the
   * headers, the throw reaches the handler's `catch`, which calls `next`.
   */
  function OnFormData(fs: Fs, req: Request, form: Busboy, invoke: Invoke, parse: string -> Option<string>, stream: nat): (r: Handled)
    ensures Exists(fs, req.pathname).Failed? ==> r == Handled(Next, [])
    ensures Exists(fs, req.pathname).Done? && !Truthy(Exists(fs, req.pathname).value) ==>
      r.calls != [] && r.calls[0] == MakeDir(req.pathname)
    ensures Exists(fs, req.pathname).Done? && Truthy(Exists(fs, req.pathname).value) ==>
      r.calls == [] || (form.Reads? && r.calls == ReceiveForm(fs, req.pathname, form.events, parse, stream).calls)
    ensures form.Refuses? ==>
      (r.reply == Next || r.reply == Replied(403, "NOT ALLOWED")) && (r.calls == [] || r.calls == [MakeDir(req.pathname)])
    ensures form.Reads? ==>
      var received := ReceiveForm(fs, req.pathname, form.events, parse, stream).calls;
      r.calls == [] || r.calls == [MakeDir(req.pathname)] || r.calls == received || r.calls == [MakeDir(req.pathname)] + received
  {
    var p := req.pathname;
    match Exists(fs, p)
    case Failed => Handled(Next, [])
    case Done(found) =>
      var made := if Truthy(found) then [] else [MakeDir(p)];
      if !Truthy(found) && Mkdir(fs, p, Recursive).Failed? then Handled(Next, made)
      else
        match Stat(fs, p)
        case Failed => Handled(Next, made)
        case Done(stat) =>
          match Flag(stat, "isDirectory", invoke)
          case None => Handled(Next, made)
          case Some(isDirectory) =>
            if !Truthy(isDirectory) then Handled(Replied(403, "NOT ALLOWED"), made)
            else
              match form
              case Refuses => Handled(Next, made)
              case Reads(events) =>
                var received := ReceiveForm(fs, p, events, parse, stream);
                Handled(received.reply, made + received.calls)
  }

  /** `onJSON`: the body's `file_url`, `file_name` and `dir_name`. */
  function OnJson(fs: Fs, req: Request, parse: string -> Option<string>, stream: nat): Handled {
    if !Truthy(req.body) then Handled(Next, [])
    else
      var url, name, dir := Get(req.body, "file_url"), Get(req.body, "file_name"), Get(req.body, "dir_name");
      var d := DownloadFile(fs, req.pathname, url, name, parse, stream);
      if d.thrown.Some? then Handled(Next, d.calls)
      else
        var c := CreateDirectory(fs, req.pathname, dir);
        if c.thrown.Some? then Handled(Next, d.calls + c.calls)
        else if (Truthy(dir) && !UpVal(dir)) || Truthy(url) then Handled(Replied(200, "OK"), d.calls + c.calls)
        else Handled(Next, d.calls + c.calls)
  }

  /** A DELETE: only an existing path is deleted, and then answered `OK`. */
  function OnDelete(fs: Fs, p: string): (r: Handled)
    ensures r.calls == [] || r.calls == [Delete(p)]
  {
    match Exists(fs, p)
    case Failed => Handled(Next, [])
    case Done(found) =>
      if !Truthy(found) then Handled(Next, [])
      else if Del(fs, p).Failed? then Handled(Next, [Delete(p)])
      else Handled(Replied(200, "OK"), [Delete(p)])
  }

  /**
   * The handler, with `fs` what `getFS()` returned, `form` what busboy
   * makes of a multipart request, and `parse` the URL parser.
   */
  function OnRequest(fs: Option<Fs>, req: Request, form: Busboy, invoke: Invoke,
                     parse: string -> Option<string>, stream: nat): Handled
  {
    if IsUp(req.pathname) then Handled(Next, [])
    else if fs.None? || !Connected(fs.value) then Handled(Next, [])
    else if req.verb == "DELETE" then OnDelete(fs.value, req.pathname)
    else if req.verb == "POST" then
      if IsFormData(ContentType(req)) then OnFormData(fs.value, req, form, invoke, parse, stream)
      else if IsJsonOrUrlEncoded(ContentType(req)) then OnJson(fs.value, req, parse, stream)
      else Handled(Next, [])
    else Handled(Next, [])
  }

  // ---------------------------------------------------------------------
  // Properties: confinement

  /**
   * A call the handler makes stays inside the sandbox: its path is not
   * up, and a stream is opened on the adapter's root followed by the
   * path's segments.
   */
  predicate Confined(fs: Fs, c: Call) {
    && !IsUp(c.path)
    && (c.Write? ==> OpenedPath(c.target).Str? && Segments(OpenedPath(c.target).s) == Segments(Root(fs)) + Segments(c.path))
  }

  predicate AllConfined(fs: Fs, calls: seq<Call>) {
    forall i | 0 <= i < |calls| :: Confined(fs, calls[i])
  }

  lemma ConfinedJoin(fs: Fs, a: seq<Call>, b: seq<Call>)
    requires AllConfined(fs, a) && AllConfined(fs, b)
    ensures AllConfined(fs, a + b)
  { }

  lemma DownloadConfined(fs: Fs, pathname: string, url: Val, name: Val, parse: string -> Option<string>, stream: nat)
    ensures AllConfined(fs, DownloadFile(fs, pathname, url, name, parse, stream).calls)
  {
    var r := DownloadFile(fs, pathname, url, name, parse, stream);
    if r.calls != [] {
      var c := r.calls[0];
      OpenedUnderRoot(fs, true, c.path, Undefined, stream);
    }
  }

  lemma UploadConfined(fs: Fs, pathname: string, filename: string, stream: nat)
    ensures AllConfined(fs, Upload(fs, pathname, filename, stream))
  {
    var r := Upload(fs, pathname, filename, stream);
    if r != [] {
      OpenedUnderRoot(fs, true, r[0].path, Undefined, stream);
    }
  }

  lemma {:induction false} UploadsConfined(fs: Fs, pathname: string, filenames: seq<string>, stream: nat)
    ensures AllConfined(fs, Uploads(fs, pathname, filenames, stream))
  {
    if filenames != [] {
      UploadConfined(fs, pathname, filenames[0], stream);
      UploadsConfined(fs, pathname, filenames[1..], stream);
      ConfinedJoin(fs, Upload(fs, pathname, filenames[0], stream), Uploads(fs, pathname, filenames[1..], stream));
    }
  }

  /**
   * Below an accepted request path, a directory name that is not up is
   * created at the request path followed by the name's segments.
   */
  lemma DirectoryBelow(fs: Fs, pathname: string, name: Val)
    requires !IsUp(pathname)
    ensures AllConfined(fs, CreateDirectory(fs, pathname, name).calls)
    ensures CreateDirectory(fs, pathname, name).calls != [] ==>
      Segments(CreateDirectory(fs, pathname, name).calls[0].path) == Segments(pathname) + Segments(name.s)
  {
    if Truthy(name) && !UpVal(name) && name.Str? {
      ResolvedIsAccepted(pathname, name.s);
    }
  }

  lemma ReceiveConfined(fs: Fs, p: string, events: seq<FormEvent>, parse: string -> Option<string>, stream: nat)
    requires !IsUp(p)
    ensures AllConfined(fs, ReceiveForm(fs, p, events, parse, stream).calls)
  {
    var form := ReadForm(fs, p, events, stream);
    UploadsConfined(fs, p, Accepted(events), stream);
    DownloadConfined(fs, p, form.fields.url, form.fields.name, parse, stream);
    DirectoryBelow(fs, p, form.fields.dir);
    var d := DownloadFile(fs, p, form.fields.url, form.fields.name, parse, stream);
    var c := CreateDirectory(fs, p, form.fields.dir);
    ConfinedJoin(fs, d.calls, c.calls);
    ConfinedJoin(fs, form.calls, d.calls);
    ConfinedJoin(fs, form.calls, d.calls + c.calls);
  }

  /**
   * A form on a directory target, created first when it was missing, is
   * read by busboy and answered as the form is: the handler's calls are
   * the `mkdir`, if any, followed by the form's own.
   */
  lemma FormRead(fs: Fs, req: Request, events: seq<FormEvent>, invoke: Invoke,
                 parse: string -> Option<string>, stream: nat, found: Val, stat: Val)
    requires Exists(fs, req.pathname) == Done(found)
    requires !Truthy(found) ==> Mkdir(fs, req.pathname, Recursive).Done?
    requires Stat(fs, req.pathname) == Done(stat)
    requires Flag(stat, "isDirectory", invoke).Some? && Truthy(Flag(stat, "isDirectory", invoke).value)
    ensures var received := ReceiveForm(fs, req.pathname, events, parse, stream);
      OnFormData(fs, req, Reads(events), invoke, parse, stream) ==
        Handled(received.reply, (if Truthy(found) then [] else [MakeDir(req.pathname)]) + received.calls)
  {
  }

  lemma FormConfined(fs: Fs, req: Request, form: Busboy, invoke: Invoke, parse: string -> Option<string>, stream: nat)
    requires !IsUp(req.pathname)
    ensures AllConfined(fs, OnFormData(fs, req, form, invoke, parse, stream).calls)
  {
    assert AllConfined(fs, [MakeDir(req.pathname)]);
    if form.Reads? {
      var received := ReceiveForm(fs, req.pathname, form.events, parse, stream).calls;
      ReceiveConfined(fs, req.pathname, form.events, parse, stream);
      ConfinedJoin(fs, [MakeDir(req.pathname)], received);
    }
  }

  lemma JsonConfined(fs: Fs, req: Request, parse: string -> Option<string>, stream: nat)
    requires !IsUp(req.pathname)
    ensures AllConfined(fs, OnJson(fs, req, parse, stream).calls)
  {
    var url, name, dir := Get(req.body, "file_url"), Get(req.body, "file_name"), Get(req.body, "dir_name");
    DownloadConfined(fs, req.pathname, url, name, parse, stream);
    DirectoryBelow(fs, req.pathname, dir);
    ConfinedJoin(fs, DownloadFile(fs, req.pathname, url, name, parse, stream).calls, CreateDirectory(fs, req.pathname, dir).calls);
  }

  /**
   * Whatever the request, every call the handler makes is confined to the
   * adapter's root, and without an adapter it makes none.
   */
  lemma HandlerConfined(fs: Option<Fs>, req: Request, form: Busboy, invoke: Invoke,
                        parse: string -> Option<string>, stream: nat)
    ensures var h := OnRequest(fs, req, form, invoke, parse, stream);
      && (h.calls != [] ==> fs.Some? && !IsUp(req.pathname))
      && (fs.Some? ==> AllConfined(fs.value, h.calls))
  {
    var h := OnRequest(fs, req, form, invoke, parse, stream);
    if fs.Some? && !IsUp(req.pathname) && Connected(fs.value) {
      var f := fs.value;
      if req.verb == "DELETE" {
        assert h == OnDelete(f, req.pathname);
        assert AllConfined(f, [Delete(req.pathname)]);
      } else if req.verb == "POST" {
        var ct := ContentType(req);
        if IsFormData(ct) {
          assert h == OnFormData(f, req, form, invoke, parse, stream);
          FormConfined(f, req, form, invoke, parse, stream);
        } else if IsJsonOrUrlEncoded(ct) {
          assert h == OnJson(f, req, parse, stream);
          JsonConfined(f, req, parse, stream);
        } else {
          assert h.calls == [];
        }
      } else {
        assert h.calls == [];
      }
    } else {
      assert h.calls == [];
    }
  }

  // ---------------------------------------------------------------------
  // Properties: deletion

  /**
   * A DELETE deletes only a path the adapter reports as existing, and is
   * answered `OK` exactly when the deletion then succeeds.
   */
  lemma DeleteAnswers(fs: Fs, p: string)
    ensures var h := OnDelete(fs, p);
      var present := Exists(fs, p).Done? && Truthy(Exists(fs, p).value);
      && (h.calls == [Delete(p)] <==> present)
      && (h.reply == Replied(200, "OK") <==> present && Del(fs, p).Done?)
      && (h.reply != Replied(200, "OK") ==> h.reply == Next)
  { }

  /** Through a local adapter, a path storage does not hold is never deleted. */
  lemma LocalDeleteNeedsEntry(fs: Fs, p: string)
    requires fs.LocalFs? && !IsUp(p)
    requires Disk.LookupPath(fs.disk, Resolve(fs.local.root, p)).None?
    ensures OnDelete(fs, p) == Handled(Next, [])
  { }

  // ---------------------------------------------------------------------
  // Properties: content types

  function LowerAll(s: string): (r: string)
    ensures |r| == |s| && forall k | 0 <= k < |s| :: r[k] == Lower(s[k])
  {
    seq(|s|, k requires 0 <= k < |s| => Lower(s[k]))
  }

  /** The tests ignore letter case: a content type reads the same in lower case. */
  lemma CaseBlind(hay: string, needle: string)
    ensures ContainsIgnoringCase(LowerAll(hay), needle) <==> ContainsIgnoringCase(hay, needle)
  {
    var low := LowerAll(hay);
    assert forall j | 0 <= j < |hay| :: Lower(low[j]) == Lower(hay[j]);
    if ContainsIgnoringCase(hay, needle) {
      var i :| 0 <= i <= |hay| && MatchesIgnoringCase(hay, needle, i);
      assert MatchesIgnoringCase(low, needle, i);
    }
    if ContainsIgnoringCase(low, needle) {
      var i :| 0 <= i <= |low| && MatchesIgnoringCase(low, needle, i);
      assert MatchesIgnoringCase(hay, needle, i);
    }
  }

  /** The tests look for the type anywhere: parameters around it do not matter. */
  lemma FoundWithin(before: string, needle: string, after: string)
    requires forall k | 0 <= k < |needle| :: Lower(needle[k]) == needle[k]
    ensures ContainsIgnoringCase(before + needle + after, needle)
  {
    var hay := before + needle + after;
    forall k | 0 <= k < |needle|
      ensures Lower(hay[|before| + k]) == needle[k]
    {
      assert hay[|before| + k] == needle[k];
    }
    assert MatchesIgnoringCase(hay, needle, |before|);
  }

  /**
   * A multipart form is read as a form whatever its boundary, and a JSON
   * body is not mistaken for one.
   */
  lemma ContentTypesTold(boundary: string)
    ensures IsFormData("multipart/form-data; boundary=" + boundary)
    ensures IsJsonOrUrlEncoded("application/json") && !IsFormData("application/json")
  {
    assert IsFormData("multipart/form-data; boundary=" + boundary) by {
      FoundWithin("", "multipart/form-data", "; boundary=" + boundary);
      assert "" + "multipart/form-data" + ("; boundary=" + boundary) == "multipart/form-data; boundary=" + boundary;
    }
    assert IsJsonOrUrlEncoded("application/json") by {
      FoundWithin("", "application/json", "");
      assert "" + "application/json" + "" == "application/json";
    }
    assert |"application/json"| < |"multipart/form-data"|;
  }

  // ---------------------------------------------------------------------
  // Properties: JSON bodies

  /**
   * A JSON body is answered `OK` exactly when it asks for something (a
   * URL, or a directory name that is not up) and neither the download
   * nor the directory throws; anything else goes on to the next handler.
   * Answered `OK` without a URL, the directory was created below the
   * request's path.
   */
  lemma JsonAnswers(fs: Fs, req: Request, parse: string -> Option<string>, stream: nat)
    ensures var h := OnJson(fs, req, parse, stream);
      var url, name, dir := Get(req.body, "file_url"), Get(req.body, "file_name"), Get(req.body, "dir_name");
      && (h.reply == Next || h.reply == Replied(200, "OK"))
      && (h.reply == Replied(200, "OK") <==>
            && Truthy(req.body)
            && ((Truthy(dir) && !UpVal(dir)) || Truthy(url))
            && DownloadFile(fs, req.pathname, url, name, parse, stream).thrown.None?
            && CreateDirectory(fs, req.pathname, dir).thrown.None?)
      && (h.reply == Replied(200, "OK") && !Truthy(url) ==>
            dir.Str? && h.calls == [MakeDir(Resolve(req.pathname, dir.s))])
  { }

  /**
   * A URL whose path is `/`, with no name, is answered `OK` although no
   * file can be named and nothing is written.
   */
  lemma JsonOkWithoutFile(fs: Fs, req: Request, parse: string -> Option<string>, stream: nat)
    requires Truthy(req.body) && Truthy(Get(req.body, "file_url"))
    requires parse(StringOf(Get(req.body, "file_url"))) == Some("/")
    requires !Truthy(Get(req.body, "file_name")) && !Truthy(Get(req.body, "dir_name"))
    ensures OnJson(fs, req, parse, stream) == Handled(Replied(200, "OK"), [])
  { }

  /**
   * A directory name that is an array holding an up path, such as
   * `['..']`, is up as text: no directory is made, nothing is thrown,
   * and without a URL the body goes on to the next handler.
   */
  lemma UpArrayDirectory(fs: Fs, req: Request, parse: string -> Option<string>, stream: nat, s: string)
    requires IsUp(s) && Truthy(req.body) && !Truthy(Get(req.body, "file_url"))
    requires Get(req.body, "dir_name") == Arr([Some(Str(s))])
    ensures CreateDirectory(fs, req.pathname, Arr([Some(Str(s))])) == Run([], None)
    ensures OnJson(fs, req, parse, stream) == Handled(Next, [])
  {
    SingletonText(Str(s));
  }

  /** An array directory name whose text is not up reaches `normalize`, which throws. */
  lemma ArrayDirectoryThrows(fs: Fs, pathname: string, s: string)
    requires !IsUp(s)
    ensures CreateDirectory(fs, pathname, Arr([Some(Str(s))])) == Run([], Some(NotAPath))
  {
    SingletonText(Str(s));
  }

  /** `new URL` and the download read a one-element array URL as the string it holds. */
  lemma ArrayUrlReadAsText(fs: Fs, pathname: string, u: string, name: Val, parse: string -> Option<string>, stream: nat)
    requires u != ""
    ensures DownloadFile(fs, pathname, Arr([Some(Str(u))]), name, parse, stream) == DownloadFile(fs, pathname, Str(u), name, parse, stream)
  {
    SingletonText(Str(u));
  }

  // ---------------------------------------------------------------------
  // Properties: forms

  /** A form posted to something that is not a directory is refused, and nothing is written. */
  lemma FormNeedsDirectory(fs: Fs, req: Request, form: Busboy, invoke: Invoke,
                           parse: string -> Option<string>, stream: nat, stat: Val)
    requires Exists(fs, req.pathname) == Done(Bool(true)) && Stat(fs, req.pathname) == Done(stat)
    requires Flag(stat, "isDirectory", invoke).Some? && !Truthy(Flag(stat, "isDirectory", invoke).value)
    ensures OnFormData(fs, req, form, invoke, parse, stream) == Handled(Replied(403, "NOT ALLOWED"), [])
  {
  }

  /**
   * A form busboy refuses, on a directory that exists, is passed on to
   * the next handler and nothing is written.
   */
  lemma FormRefused(fs: Fs, req: Request, invoke: Invoke, parse: string -> Option<string>, stream: nat, stat: Val)
    requires Exists(fs, req.pathname) == Done(Bool(true)) && Stat(fs, req.pathname) == Done(stat)
    requires Flag(stat, "isDirectory", invoke).Some? && Truthy(Flag(stat, "isDirectory", invoke).value)
    ensures OnFormData(fs, req, Refuses, invoke, parse, stream) == Handled(Next, [])
  {
  }

  /** Through a local adapter, a form posted to a file that storage holds is refused. */
  lemma LocalFormOnFile(fs: Fs, req: Request, form: Busboy, invoke: Invoke,
                        parse: string -> Option<string>, stream: nat)
    requires fs.LocalFs? && !IsUp(req.pathname) && ImplementsStats(invoke)
    requires Disk.LookupPath(fs.disk, Resolve(fs.local.root, req.pathname)).Some?
    requires Disk.LookupPath(fs.disk, Resolve(fs.local.root, req.pathname)).value.File?
    ensures OnFormData(fs, req, form, invoke, parse, stream) == Handled(Replied(403, "NOT ALLOWED"), [])
  {
    var st := Disk.StatOf(Disk.LookupPath(fs.disk, Resolve(fs.local.root, req.pathname)).value);
    FlagsAgree(st, invoke);
    FormNeedsDirectory(fs, req, form, invoke, parse, stream, StatsVal(st));
  }

  /** The last value a field of that name was given, or `d` when there is none. */
  function LastField(events: seq<FormEvent>, name: string, d: Val): Val {
    if events == [] then d
    else
      var e := events[|events| - 1];
      if e.Field? && e.name == name then Str(e.value) else LastField(events[..|events| - 1], name, d)
  }

  lemma {:induction false} FoldFieldsSnoc(f: FormFields, events: seq<FormEvent>, e: FormEvent)
    ensures FoldFields(f, events + [e]) ==
      (var g := FoldFields(f, events); if e.Field? then SetField(g, e.name, e.value) else g)
    decreases |events|
  {
    if events != [] {
      var f' := if events[0].Field? then SetField(f, events[0].name, events[0].value) else f;
      assert (events + [e])[1..] == events[1..] + [e];
      FoldFieldsSnoc(f', events[1..], e);
    } else {
      assert ([] + [e])[1..] == [];
    }
  }

  /** Each field keeps the value it was last given; the field handler's later assignments win. */
  lemma {:induction false} FieldsLastWin(events: seq<FormEvent>)
    ensures FoldFields(NoFields, events) ==
      FormFields(LastField(events, "file_url", Undefined), LastField(events, "file_name", Undefined),
                 LastField(events, "dir_name", Undefined))
    decreases |events|
  {
    if events != [] {
      var init := events[..|events| - 1];
      var e := events[|events| - 1];
      assert events == init + [e];
      FieldsLastWin(init);
      FoldFieldsSnoc(NoFields, init, e);
    }
  }
}

=== FILE: http_static.dfy ===
/**
 * The static file handler of src/http-static.js: it serves, through a
 * remote adapter over the socket `getSocket()` returns, the file a GET or
 * HEAD request's URL names, honouring a Range header, and hands every
 * other request (and every failure) on to `next()`.
 */
module HttpStatic {
  import opened Wrappers
  import opened PosixPath
  import opened Sandbox
  import opened Js
  import opened Http
  import opened Decimal
  import opened Adapter
  import Disk
  import opened NodeValues
  import FsLocal
  import FsRemote
  import Events
  import IoStatic

  /** A configured handler: its normalised root. */
  datatype Static = Static(root: string)

  /** `httpStatic(root, getSocket)`: the factory checks, with this handler's wording. */
  function Create(root: string, getSocket: Val): (r: Result<Static, string>)
    ensures root == "" ==> r == Failure("root path must not be empty")
    ensures root != "" && !getSocket.Fn? ==> r == Failure("getSocket must not be empty")
    ensures root != "" && getSocket.Fn? ==> (r.Failure? <==> IsUp(Normalize(root)))
    ensures r.Failure? && root != "" && getSocket.Fn? ==> r.error == "invalid root path"
    ensures r.Success? ==> !IsUp(r.value.root) && Segments(r.value.root) == Segments(root)
  {
    var normalized :- CheckRoot(root, Some(getSocket), StaticMessages);
    Success(Static(normalized))
  }

  // ---------------------------------------------------------------------
  // Response head

  /** What `mime` reports: the type for a URL and the charset for a type, `""` for none. */
  datatype Mime = Mime(typeOf: string -> string, charsetOf: string -> string)

  datatype ByteRange = ByteRange(start: int, end: int)

  /** What `range-parser` answers: -1 (unsatisfiable), -2 (malformed), or the ranges. */
  datatype RangeParse = Unsatisfiable | Malformed | Ranges(ranges: seq<ByteRange>)

  /** `parseRange(size, header)` */
  type RangeParser = (Val, string) -> RangeParse

  /** The status and the headers set, in order. */
  datatype Head = Head(status: int, headers: seq<(string, string)>)

  /** What `setHeaders` leaves behind: the head, and the stream options it returns. */
  datatype Plan = Plan(head: Head, opts: Val)

  /** The value last set for a header. */
  function HeaderOf(headers: seq<(string, string)>, name: string): Option<string>
  {
    if headers == [] then None
    else if headers[|headers| - 1].0 == name then Some(headers[|headers| - 1].1)
    else HeaderOf(headers[..|headers| - 1], name)
  }

  /** The `Content-Range` of a partial answer: `bytes start-end/size`. */
  function ContentRange(start: int, end: int, size: Val): string {
    "bytes " + IntText(start) + "-" + IntText(end) + "/" + StringOf(size)
  }

  /** `Content-Type`: the type, and the charset when there is one. */
  function ContentType(t: string, charset: string): string {
    t + (if charset != "" then "; charset=" + charset else "")
  }

  /**
   * `setHeaders(req, res, stat)`: `Accept-Ranges`, the content type when
   * known, then either the whole file (200, its size as length) or, when
   * the Range header parses to ranges, the first range (206, its length and
   * `Content-Range`), returning that range as the stream options. `None`
   * when it throws: reading the first range of an empty list, or
   * `setHeader` refusing the size (an undefined size for the whole file)
   * or the `Content-Range` text.
   */
  function SetHeaders(url: string, range: Val, size: Val, parse: RangeParser, mime: Mime): (r: Option<Plan>)
    requires range == Undefined || range.Str?
  {
    if !Truthy(range) then Whole(url, size, mime)
    else
      match parse(size, range.s)
      case Unsatisfiable => Whole(url, size, mime)
      case Malformed => Whole(url, size, mime)
      case Ranges(rs) =>
        if rs == [] then None
        else if !HeaderSafe(ContentRange(rs[0].start, rs[0].end, size)) then None
        else Some(PartialPlan(url, rs[0], size, mime))
  }

  /** The whole-file answer, unless `setHeader` refuses the size as `Content-Length`. */
  function Whole(url: string, size: Val, mime: Mime): (r: Option<Plan>)
    ensures r.Some? <==> HeaderText(size).Some?
    ensures r.Some? ==> r.value == WholePlan(url, size, mime)
  {
    if HeaderText(size).None? then None else Some(WholePlan(url, size, mime))
  }

  /** The headers every answer starts with: `Accept-Ranges`, then the content type when known. */
  function CommonHeaders(url: string, mime: Mime): (r: seq<(string, string)>)
    ensures 0 < |r| && r[0] == ("Accept-Ranges", "bytes")
    ensures forall i | 0 < i < |r| :: r[i].0 == "Content-Type"
  {
    var t := mime.typeOf(url);
    [("Accept-Ranges", "bytes")] + (if t != "" then [("Content-Type", ContentType(t, mime.charsetOf(t)))] else [])
  }

  /** The whole file: status 200, its size as length, no stream options. */
  function WholePlan(url: string, size: Val, mime: Mime): Plan {
    Plan(Head(200, CommonHeaders(url, mime) + [("Content-Length", StringOf(size))]), Record([]))
  }

  /** The first range: status 206, its length and `Content-Range`, the range as stream options. */
  function PartialPlan(url: string, first: ByteRange, size: Val, mime: Mime): Plan {
    Plan(Head(206, CommonHeaders(url, mime) + [ ("Content-Length", IntText(first.end - first.start + 1))
                                              , ("Content-Range", ContentRange(first.start, first.end, size)) ]),
         Record([Prop("start", Num(first.start)), Prop("end", Num(first.end))]))
  }

  // ---------------------------------------------------------------------
  // The handler

  datatype StaticReply =
    | Next
      /** The head alone, for HEAD. */
    | HeadOnly(head: Head)
      /** The head, and the remote read stream piped into the response, for GET. */
    | Streamed(head: Head, announcement: FsRemote.Announcement)

  /**
   * `onRequest(req, res, next)` with `socket` what `getSocket()` returned,
   * `peer` the socket's far end, `invoke` the calls of function values and
   * `stream` the duplex a read stream is piped through. An up URL, a missing
   * socket, a missing file, a non-file, another method, or any failure
   * hands the request on.
   */
  function OnRequest(h: Static, req: Request, socket: Option<FsRemote.Socket>, peer: Peer,
                     invoke: Invoke, parse: RangeParser, mime: Mime, stream: nat): (r: StaticReply)
  {
    if IsUp(req.url) then Next
    else if socket.None? then Next
    else
      var fs := RemoteFs(FsRemote.Remote(h.root, socket, FsRemote.DefaultTimeout), peer);
      match Exists(fs, req.url)
      case Failed => Next
      case Done(found) =>
        if !Truthy(found) then Next
        else
          match Stat(fs, req.url)
          case Failed => Next
          case Done(stat) => OnStat(fs, req, stat, invoke, parse, mime, stream)
  }

  /** The rest of `onRequest` once `fs.stat` has answered with `stat`. */
  function OnStat(fs: Fs, req: Request, stat: Val, invoke: Invoke, parse: RangeParser, mime: Mime, stream: nat): (r: StaticReply)
  {
    match Flag(stat, "isFile", invoke)
    case None => Next
    case Some(isFile) =>
      if !Truthy(isFile) then Next
      else if req.verb != "HEAD" && req.verb != "GET" then Next
      else
        match SetHeaders(req.url, Header(req, "range"), Get(stat, "size"), parse, mime)
        case None => Next
        case Some(plan) =>
          if req.verb == "HEAD" then HeadOnly(plan.head)
          else
            match OpenStream(fs, false, req.url, plan.opts, stream)
            case Some(RemoteStream(a)) => Streamed(plan.head, a)
            case _ => Next
  }

  // ---------------------------------------------------------------------
  // Reading a Content-Range back

  /** The text before and after the first `c`. */
  function SplitAt(s: string, c: char): (r: Option<(string, string)>)
    ensures r.Some? ==> c !in r.value.0 && s == r.value.0 + [c] + r.value.1
    ensures r.None? ==> c !in s
  {
    if s == [] then None
    else if s[0] == c then Some(([], s[1..]))
    else
      match SplitAt(s[1..], c)
      case None => None
      case Some(pair) => Some(([s[0]] + pair.0, pair.1))
  }

  /** A `Content-Range` value `bytes start-end/size` read as its three numbers. */
  function ParseContentRange(h: string): (r: Option<(nat, nat, nat)>)
  {
    if |h| < 6 || h[..6] != "bytes " then None
    else
      match SplitAt(h[6..], '-')
      case None => None
      case Some(first) =>
        match SplitAt(first.1, '/')
        case None => None
        case Some(second) =>
          if AllDigits(first.0) && AllDigits(second.0) && AllDigits(second.1)
          then Some((ParseNat(first.0), ParseNat(second.0), ParseNat(second.1)))
          else None
  }

  // ---------------------------------------------------------------------
  // Properties

  lemma {:induction false} SplitAtFirst(a: string, c: char, b: string)
    requires c !in a
    ensures SplitAt(a + [c] + b, c) == Some((a, b))
  {
    var s := a + [c] + b;
    if a == [] {
      assert s[1..] == b;
    } else {
      assert s[0] == a[0] && a[0] != c;
      assert s[1..] == a[1..] + [c] + b;
      SplitAtFirst(a[1..], c, b);
      assert [a[0]] + a[1..] == a;
    }
  }

  /**
   * A `Content-Range` built from non-negative numbers reads back as those
   * numbers.
   */
  lemma ContentRangeReadsBack(start: nat, end: nat, size: nat)
    ensures ParseContentRange(ContentRange(start, end, Num(size))) == Some((start, end, size))
  {
    var a, b, c := NatText(start), NatText(end), NatText(size);
    assert ContentRange(start, end, Num(size)) == "bytes " + a + "-" + b + "/" + c;
    DigitsParse(a, b, c);
    ParseNatText(start);
    ParseNatText(end);
    ParseNatText(size);
  }

  /** Three runs of digits in the `Content-Range` layout read back as their values. */
  lemma DigitsParse(a: string, b: string, c: string)
    requires AllDigits(a) && AllDigits(b) && AllDigits(c)
    ensures ParseContentRange("bytes " + a + "-" + b + "/" + c) == Some((ParseNat(a), ParseNat(b), ParseNat(c)))
  {
    var h := "bytes " + a + "-" + b + "/" + c;
    var tail := a + ['-'] + (b + ['/'] + c);
    assert |h| >= 6 && h[..6] == "bytes " && h[6..] == tail by {
      assert h == "bytes " + tail;
    }
    assert SplitAt(tail, '-') == Some((a, b + ['/'] + c)) by {
      assert '-' !in a by {
        assert !IsDigit('-');
      }
      SplitAtFirst(a, '-', b + ['/'] + c);
    }
    assert SplitAt(b + ['/'] + c, '/') == Some((b, c)) by {
      assert '/' !in b by {
        assert !IsDigit('/');
      }
      SplitAtFirst(b, '/', c);
    }
  }

  lemma {:induction false} HeaderOfLast(headers: seq<(string, string)>, name: string, value: string)
    ensures HeaderOf(headers + [(name, value)], name) == Some(value)
  { }

  /**
   * The head: `Accept-Ranges: bytes` always; without a usable range the
   * whole file with status 200; for ranges, status 206 with the first
   * range's length and a `Content-Range` that reads back as that range and
   * the file size, and the range as the stream options.
   */
  lemma RangeHead(url: string, range: Val, size: nat, parse: RangeParser, mime: Mime)
    requires range == Undefined || range.Str?
    ensures var r := SetHeaders(url, range, Num(size), parse, mime);
      && (r.None? <==> Truthy(range) && parse(Num(size), range.s) == Ranges([]))
      && (r.Some? ==> HeaderOf(r.value.head.headers, "Accept-Ranges") == Some("bytes"))
      && (r.Some? && (!Truthy(range) || !parse(Num(size), range.s).Ranges?) ==>
            && r.value.head.status == 200
            && HeaderOf(r.value.head.headers, "Content-Length") == Some(NatText(size))
            && HeaderOf(r.value.head.headers, "Content-Range") == None
            && Get(r.value.opts, "start") == Undefined && Get(r.value.opts, "end") == Undefined)
  {
    var r := SetHeaders(url, range, Num(size), parse, mime);
    SizeHeaderSafe(size);
    if !Truthy(range) || !parse(Num(size), range.s).Ranges? {
      assert r == Some(WholePlan(url, Num(size), mime));
      WholeHead(url, size, mime);
    } else if parse(Num(size), range.s).ranges != [] {
      var first := parse(Num(size), range.s).ranges[0];
      ContentRangeSafe(first.start, first.end, size);
      assert r == Some(PartialPlan(url, first, Num(size), mime));
      PartialAccepts(url, first, Num(size), mime);
    }
  }

  /** Digits are header-safe: a numeric size is always accepted as a header. */
  lemma SizeHeaderSafe(size: nat)
    ensures HeaderText(Num(size)) == Some(NatText(size))
  { }

  /** A `Content-Range` built from numbers is header-safe. */
  lemma ContentRangeSafe(start: int, end: int, size: nat)
    ensures HeaderSafe(ContentRange(start, end, Num(size)))
  { }

  /** The whole-file head: 200, `Accept-Ranges`, the size as length, no range. */
  lemma WholeHead(url: string, size: nat, mime: Mime)
    ensures var p := WholePlan(url, Num(size), mime);
      && p.head.status == 200
      && HeaderOf(p.head.headers, "Accept-Ranges") == Some("bytes")
      && HeaderOf(p.head.headers, "Content-Length") == Some(NatText(size))
      && HeaderOf(p.head.headers, "Content-Range") == None
      && Get(p.opts, "start") == Undefined && Get(p.opts, "end") == Undefined
  {
    var common := CommonHeaders(url, mime);
    var hs := WholePlan(url, Num(size), mime).head.headers;
    assert StringOf(Num(size)) == NatText(size);
    assert hs == common + [("Content-Length", NatText(size))];
    AcceptRangesKept(hs);
    HeaderOfLast(common, "Content-Length", NatText(size));
    NotSet(hs, "Content-Range");
  }

  /** The partial head keeps `Accept-Ranges` too. */
  lemma PartialAccepts(url: string, first: ByteRange, size: Val, mime: Mime)
    ensures HeaderOf(PartialPlan(url, first, size, mime).head.headers, "Accept-Ranges") == Some("bytes")
  {
    AcceptRangesKept(PartialPlan(url, first, size, mime).head.headers);
  }

  /**
   * `Content-Type` is set exactly when `mime` knows the URL's type, with
   * the type's charset appended when it has one.
   */
  lemma TypeHead(url: string, range: Val, size: Val, parse: RangeParser, mime: Mime)
    requires range == Undefined || range.Str?
    requires SetHeaders(url, range, size, parse, mime).Some?
    ensures var t := mime.typeOf(url);
      HeaderOf(SetHeaders(url, range, size, parse, mime).value.head.headers, "Content-Type")
        == if t != "" then Some(t + (if mime.charsetOf(t) != "" then "; charset=" + mime.charsetOf(t) else "")) else None
  {
    var hs := SetHeaders(url, range, size, parse, mime).value.head.headers;
    var t := mime.typeOf(url);
    if t != "" {
      assert hs[1] == ("Content-Type", ContentType(t, mime.charsetOf(t)));
      TypeSetOnce(hs);
    } else {
      NotSet(hs, "Content-Type");
    }
  }

  lemma TypeSetOnce(hs: seq<(string, string)>)
    requires |hs| > 1 && hs[1].0 == "Content-Type"
    requires forall i | 0 <= i < |hs| && i != 1 :: hs[i].0 != "Content-Type"
    ensures HeaderOf(hs, "Content-Type") == Some(hs[1].1)
  { }

  lemma NotSet(hs: seq<(string, string)>, name: string)
    requires forall i | 0 <= i < |hs| :: hs[i].0 != name
    ensures HeaderOf(hs, name) == None
  { }

  /** `Accept-Ranges` is set first and never again. */
  lemma AcceptRangesKept(hs: seq<(string, string)>)
    requires |hs| > 0 && hs[0] == ("Accept-Ranges", "bytes")
    requires forall i | 0 < i < |hs| :: hs[i].0 != "Accept-Ranges"
    ensures HeaderOf(hs, "Accept-Ranges") == Some("bytes")
  { }


  /**
   * For parsed ranges, the head announces the first range: status 206, a
   * `Content-Length` that reads back as the number of bytes from its start
   * to its end inclusive, and a `Content-Range` that reads back as the range
   * and the file size; the stream options are that range.
   */
  lemma PartialHead(url: string, range: string, size: nat, parse: RangeParser, mime: Mime)
    requires range != "" && parse(Num(size), range).Ranges? && |parse(Num(size), range).ranges| > 0
    requires var first := parse(Num(size), range).ranges[0]; 0 <= first.start <= first.end
    ensures var first := parse(Num(size), range).ranges[0];
      var r := SetHeaders(url, Str(range), Num(size), parse, mime);
      && r.Some? && r.value.head.status == 206
      && HeaderOf(r.value.head.headers, "Accept-Ranges") == Some("bytes")
      && HeaderOf(r.value.head.headers, "Content-Length").Some?
      && AllDigits(HeaderOf(r.value.head.headers, "Content-Length").value)
      && ParseNat(HeaderOf(r.value.head.headers, "Content-Length").value) == first.end - first.start + 1
      && HeaderOf(r.value.head.headers, "Content-Range").Some?
      && ParseContentRange(HeaderOf(r.value.head.headers, "Content-Range").value) == Some((first.start, first.end, size))
      && Get(r.value.opts, "start") == Num(first.start) && Get(r.value.opts, "end") == Num(first.end)
  {
    var first := parse(Num(size), range).ranges[0];
    ContentRangeSafe(first.start, first.end, size);
    assert SetHeaders(url, Str(range), Num(size), parse, mime) == Some(PartialPlan(url, first, Num(size), mime));
    PartialAccepts(url, first, Num(size), mime);
    PartialRange(url, first, size, mime);
  }

  /** The partial head's length and `Content-Range` read back as the range, and the options are the range. */
  lemma PartialRange(url: string, first: ByteRange, size: nat, mime: Mime)
    requires 0 <= first.start <= first.end
    ensures var p := PartialPlan(url, first, Num(size), mime);
      && HeaderOf(p.head.headers, "Content-Length").Some?
      && AllDigits(HeaderOf(p.head.headers, "Content-Length").value)
      && ParseNat(HeaderOf(p.head.headers, "Content-Length").value) == first.end - first.start + 1
      && HeaderOf(p.head.headers, "Content-Range") == Some(ContentRange(first.start, first.end, Num(size)))
      && ParseContentRange(ContentRange(first.start, first.end, Num(size))) == Some((first.start, first.end, size))
      && Get(p.opts, "start") == Num(first.start) && Get(p.opts, "end") == Num(first.end)
  {
    var hs := PartialPlan(url, first, Num(size), mime).head.headers;
    var n := first.end - first.start + 1;
    PartialHeaders(url, first, Num(size), mime);
    assert HeaderOf(hs, "Content-Length") == Some(NatText(n));
    ParseNatText(n);
    ContentRangeReadsBack(first.start, first.end, size);
    PartialOptions(url, first, Num(size), mime);
  }

  /** The partial head ends with the range's length and then its `Content-Range`. */
  lemma PartialHeaders(url: string, first: ByteRange, size: Val, mime: Mime)
    ensures var hs := PartialPlan(url, first, size, mime).head.headers;
      && HeaderOf(hs, "Content-Length") == Some(IntText(first.end - first.start + 1))
      && HeaderOf(hs, "Content-Range") == Some(ContentRange(first.start, first.end, size))
  { }

  /** The partial answer's stream options are the range. */
  lemma PartialOptions(url: string, first: ByteRange, size: Val, mime: Mime)
    ensures var opts := PartialPlan(url, first, size, mime).opts;
      Get(opts, "start") == Num(first.start) && Get(opts, "end") == Num(first.end)
  {
    var props := [Prop("start", Num(first.start)), Prop("end", Num(first.end))];
    LookupAt(props, 0);
    LookupAt(props, 1);
  }

  /**
   * Only a HEAD or GET of an accepted URL, with a socket, for which the
   * peer reports that the path exists and that its stat is a file, is
   * answered. HEAD gets the head alone; GET streams, as READ_FILE, the file
   * the URL names under the handler's root. Either way the head is the one
   * `setHeaders` planned from the Range header and the reported size, and
   * the stream reads exactly the planned options: a range exactly when the
   * head is a partial one.
   */
  lemma StaticAnswers(h: Static, req: Request, socket: Option<FsRemote.Socket>, peer: Peer,
                      invoke: Invoke, parse: RangeParser, mime: Mime, stream: nat)
    ensures var r := OnRequest(h, req, socket, peer, invoke, parse, mime, stream);
      var fs := RemoteFs(FsRemote.Remote(h.root, socket, FsRemote.DefaultTimeout), peer);
      && (r != Next ==>
            && !IsUp(req.url) && socket.Some?
            && Exists(fs, req.url).Done? && Truthy(Exists(fs, req.url).value)
            && Stat(fs, req.url).Done?
            && Flag(Stat(fs, req.url).value, "isFile", invoke).Some?
            && Truthy(Flag(Stat(fs, req.url).value, "isFile", invoke).value)
            && var plan := SetHeaders(req.url, Header(req, "range"), Get(Stat(fs, req.url).value, "size"), parse, mime);
               plan.Some? && r.head == plan.value.head
               && (r.Streamed? ==> Get(r.announcement.target, "opts") == plan.value.opts))
      && (r.HeadOnly? ==> req.verb == "HEAD")
      && (r.Streamed? ==>
            && req.verb == "GET"
            && r.announcement.event == Events.Name(Events.ReadFile)
            && Get(r.announcement.target, "path") == Str(Resolve(h.root, req.url))
            && (r.head.status == 206 <==> Get(r.announcement.target, "opts") != Record([])))
  {
    var r := OnRequest(h, req, socket, peer, invoke, parse, mime, stream);
    if r != Next {
      var remote := FsRemote.Remote(h.root, socket, FsRemote.DefaultTimeout);
      var fs := RemoteFs(remote, peer);
      var stat := Stat(fs, req.url).value;
      assert r == OnStat(fs, req, stat, invoke, parse, mime, stream);
      StatAnswers(remote, peer, req, stat, invoke, parse, mime, stream);
    }
  }

  /**
   * What `onRequest` does after `stat`, through a remote adapter rooted at
   * `remote.root`: a stat that is a file, with a plan `setHeaders` does not
   * throw on, is answered for HEAD and GET with the planned head, and GET
   * streams with the planned options; anything else is handed on.
   */
  lemma StatAnswers(remote: FsRemote.Remote, peer: Peer, req: Request, stat: Val,
                    invoke: Invoke, parse: RangeParser, mime: Mime, stream: nat)
    ensures var r := OnStat(RemoteFs(remote, peer), req, stat, invoke, parse, mime, stream);
      var plan := SetHeaders(req.url, Header(req, "range"), Get(stat, "size"), parse, mime);
      var answerable := Flag(stat, "isFile", invoke).Some? && Truthy(Flag(stat, "isFile", invoke).value) && plan.Some?;
      && (r != Next ==> answerable && r.head == plan.value.head)
      && (answerable && req.verb == "HEAD" ==> r == HeadOnly(plan.value.head))
      && (answerable && req.verb == "GET" && remote.socket.Some? && !IsUp(req.url) ==> r.Streamed?)
      && (r.HeadOnly? ==> req.verb == "HEAD")
      && (r.Streamed? ==>
            && req.verb == "GET"
            && r.announcement.event == Events.Name(Events.ReadFile)
            && Get(r.announcement.target, "path") == Str(Resolve(remote.root, req.url))
            && Get(r.announcement.target, "opts") == plan.value.opts
            && (r.head.status == 206 <==> Get(r.announcement.target, "opts") != Record([])))
  {
    var r := OnStat(RemoteFs(remote, peer), req, stat, invoke, parse, mime, stream);
    var plan := SetHeaders(req.url, Header(req, "range"), Get(stat, "size"), parse, mime);
    if r.Streamed? {
      assert FsRemote.OpenStream(remote, false, req.url, plan.value.opts, stream).Success?;
    }
    if plan.Some? {
      PlanStatusMatchesOptions(req.url, Header(req, "range"), Get(stat, "size"), parse, mime);
    }
  }

  /** A planned head is partial exactly when the plan streams a range. */
  lemma PlanStatusMatchesOptions(url: string, range: Val, size: Val, parse: RangeParser, mime: Mime)
    requires range == Undefined || range.Str?
    requires SetHeaders(url, range, size, parse, mime).Some?
    ensures var plan := SetHeaders(url, range, size, parse, mime).value;
      plan.head.status == 206 <==> plan.opts != Record([])
  { }

  /**
   * Without a Range header, a stat whose size is undefined makes
   * `setHeader` throw on `Content-Length`: the request is handed on.
   */
  lemma UndefinedSizeHandedOn(fs: Fs, req: Request, stat: Val, invoke: Invoke, parse: RangeParser, mime: Mime, stream: nat)
    requires "range" !in req.headers && Get(stat, "size") == Undefined
    ensures OnStat(fs, req, stat, invoke, parse, mime, stream) == Next
  { }

  /** A HEAD is answered with exactly the head the same GET streams under. */
  lemma HeadIsGetWithoutBody(h: Static, req: Request, socket: Option<FsRemote.Socket>, peer: Peer,
                             invoke: Invoke, parse: RangeParser, mime: Mime, stream: nat)
    requires req.verb == "GET"
    ensures var get := OnRequest(h, req, socket, peer, invoke, parse, mime, stream);
      var head := OnRequest(h, req.(verb := "HEAD"), socket, peer, invoke, parse, mime, stream);
      && (get.Streamed? <==> head.HeadOnly?)
      && (get.Streamed? ==> get.head == head.head)
  {
    var get := OnRequest(h, req, socket, peer, invoke, parse, mime, stream);
    var head := OnRequest(h, req.(verb := "HEAD"), socket, peer, invoke, parse, mime, stream);
    if !IsUp(req.url) && socket.Some? {
      var fs := RemoteFs(FsRemote.Remote(h.root, socket, FsRemote.DefaultTimeout), peer);
      if Exists(fs, req.url).Done? && Truthy(Exists(fs, req.url).value) && Stat(fs, req.url).Done? {
        var stat := Stat(fs, req.url).value;
        assert get == OnStat(fs, req, stat, invoke, parse, mime, stream);
        assert head == OnStat(fs, req.(verb := "HEAD"), stat, invoke, parse, mime, stream);
        StatHeadIsGet(fs, req, stat, invoke, parse, mime, stream);
      }
    }
  }

  /** After `stat`, a HEAD gets the head the same GET streams under. */
  lemma StatHeadIsGet(fs: Fs, req: Request, stat: Val, invoke: Invoke, parse: RangeParser, mime: Mime, stream: nat)
    requires req.verb == "GET" && !IsUp(req.url)
    requires fs.RemoteFs? && fs.remote.socket.Some?
    ensures var get := OnStat(fs, req, stat, invoke, parse, mime, stream);
      var head := OnStat(fs, req.(verb := "HEAD"), stat, invoke, parse, mime, stream);
      && (get.Streamed? <==> head.HeadOnly?)
      && (get.Streamed? ==> get.head == head.head)
  { }

  /** An answered remote `stat`, as the handler awaits it and reads its type and size. */
  lemma StatAnswered(remote: FsRemote.Remote, peer: Peer, p: string, invoke: Invoke, isFile: bool, size: nat)
    requires var r := FsRemote.Call(remote, FsRemote.StatCall, p, [], peer);
      r.Success? && r.value.Resolved? && Get(r.value.value, "isFile") == Bool(isFile) && Get(r.value.value, "size") == Num(size)
    ensures var stat := Adapter.Stat(RemoteFs(remote, peer), p);
      && stat.Done?
      && Flag(stat.value, "isFile", invoke) == Some(Bool(isFile))
      && Get(stat.value, "size") == Num(size)
  {
    var v := FsRemote.Call(remote, FsRemote.StatCall, p, [], peer).value.value;
    assert v.Obj?;
  }

  /** A HEAD without a Range header, once `exists` and `stat` have answered. */
  lemma HeadDecision(h: Static, req: Request, socket: FsRemote.Socket, peer: Peer,
                     invoke: Invoke, parse: RangeParser, mime: Mime, stream: nat, found: bool, stat: Val)
    requires !IsUp(req.url) && req.verb == "HEAD" && "range" !in req.headers
    requires var fs := RemoteFs(FsRemote.Remote(h.root, Some(socket), FsRemote.DefaultTimeout), peer);
      Exists(fs, req.url) == Done(Bool(found)) && (found ==> Adapter.Stat(fs, req.url) == Done(stat))
    requires found ==> Flag(stat, "isFile", invoke).Some? && Get(stat, "size").Num? && Get(stat, "size").n >= 0
    ensures var r := OnRequest(h, req, Some(socket), peer, invoke, parse, mime, stream);
      && (r.HeadOnly? <==> found && Truthy(Flag(stat, "isFile", invoke).value))
      && (r.HeadOnly? ==>
            && r.head.status == 200
            && HeaderOf(r.head.headers, "Content-Length") == Some(NatText(Get(stat, "size").n)))
  {
    var fs := RemoteFs(FsRemote.Remote(h.root, Some(socket), FsRemote.DefaultTimeout), peer);
    var r := OnRequest(h, req, Some(socket), peer, invoke, parse, mime, stream);
    if !found {
      assert r == Next;
    } else {
      assert r == OnStat(fs, req, stat, invoke, parse, mime, stream);
      HeadStat(fs, req, stat, invoke, parse, mime, stream);
    }
  }

  /** A HEAD without a Range header, once `stat` has answered with a size. */
  lemma HeadStat(fs: Fs, req: Request, stat: Val, invoke: Invoke, parse: RangeParser, mime: Mime, stream: nat)
    requires req.verb == "HEAD" && "range" !in req.headers
    requires Flag(stat, "isFile", invoke).Some? && Get(stat, "size").Num? && Get(stat, "size").n >= 0
    ensures var r := OnStat(fs, req, stat, invoke, parse, mime, stream);
      && (r.HeadOnly? <==> Truthy(Flag(stat, "isFile", invoke).value))
      && (r.HeadOnly? ==>
            && r.head.status == 200
            && HeaderOf(r.head.headers, "Content-Length") == Some(NatText(Get(stat, "size").n)))
  { }

  /**
   * A HEAD without a Range header against any peer whose answers to
   * `exists` and `stat` are those of storage holding `n` at the URL's
   * path.
   */
  lemma HeadOverPeer(h: Static, req: Request, socket: FsRemote.Socket, peer: Peer, invoke: Invoke,
                     parse: RangeParser, mime: Mime, stream: nat, n: Option<Disk.Node>)
    requires !IsUp(req.url) && req.verb == "HEAD" && "range" !in req.headers
    requires var remote := FsRemote.Remote(h.root, Some(socket), FsRemote.DefaultTimeout);
      FsRemote.Call(remote, FsRemote.ExistsCall, req.url, [], peer) == Success(FsRemote.Resolved(Bool(n.Some?)))
    requires n.Some? ==>
      var r := FsRemote.Call(FsRemote.Remote(h.root, Some(socket), FsRemote.DefaultTimeout), FsRemote.StatCall, req.url, [], peer);
      && r.Success? && r.value.Resolved?
      && Get(r.value.value, "isFile") == Bool(n.value.File?)
      && Get(r.value.value, "size") == Num(Disk.StatOf(n.value).size)
    ensures var r := OnRequest(h, req, Some(socket), peer, invoke, parse, mime, stream);
      && (r.HeadOnly? <==> n.Some? && n.value.File?)
      && (r.HeadOnly? ==> r.head.status == 200 && HeaderOf(r.head.headers, "Content-Length") == Some(NatText(n.value.size)))
  {
    var remote := FsRemote.Remote(h.root, Some(socket), FsRemote.DefaultTimeout);
    var fs := RemoteFs(remote, peer);
    assert Exists(fs, req.url) == Done(Bool(n.Some?));
    if n.Some? {
      var st := Disk.StatOf(n.value);
      StatAnswered(remote, peer, req.url, invoke, n.value.File?, st.size);
      var stat := Adapter.Stat(fs, req.url).value;
      HeadDecision(h, req, socket, peer, invoke, parse, mime, stream, true, stat);
    } else {
      HeadDecision(h, req, socket, peer, invoke, parse, mime, stream, false, Undefined);
    }
  }

  /**
   * Served end to end: with the socket reaching a socket served by
   * `ioStatic(root, options)`, a HEAD without a Range header is answered
   * exactly when the server's storage holds a file at the path the URL
   * reaches there, with status 200 and that file's size as its length.
   */
  lemma StaticOverServed(h: Static, req: Request, socket: FsRemote.Socket, root: string, options: IoStatic.Options,
                         disk: Disk.Node, effects: Effects, invoke: Invoke, parse: RangeParser, mime: Mime, stream: nat)
    requires !IsUp(h.root) && !IsUp(req.url) && req.verb == "HEAD" && "range" !in req.headers
    requires ImplementsStats(invoke)
    ensures var n := Disk.LookupPath(disk, Resolve(FsLocal.Create(root, false).root, Resolve(h.root, req.url)));
      var r := OnRequest(h, req, Some(socket), IoStatic.Peer(IoStatic.Create(root, options), disk, effects, invoke),
                         invoke, parse, mime, stream);
      && (r.HeadOnly? <==> n.Some? && n.value.File?)
      && (r.HeadOnly? ==> r.head.status == 200 && HeaderOf(r.head.headers, "Content-Length") == Some(NatText(n.value.size)))
  {
    var local := Resolve(FsLocal.Create(root, false).root, Resolve(h.root, req.url));
    var n := Disk.LookupPath(disk, local);
    var peer := IoStatic.Peer(IoStatic.Create(root, options), disk, effects, invoke);
    var remote := FsRemote.Remote(h.root, Some(socket), FsRemote.DefaultTimeout);
    assert FsRemote.Call(remote, FsRemote.ExistsCall, req.url, [], peer) == Success(FsRemote.Resolved(Bool(n.Some?))) by {
      IoStatic.RemoteExistsIsLocal(root, options, disk, effects, invoke, remote, req.url);
    }
    assert n.Some? ==>
      var r := FsRemote.Call(remote, FsRemote.StatCall, req.url, [], peer);
      && r.Success? && r.value.Resolved?
      && Get(r.value.value, "isFile") == Bool(n.value.File?)
      && Get(r.value.value, "size") == Num(Disk.StatOf(n.value).size)
    by {
      IoStatic.RemoteStatReportsType(root, options, disk, effects, invoke, remote, req.url);
    }
    HeadOverPeer(h, req, socket, peer, invoke, parse, mime, stream, n);
  }
}

=== FILE: io_static.dfy ===
/**
 * `ioStatic(root, options)` of src/io-static.js: the socket.io middleware
 * that serves a local adapter to the peers of a server. It registers one
 * listener per event on each socket it is handed, and every listener
 * answers through the acknowledgement callback with an envelope
 * `{ ok, data }` or `{ ok, error }` whose data went through the value
 * projection.
 */
module IoStatic {
  import opened Wrappers
  import opened PosixPath
  import opened Sandbox
  import opened Js
  import opened Disk
  import opened Transform
  import opened NodeValues
  import FsLocal
  import FsRemote
  import Events
  import opened Wire

  /** The `options` argument; an omitted one has every field `undefined`. */
  datatype Options = Options(read: Val, write: Val, delete: Val)

  const NoOptions: Options := Options(Undefined, Undefined, Undefined)

  /** The middleware's state: its local adapter, built without an emitter, and the effective flags. */
  datatype Server = Server(fs: FsLocal.Local, flags: Options)

  /** The listeners `addListeners` attaches. */
  datatype Listener =
    | OnWriteFile | OnMkdir | OnReadFile | OnStat | OnReaddir | OnExists | OnStruct | OnDel
      /** The listener for `EVENTS.ACTION`, which only logs. */
    | LogAction

  /** The event each listener is registered under. */
  function EventOf(l: Listener): Events.Event {
    match l
    case OnWriteFile => Events.WriteFile
    case OnMkdir => Events.Mkdir
    case OnReadFile => Events.ReadFile
    case OnStat => Events.Stat
    case OnReaddir => Events.Readdir
    case OnExists => Events.Exists
    case OnStruct => Events.Struct
    case OnDel => Events.Del
    case LogAction => Events.Action
  }

  /** `ss(socket).on(...)` registers on the stream channel, `socket.on(...)` on the socket itself. */
  datatype Channel = Streamed | Plain

  datatype Registration = Registration(event: Val, channel: Channel, listener: Listener)

  /** A socket as the middleware sees it: the marker it sets, and the listeners registered so far. */
  datatype ClientSocket = ClientSocket(marked: bool, registrations: seq<Registration>)

  /**
   * The flags: `read` and `write` are `x || true`, so always on, and
   * `delete` is `x || false`, so on exactly when the option is truthy.
   */
  function Flags(options: Options): (r: Options)
    ensures Truthy(r.read) && Truthy(r.write)
    ensures Truthy(r.delete) <==> Truthy(options.delete)
    ensures Truthy(options.delete) ==> r.delete == options.delete
  {
    Options(
      if Truthy(options.read) then options.read else Bool(true),
      if Truthy(options.write) then options.write else Bool(true),
      if Truthy(options.delete) then options.delete else Bool(false))
  }

  function Create(root: string, options: Options): (r: Server)
    ensures r.fs == FsLocal.Create(root, false)
    ensures r.flags == Flags(options)
  {
    Server(FsLocal.Create(root, false), Flags(options))
  }

  /** Every listener `addListeners` knows, in the order it registers them. */
  const AllListeners: seq<Listener> :=
    [OnWriteFile, OnMkdir, OnReadFile, OnStat, OnReaddir, OnExists, OnStruct, OnDel, LogAction]

  /**
   * The guard around each registration: `write` guards the writers,
   * `read` the readers, `delete` the `del` listener; the action logger is
   * registered unconditionally.
   */
  predicate SwitchedOn(flags: Options, l: Listener) {
    match l
    case OnWriteFile | OnMkdir => Truthy(flags.write)
    case OnReadFile | OnStat | OnReaddir | OnExists | OnStruct => Truthy(flags.read)
    case OnDel => Truthy(flags.delete)
    case LogAction => true
  }

  /** The channel a listener is registered on: the file streams go through the stream channel. */
  function ChannelOf(l: Listener): Channel {
    if l in {OnReadFile, OnWriteFile} then Streamed else Plain
  }

  /** The listeners of `ls` the flags switch on, in their order. */
  function SwitchedOnOf(flags: Options, ls: seq<Listener>): (r: seq<Listener>)
    ensures |r| <= |ls|
    ensures forall l :: l in r <==> l in ls && SwitchedOn(flags, l)
  {
    if ls == [] then []
    else (if SwitchedOn(flags, ls[0]) then [ls[0]] else []) + SwitchedOnOf(flags, ls[1..])
  }

  /** A listener under its own event, on its own channel. */
  function RegistrationOf(l: Listener): Registration {
    Registration(Events.Name(EventOf(l)), ChannelOf(l), l)
  }

  /**
   * The listeners attached to an unmarked socket, in registration order:
   * each one the flags switch on, under its event and on its channel.
   */
  function Registrations(flags: Options): (r: seq<Registration>)
    ensures |r| <= |AllListeners|
    ensures forall i | 0 <= i < |r| :: r[i] == RegistrationOf(r[i].listener)
    ensures forall reg :: reg in r <==> SwitchedOn(flags, reg.listener) && reg == RegistrationOf(reg.listener)
  {
    var ls := SwitchedOnOf(flags, AllListeners);
    var r := seq(|ls|, i requires 0 <= i < |ls| => RegistrationOf(ls[i]));
    RegistrationsListed(ls, r);
    r
  }

  /** Registering each listener of `ls` registers exactly those. */
  lemma RegistrationsListed(ls: seq<Listener>, r: seq<Registration>)
    requires |r| == |ls| && forall i | 0 <= i < |ls| :: r[i] == RegistrationOf(ls[i])
    ensures forall reg :: reg in r <==> reg.listener in ls && reg == RegistrationOf(reg.listener)
  { }

  /** `addListeners(socket)`: a marked socket is left alone; otherwise the listeners are added and the socket marked. */
  function AddListeners(server: Server, socket: ClientSocket): (r: ClientSocket)
    ensures socket.marked ==> r == socket
    ensures !socket.marked ==> r.marked && r.registrations == socket.registrations + Registrations(server.flags)
  {
    if socket.marked then socket
    else ClientSocket(true, socket.registrations + Registrations(server.flags))
  }

  /** `middleware(socket, next)`: the socket after `addListeners`, and whether `next` was called. */
  function Middleware(server: Server, socket: ClientSocket, next: Val): (r: (ClientSocket, bool))
    ensures r.0 == AddListeners(server, socket)
    ensures r.1 <==> next.Fn?
  {
    (AddListeners(server, socket), next.Fn?)
  }

  /** A socket fresh from the server, after the middleware ran on it. */
  function Served(server: Server): ClientSocket {
    AddListeners(server, ClientSocket(false, []))
  }

  /** The first listener registered on `channel` under `event`. */
  function Handler(socket: ClientSocket, channel: Channel, event: Val): (r: Option<Listener>)
    ensures r.Some? <==> exists i | 0 <= i < |socket.registrations| ::
      socket.registrations[i].channel == channel && socket.registrations[i].event == event
    ensures r.Some? ==> exists i | 0 <= i < |socket.registrations| ::
      socket.registrations[i] == Registration(event, channel, r.value)
  {
    FirstListener(socket.registrations, channel, event, 0)
  }

  /** The first listener at or after position `from` registered on `channel` under `event`. */
  function FirstListener(regs: seq<Registration>, channel: Channel, event: Val, from: nat): (r: Option<Listener>)
    requires from <= |regs|
    ensures r.Some? <==> exists i | from <= i < |regs| :: regs[i].channel == channel && regs[i].event == event
    ensures r.Some? ==> exists i | from <= i < |regs| :: regs[i] == Registration(event, channel, r.value)
    decreases |regs| - from
  {
    if from == |regs| then None
    else if regs[from].channel == channel && regs[from].event == event then Some(regs[from].listener)
    else FirstListener(regs, channel, event, from + 1)
  }

  // ---------------------------------------------------------------------
  // The listeners

  /** The envelope a listener acknowledges with. */
  function Reply(outcome: Result<Val, string>, invoke: Invoke): (r: Val)
    ensures r.Obj? && r.proto == Some(ObjectPrototype)
    ensures Get(r, "ok") == Bool(outcome.Success?)
    ensures outcome.Success? ==> Get(r, "data") == TransformValues(outcome.value, invoke)
    ensures outcome.Failure? ==> Get(r, "error") == Str(outcome.error)
  {
    match outcome
    case Success(v) =>
      var props := [Prop("ok", Bool(true)), Prop("data", TransformValues(v, invoke))];
      LookupAt(props, 0);
      Record(props)
    case Failure(message) =>
      var props := [Prop("ok", Bool(false)), Prop("error", Str(message))];
      LookupAt(props, 0);
      Record(props)
  }

  /** A listener calls back only when the callback is a function. */
  function Acknowledge(outcome: Result<Val, string>, callback: Val, invoke: Invoke): (r: Option<Val>)
    ensures r.Some? <==> callback.Fn?
    ensures r.Some? ==> r.value == Reply(outcome, invoke)
  {
    if callback.Fn? then Some(Reply(outcome, invoke)) else None
  }

  /** The first argument of a call: `undefined` when there is none. */
  function FirstArg(args: seq<Val>): (r: Val)
    ensures |args| > 0 ==> r == args[0]
  {
    if |args| > 0 then args[0] else Undefined
  }

  /**
   * The first argument of a call as the adapter's path: the sandbox reads
   * its text first, so an up text is malicious whatever the value, and
   * only then is a value that is not a string refused by `normalize`.
   */
  function PathArg(args: seq<Val>): (r: Result<string, string>)
    ensures r.Success? <==> |args| > 0 && args[0].Str? && !IsUp(args[0].s)
    ensures r.Success? ==> r.value == args[0].s
    ensures IsUp(StringOf(FirstArg(args))) ==> r == Failure("malicious path: " + StringOf(FirstArg(args)))
    ensures !IsUp(StringOf(FirstArg(args))) && !FirstArg(args).Str? ==> r == Failure(FsLocal.PathTypeMessage)
  {
    var v := FirstArg(args);
    if IsUp(StringOf(v)) then Failure("malicious path: " + StringOf(v))
    else if !v.Str? then Failure(FsLocal.PathTypeMessage)
    else Success(v.s)
  }

  /**
   * What one request listener's call of the local adapter settles with:
   * the value the projection receives, or the message of the error. The
   * storage calls of `mkdir` and `del` are answered by `effects`. The
   * action logger never acknowledges, which is `None`.
   */
  function Serve(server: Server, disk: Node, effects: FsLocal.StorageCall -> Result<Val, string>,
                 listener: Listener, args: seq<Val>): (r: Option<Result<Val, string>>)
    ensures r.None? <==> listener in {LogAction, OnReadFile, OnWriteFile}
    ensures r.Some? && IsUp(StringOf(FirstArg(args))) ==>
      r.value == Failure("malicious path: " + StringOf(FirstArg(args)))
    ensures r.Some? && !IsUp(StringOf(FirstArg(args))) && !FirstArg(args).Str? ==>
      r.value == Failure(FsLocal.PathTypeMessage)
    ensures r.Some? && PathArg(args).Success? ==>
      r.value == ServePath(server, disk, effects, listener, args[0].s, args[1..])
  {
    if listener in {LogAction, OnReadFile, OnWriteFile} then None
    else
      Some(
        match PathArg(args)
        case Failure(message) => Failure(message)
        case Success(p) => ServePath(server, disk, effects, listener, p, args[1..]))
  }

  function ServePath(server: Server, disk: Node, effects: FsLocal.StorageCall -> Result<Val, string>,
                     listener: Listener, p: string, rest: seq<Val>): (r: Result<Val, string>)
    requires listener !in {LogAction, OnReadFile, OnWriteFile}
    ensures IsUp(p) ==> r == Failure("malicious path: " + p)
  {
    var fs := server.fs;
    match listener
    case OnStat => MapBoth(FsLocal.Stat(fs, disk, p), StatsVal)
    case OnReaddir =>
      var withTypes := WithFileTypes(if |rest| > 0 then rest[0] else Undefined);
      MapBoth(FsLocal.Readdir(fs, disk, p), entries => ReaddirVal(entries, withTypes))
    case OnExists => MapBoth(FsLocal.Exists(fs, disk, p), b => Bool(b))
    case OnStruct => MapBoth(FsLocal.Struct(fs, disk, p), EntriesVal)
    case OnMkdir => Effect(FsLocal.Call(fs, FsLocal.MkdirOp, p, rest), effects)
    case OnDel => Effect(FsLocal.Call(fs, FsLocal.DelOp, p, rest), effects)
  }

  /** A local result as a settled listener call: the value, or the error's message. */
  function MapBoth<T>(res: Result<T, FsLocal.LocalError>, f: T -> Val): (r: Result<Val, string>)
    ensures res.Success? <==> r.Success?
    ensures r.Success? ==> r.value == f(res.value)
    ensures r.Failure? ==> r.error == res.error.Message()
  {
    match res
    case Success(v) => Success(f(v))
    case Failure(e) => Failure(e.Message())
  }

  function Effect(call: Result<FsLocal.StorageCall, FsLocal.LocalError>,
                  effects: FsLocal.StorageCall -> Result<Val, string>): (r: Result<Val, string>)
    ensures call.Failure? ==> r == Failure(call.error.Message())
    ensures call.Success? ==> r == effects(call.value)
  {
    match call
    case Success(c) => effects(c)
    case Failure(e) => Failure(e.Message())
  }

  /** Stands for the error a timed-out acknowledgement is delivered with. */
  const TimeoutError: Val := Opaque(ErrorObject, 1)

  /**
   * The `(err, res)` a remote adapter's acknowledgement receives from this
   * server: a request no listener answers times out; otherwise the reply
   * arrives with no error. The request's arguments reach the listener,
   * and the reply reaches the adapter, through the JSON encoding.
   */
  function Exchange(server: Server, socket: ClientSocket, disk: Node,
                    effects: FsLocal.StorageCall -> Result<Val, string>, invoke: Invoke,
                    request: FsRemote.Request): (r: (Val, Val))
    ensures Handler(socket, Plain, request.event).None? ==> r == (TimeoutError, Undefined)
    ensures Truthy(r.0) <==> r == (TimeoutError, Undefined)
  {
    match Handler(socket, Plain, request.event)
    case None => (TimeoutError, Undefined)
    case Some(listener) =>
      match Serve(server, disk, effects, listener, SentArgs(request.args))
      case None => (TimeoutError, Undefined)
      case Some(outcome) => (Null, Sent(Reply(outcome, invoke)))
  }

  // ---------------------------------------------------------------------
  // The stream listeners

  /** How `onReadFile` treats the stream it is handed. */
  datatype ReadOutcome =
    | Piped(source: FsLocal.StorageCall)
      /** `stream.end('')`. */
    | Ended

  /** How `onWriteFile` treats the stream it is handed. */
  datatype WriteOutcome =
    | Draining(dest: FsLocal.StorageCall)
      /** `stream.destroy(e)` with the error's message. */
    | Destroyed(message: string)

  /**
   * `onReadFile(stream, from)`: a path that is missing, up or a directory
   * ends the stream empty; a file is piped into it.
   */
  function OnReadFileOutcome(server: Server, disk: Node, from: Val): (r: ReadOutcome)
    ensures r.Piped? <==>
      Get(from, "path").Str? && !IsUp(Get(from, "path").s)
      && LookupPath(disk, Resolve(server.fs.root, Get(from, "path").s)).Some?
      && !LookupPath(disk, Resolve(server.fs.root, Get(from, "path").s)).value.Dir?
    ensures r.Piped? ==> r.source == FsLocal.StorageCall(FsLocal.ReadStreamOp,
      Resolve(server.fs.root, Get(from, "path").s), [Get(from, "opts")])
  {
    var path := Get(from, "path");
    if !path.Str? then Ended
    else
      match FsLocal.Exists(server.fs, disk, path.s)
      case Failure(_) => Ended
      case Success(found) =>
        if !found then Ended
        else
          match FsLocal.Stat(server.fs, disk, path.s)
          case Failure(_) => Ended
          case Success(st) =>
            if st.isDirectory then Ended
            else
              match FsLocal.Call(server.fs, FsLocal.ReadStreamOp, path.s, [Get(from, "opts")])
              case Failure(_) => Ended
              case Success(call) => Piped(call)
  }

  /**
   * `onWriteFile(stream, to)`: an accepted path opens a write stream the
   * incoming stream is piped into; otherwise the stream is destroyed with
   * the error, the sandbox's when the path's text is up and the type
   * error when it is no string.
   */
  function OnWriteFileOutcome(server: Server, to: Val): (r: WriteOutcome)
    ensures r.Draining? <==> Get(to, "path").Str? && !IsUp(Get(to, "path").s)
    ensures r.Draining? ==> r.dest == FsLocal.StorageCall(FsLocal.WriteStreamOp,
      Resolve(server.fs.root, Get(to, "path").s), [Get(to, "opts")])
    ensures IsUp(StringOf(Get(to, "path"))) ==>
      r == Destroyed("malicious path: " + StringOf(Get(to, "path")))
    ensures !IsUp(StringOf(Get(to, "path"))) && !Get(to, "path").Str? ==>
      r == Destroyed(FsLocal.PathTypeMessage)
  {
    var path := Get(to, "path");
    match FsLocal.PathOf(server.fs, path)
    case Failure(e) => Destroyed(e.Message())
    case Success(_) =>
      match FsLocal.Call(server.fs, FsLocal.WriteStreamOp, path.s, [Get(to, "opts")])
      case Failure(e) => Destroyed(e.Message())
      case Success(call) => Draining(call)
  }

  // ---------------------------------------------------------------------
  // Properties

  /** The middleware marks a socket once: running it again adds nothing. */
  lemma AddListenersIdempotent(server: Server, socket: ClientSocket)
    ensures AddListeners(server, AddListeners(server, socket)) == AddListeners(server, socket)
    ensures |AddListeners(server, socket).registrations| <= |socket.registrations| + 9
  { }

  /** No two positions of `xs` hold the same element. */
  predicate Distinct<T(==)>(xs: seq<T>) {
    forall i, j | 0 <= i < j < |xs| :: xs[i] != xs[j]
  }

  /** Keeping some elements of a list without repeats leaves a list without repeats. */
  lemma {:induction false} SwitchedOnDistinct(flags: Options, ls: seq<Listener>)
    requires Distinct(ls)
    ensures Distinct(SwitchedOnOf(flags, ls))
  {
    if ls != [] {
      var tail := SwitchedOnOf(flags, ls[1..]);
      DistinctTail(ls);
      SwitchedOnDistinct(flags, ls[1..]);
      if SwitchedOn(flags, ls[0]) {
        ConsDistinct(ls[0], tail);
      } else {
        assert SwitchedOnOf(flags, ls) == [] + tail;
      }
    }
  }

  lemma DistinctTail<T>(xs: seq<T>)
    requires xs != [] && Distinct(xs)
    ensures Distinct(xs[1..]) && xs[0] !in xs[1..]
  { }

  lemma ConsDistinct<T>(x: T, xs: seq<T>)
    requires Distinct(xs) && x !in xs
    ensures Distinct([x] + xs)
  { }

  /**
   * Every listener is registered under its own event and on its channel,
   * exactly when the flags switch it on, and none twice.
   */
  lemma RegistrationsDistinct(flags: Options)
    ensures var regs := Registrations(flags);
      && (forall i | 0 <= i < |regs| :: regs[i].event == Events.Name(EventOf(regs[i].listener)))
      && (forall i | 0 <= i < |regs| :: (regs[i].channel == Streamed <==> regs[i].listener in {OnReadFile, OnWriteFile}))
      && (forall i, j | 0 <= i < j < |regs| :: regs[i].listener != regs[j].listener)
  {
    var ls := SwitchedOnOf(flags, AllListeners);
    assert Distinct(AllListeners);
    SwitchedOnDistinct(flags, AllListeners);
  }

  /**
   * On a served socket, the listener for an event is the one registered
   * under that event on that channel, and there is none when no such
   * registration was made.
   */
  lemma ServedHandler(server: Server, channel: Channel, l: Listener)
    ensures Handler(Served(server), channel, Events.Name(EventOf(l))) ==
      if Registered(server.flags, channel, l) then Some(l) else None
  {
    var regs := Registrations(server.flags);
    assert Served(server).registrations == regs by {
      assert [] + regs == regs;
    }
    RegistrationsDistinct(server.flags);
    FirstOfDistinct(regs, channel, l, 0);
    assert regs[0..] == regs;
  }

  /** Where every event names its listener, the listener found under an event is that one. */
  lemma {:induction false} FirstOfDistinct(regs: seq<Registration>, channel: Channel, l: Listener, from: nat)
    requires from <= |regs|
    requires forall i | 0 <= i < |regs| :: regs[i].event == Events.Name(EventOf(regs[i].listener))
    ensures FirstListener(regs, channel, Events.Name(EventOf(l)), from) ==
      if Registration(Events.Name(EventOf(l)), channel, l) in regs[from..] then Some(l) else None
    decreases |regs| - from
  { }

  /** `l` is among the listeners added on `channel`, under its own event. */
  predicate Registered(flags: Options, channel: Channel, l: Listener) {
    Registration(Events.Name(EventOf(l)), channel, l) in Registrations(flags)
  }

  /**
   * A socket served by `ioStatic(root, options)` has every listener
   * registered under its event, `del` excepted when the `delete` option is
   * falsy; the file streams are served on the stream channel.
   */
  lemma ServedEvents(root: string, options: Options, l: Listener)
    ensures Handler(Served(Create(root, options)), ChannelOf(l), Events.Name(EventOf(l))) ==
      if l == OnDel && !Truthy(options.delete) then None else Some(l)
  {
    var server := Create(root, options);
    ServedHandler(server, ChannelOf(l), l);
  }

  /**
   * The acknowledgement round trip: what a listener replies with settles
   * the remote adapter's promise with the projected value as JSON carries
   * it, or rejects it with the error's message.
   */
  lemma ReplySettles(outcome: Result<Val, string>, invoke: Invoke)
    ensures outcome.Success? ==>
      FsRemote.Settle(Null, Sent(Reply(outcome, invoke))) == FsRemote.Resolved(Received(TransformValues(outcome.value, invoke)))
    ensures outcome.Failure? ==> FsRemote.Settle(Null, Sent(Reply(outcome, invoke))) == FsRemote.Rejected(Str(outcome.error))
  {
    var reply := Reply(outcome, invoke);
    assert UniqueKeys(reply.props);
    GetReceived(reply, "ok");
    GetReceived(reply, "data");
    GetReceived(reply, "error");
  }

  /**
   * A path argument that is a one-element array holding an up path, such
   * as `['..']`, is refused with the sandbox's error by every request
   * listener and by `onWriteFile`.
   */
  lemma UpArrayPathRefused(server: Server, disk: Node, effects: FsLocal.StorageCall -> Result<Val, string>,
                           listener: Listener, s: string, rest: seq<Val>, to: Val)
    requires IsUp(s) && listener !in {LogAction, OnReadFile, OnWriteFile}
    ensures Serve(server, disk, effects, listener, [Arr([Some(Str(s))])] + rest) == Some(Failure("malicious path: " + s))
    ensures Get(to, "path") == Arr([Some(Str(s))]) ==> OnWriteFileOutcome(server, to) == Destroyed("malicious path: " + s)
  {
    SingletonText(Str(s));
    assert FirstArg([Arr([Some(Str(s))])] + rest) == Arr([Some(Str(s))]);
  }

  // ---------------------------------------------------------------------
  // A remote adapter talking to a served socket

  /** The listener answering each remote method. */
  function ListenerOf(m: FsRemote.Method): (r: Listener)
    ensures EventOf(r) == FsRemote.EventOf(m) && ChannelOf(r) == Plain
  {
    match m
    case StatCall => OnStat
    case ReaddirCall => OnReaddir
    case ExistsCall => OnExists
    case DelCall => OnDel
    case StructCall => OnStruct
    case MkdirCall => OnMkdir
  }

  /** The peer a served socket is, for a remote adapter's requests. */
  function Peer(server: Server, disk: Node, effects: FsLocal.StorageCall -> Result<Val, string>, invoke: Invoke)
    : FsRemote.Request -> (Val, Val)
  {
    request => Exchange(server, Served(server), disk, effects, invoke, request)
  }

  /** How a listener's outcome settles the remote promise, once acknowledged over the wire. */
  function Delivered(outcome: Result<Val, string>, invoke: Invoke): (r: FsRemote.Settled)
    ensures outcome.Success? ==> r == FsRemote.Resolved(Received(TransformValues(outcome.value, invoke)))
    ensures outcome.Failure? ==> r == FsRemote.Rejected(Str(outcome.error))
  {
    ReplySettles(outcome, invoke);
    FsRemote.Settle(Null, Sent(Reply(outcome, invoke)))
  }

  /**
   * A remote adapter whose socket reaches a socket served by
   * `ioStatic(root, options)`: every accepted call is answered by the
   * listener for its method, on the path the remote adapter resolved and
   * with the arguments it sent, except `del` with deleting off, which no
   * listener answers, so the call times out.
   */
  lemma RemoteOverServed(root: string, options: Options, disk: Node,
                         effects: FsLocal.StorageCall -> Result<Val, string>, invoke: Invoke,
                         remote: FsRemote.Remote, m: FsRemote.Method, p: string, rest: seq<Val>)
    requires remote.socket.Some? && !IsUp(remote.root) && !IsUp(p)
    ensures var server := Create(root, options);
      var r := FsRemote.Call(remote, m, p, rest, Peer(server, disk, effects, invoke));
      && r.Success?
      && r.value == if m == FsRemote.DelCall && !Truthy(options.delete) then FsRemote.Rejected(TimeoutError)
                    else Delivered(ServePath(server, disk, effects, ListenerOf(m), Resolve(remote.root, p), SentRest(m, rest)), invoke)
  {
    var server := Create(root, options);
    var request := FsRemote.Outgoing(remote, m, p, rest).value;
    var sent := if m == FsRemote.ExistsCall || m == FsRemote.StructCall then [] else rest;
    assert request == FsRemote.Request(Events.Name(FsRemote.EventOf(m)), [Str(Resolve(remote.root, p))] + sent);
    assert SentArgs(sent) == SentRest(m, rest);
    ServedExchange(root, options, disk, effects, invoke, m, Resolve(remote.root, p), sent);
    assert Peer(server, disk, effects, invoke)(request) == Exchange(server, Served(server), disk, effects, invoke, request);
  }

  /**
   * The arguments after the path a remote method sends, as the listener
   * receives them: none for `exists` and `struct`.
   */
  function SentRest(m: FsRemote.Method, rest: seq<Val>): (r: seq<Val>)
    ensures m == FsRemote.ExistsCall || m == FsRemote.StructCall ==> r == []
    ensures !(m == FsRemote.ExistsCall || m == FsRemote.StructCall) ==> r == SentArgs(rest)
  {
    if m == FsRemote.ExistsCall || m == FsRemote.StructCall then [] else SentArgs(rest)
  }

  /**
   * What a served socket answers a remote method's request on path `p`:
   * the reply envelope of the method's listener, called with the
   * arguments as JSON carries them, or a timeout for `del` with deleting
   * off.
   */
  lemma ServedExchange(root: string, options: Options, disk: Node,
                       effects: FsLocal.StorageCall -> Result<Val, string>, invoke: Invoke,
                       m: FsRemote.Method, p: string, rest: seq<Val>)
    ensures var server := Create(root, options);
      Exchange(server, Served(server), disk, effects, invoke,
               FsRemote.Request(Events.Name(FsRemote.EventOf(m)), [Str(p)] + rest)) ==
        if m == FsRemote.DelCall && !Truthy(options.delete) then (TimeoutError, Undefined)
        else (Null, Sent(Reply(ServePath(server, disk, effects, ListenerOf(m), p, SentArgs(rest)), invoke)))
  {
    var server := Create(root, options);
    var request := FsRemote.Request(Events.Name(FsRemote.EventOf(m)), [Str(p)] + rest);
    ServedEvents(root, options, ListenerOf(m));
    if !(m == FsRemote.DelCall && !Truthy(options.delete)) {
      ExchangeHandled(server, Served(server), disk, effects, invoke, request, ListenerOf(m), p, rest);
    }
  }

  /** A request whose first argument is a path, to a listener that acknowledges, is served at that path. */
  lemma ExchangeHandled(server: Server, socket: ClientSocket, disk: Node,
                        effects: FsLocal.StorageCall -> Result<Val, string>, invoke: Invoke,
                        request: FsRemote.Request, l: Listener, p: string, rest: seq<Val>)
    requires Handler(socket, Plain, request.event) == Some(l)
    requires l !in {LogAction, OnReadFile, OnWriteFile}
    requires request.args == [Str(p)] + rest
    ensures Exchange(server, socket, disk, effects, invoke, request) ==
      (Null, Sent(Reply(ServePath(server, disk, effects, l, p, SentArgs(rest)), invoke)))
  {
    SentPathFirst(p, rest);
    var args := SentArgs(request.args);
    assert FirstArg(args) == Str(p) && args[1..] == SentArgs(rest);
    assert Serve(server, disk, effects, l, args) == Some(ServePath(server, disk, effects, l, p, SentArgs(rest)));
  }

  /** A path string crosses the wire unchanged, ahead of the other arguments. */
  lemma SentPathFirst(p: string, rest: seq<Val>)
    ensures SentArgs([Str(p)] + rest) == [Str(p)] + SentArgs(rest)
  { }

  /**
   * The path a remote call through a served socket reaches on the
   * server's storage: the server root's segments, then the remote root's,
   * then the caller's.
   */
  lemma ServedPath(root: string, remote: FsRemote.Remote, p: string)
    requires !IsUp(remote.root) && !IsUp(p)
    ensures var sent := Resolve(remote.root, p);
      && !IsUp(sent)
      && Segments(Resolve(FsLocal.Create(root, false).root, sent)) == Segments(root) + Segments(remote.root) + Segments(p)
  {
    var sent := Resolve(remote.root, p);
    ResolvedIsAccepted(remote.root, p);
    SandboxHolds(FsLocal.Create(root, false).root, sent);
  }

  /** The path a remote adapter sends for an accepted path is accepted in turn. */
  lemma SentIsAccepted(root: string, p: string)
    requires !IsUp(root) && !IsUp(p)
    ensures !IsUp(Resolve(root, p))
  {
    ResolvedIsAccepted(root, p);
  }

  /** `exists` over a served socket answers whether the server's storage has the path. */
  lemma RemoteExistsIsLocal(root: string, options: Options, disk: Node,
                            effects: FsLocal.StorageCall -> Result<Val, string>, invoke: Invoke,
                            remote: FsRemote.Remote, p: string)
    requires remote.socket.Some? && !IsUp(remote.root) && !IsUp(p)
    ensures var local := Resolve(FsLocal.Create(root, false).root, Resolve(remote.root, p));
      FsRemote.Call(remote, FsRemote.ExistsCall, p, [], Peer(Create(root, options), disk, effects, invoke))
        == Success(FsRemote.Resolved(Bool(StatAt(disk, local).Success?)))
  {
    var sent := Resolve(remote.root, p);
    SentIsAccepted(remote.root, p);
    ExistsDelivered(root, options, disk, effects, invoke, sent);
    var answer := FsRemote.Resolved(Bool(StatAt(disk, Resolve(FsLocal.Create(root, false).root, sent)).Success?));
    RemoteAnswers(root, options, disk, effects, invoke, remote, FsRemote.ExistsCall, p, [], answer);
  }

  /** What the `exists` listener's outcome settles the remote promise with. */
  lemma ExistsDelivered(root: string, options: Options, disk: Node, effects: FsLocal.StorageCall -> Result<Val, string>,
                        invoke: Invoke, p: string)
    requires !IsUp(p)
    ensures Delivered(ServePath(Create(root, options), disk, effects, ListenerOf(FsRemote.ExistsCall), p,
                                SentRest(FsRemote.ExistsCall, [])), invoke) ==
      FsRemote.Resolved(Bool(StatAt(disk, Resolve(FsLocal.Create(root, false).root, p)).Success?))
  {
    var server := Create(root, options);
    assert ListenerOf(FsRemote.ExistsCall) == OnExists && SentRest(FsRemote.ExistsCall, []) == [];
    ServeExists(server, disk, effects, p, []);
    var b := StatAt(disk, Resolve(FsLocal.Create(root, false).root, p)).Success?;
    assert ServePath(server, disk, effects, OnExists, p, []) == Success(Bool(b));
    assert TransformValues(Bool(b), invoke) == Bool(b);
  }

  /** The `exists` listener on an accepted path answers whether storage has it. */
  lemma ServeExists(server: Server, disk: Node, effects: FsLocal.StorageCall -> Result<Val, string>, p: string, rest: seq<Val>)
    requires !IsUp(p)
    ensures ServePath(server, disk, effects, OnExists, p, rest) == Success(Bool(StatAt(disk, Resolve(server.fs.root, p)).Success?))
  { }

  /** The `struct` listener passes on the adapter's `struct` result. */
  lemma ServeStruct(server: Server, disk: Node, effects: FsLocal.StorageCall -> Result<Val, string>, p: string, rest: seq<Val>)
    ensures var local := FsLocal.Struct(server.fs, disk, p);
      ServePath(server, disk, effects, OnStruct, p, rest) ==
        if local.Success? then Success(EntriesVal(local.value)) else Failure(local.error.Message())
  { }

  /**
   * `struct` over a served socket resolves with the server's own `struct`
   * result unchanged by the projection, or rejects with its error's
   * message.
   */
  lemma RemoteStructIsLocal(root: string, options: Options, disk: Node,
                            effects: FsLocal.StorageCall -> Result<Val, string>, invoke: Invoke,
                            remote: FsRemote.Remote, p: string)
    requires remote.socket.Some? && !IsUp(remote.root) && !IsUp(p)
    ensures var local := FsLocal.Struct(FsLocal.Create(root, false), disk, Resolve(remote.root, p));
      FsRemote.Call(remote, FsRemote.StructCall, p, [], Peer(Create(root, options), disk, effects, invoke))
        == Success(if local.Success? then FsRemote.Resolved(EntriesVal(local.value))
                   else FsRemote.Rejected(Str(local.error.Message())))
  {
    var local := FsLocal.Struct(FsLocal.Create(root, false), disk, Resolve(remote.root, p));
    var answer := if local.Success? then FsRemote.Resolved(EntriesVal(local.value)) else FsRemote.Rejected(Str(local.error.Message()));
    StructDelivered(root, options, disk, effects, invoke, Resolve(remote.root, p));
    RemoteAnswers(root, options, disk, effects, invoke, remote, FsRemote.StructCall, p, [], answer);
  }

  /** What the `struct` listener's outcome settles the remote promise with. */
  lemma StructDelivered(root: string, options: Options, disk: Node, effects: FsLocal.StorageCall -> Result<Val, string>,
                        invoke: Invoke, p: string)
    ensures var local := FsLocal.Struct(FsLocal.Create(root, false), disk, p);
      Delivered(ServePath(Create(root, options), disk, effects, ListenerOf(FsRemote.StructCall), p,
                          SentRest(FsRemote.StructCall, [])), invoke) ==
        if local.Success? then FsRemote.Resolved(EntriesVal(local.value))
        else FsRemote.Rejected(Str(local.error.Message()))
  {
    var server := Create(root, options);
    var local := FsLocal.Struct(server.fs, disk, p);
    ServeStruct(server, disk, effects, p, []);
    if local.Success? {
      EntriesPlain(local.value);
      PlainDataFixed(EntriesVal(local.value), 0, Null, invoke);
      EntriesJson(local.value);
      JsonCarried(EntriesVal(local.value));
    }
  }

  /** The nodes `struct` builds are data JSON carries unchanged. */
  lemma {:induction false} EntriesJson(es: seq<FsLocal.Entry>)
    ensures JsonData(EntriesVal(es))
    decreases es, 0
  {
    var v := EntriesVal(es);
    forall i | 0 <= i < |es|
      ensures v.slots[i].Some? && JsonData(v.slots[i].value)
    {
      EntryJson(es[i]);
    }
  }

  lemma {:induction false} EntryJson(e: FsLocal.Entry)
    ensures JsonData(EntryVal(e))
    decreases e, 1
  {
    if e.DirLike? {
      EntriesJson(e.files);
    }
  }

  /**
   * `stat` over a served socket resolves, for a path the server's storage
   * has, with a plain object whose `isDirectory` and `isFile` are the
   * answers of the server's `Stats` methods, whose size is the stat's and
   * whose birth time is the ISO text of the stat's (`null` for an invalid
   * date), as JSON carries a `Date`; a missing path rejects with the
   * storage error's code.
   */
  lemma RemoteStatReportsType(root: string, options: Options, disk: Node,
                              effects: FsLocal.StorageCall -> Result<Val, string>, invoke: Invoke,
                              remote: FsRemote.Remote, p: string)
    requires remote.socket.Some? && !IsUp(remote.root) && !IsUp(p)
    requires ImplementsStats(invoke)
    ensures var local := Resolve(FsLocal.Create(root, false).root, Resolve(remote.root, p));
      var r := FsRemote.Call(remote, FsRemote.StatCall, p, [], Peer(Create(root, options), disk, effects, invoke));
      && r.Success?
      && (LookupPath(disk, local).None? ==> r.value == FsRemote.Rejected(Str("ENOENT")))
      && (LookupPath(disk, local).Some? ==>
            var st := StatOf(LookupPath(disk, local).value);
            && r.value.Resolved?
            && Get(r.value.value, "isDirectory") == Bool(st.isDirectory)
            && Get(r.value.value, "isFile") == Bool(!st.isDirectory)
            && Get(r.value.value, "size") == Num(st.size)
            && Get(r.value.value, "birthtime") == DateJson(st.birthtimeMs))
  {
    var sent := Resolve(remote.root, p);
    SentIsAccepted(remote.root, p);
    StatDelivered(root, options, disk, effects, invoke, sent);
    var answer := Delivered(ServePath(Create(root, options), disk, effects, ListenerOf(FsRemote.StatCall), sent,
                                      SentRest(FsRemote.StatCall, [])), invoke);
    RemoteAnswers(root, options, disk, effects, invoke, remote, FsRemote.StatCall, p, [], answer);
  }

  /** What the `stat` listener's outcome settles the remote promise with. */
  lemma StatDelivered(root: string, options: Options, disk: Node, effects: FsLocal.StorageCall -> Result<Val, string>,
                      invoke: Invoke, p: string)
    requires !IsUp(p) && ImplementsStats(invoke)
    ensures var local := Resolve(FsLocal.Create(root, false).root, p);
      var r := Delivered(ServePath(Create(root, options), disk, effects, ListenerOf(FsRemote.StatCall), p,
                                   SentRest(FsRemote.StatCall, [])), invoke);
      && (LookupPath(disk, local).None? ==> r == FsRemote.Rejected(Str("ENOENT")))
      && (LookupPath(disk, local).Some? ==>
            var st := StatOf(LookupPath(disk, local).value);
            && r.Resolved?
            && Get(r.value, "isDirectory") == Bool(st.isDirectory)
            && Get(r.value, "isFile") == Bool(!st.isDirectory)
            && Get(r.value, "size") == Num(st.size)
            && Get(r.value, "birthtime") == DateJson(st.birthtimeMs))
  {
    var server := Create(root, options);
    ServeStat(server, disk, effects, p);
    var n := LookupPath(disk, Resolve(server.fs.root, p));
    if n.Some? {
      StatsReceived(StatOf(n.value), invoke);
    }
  }

  /**
   * The projected `Stats` object as the peer reads it: the answers of the
   * type predicates and the size arrive as they were, the birth time as
   * JSON writes a `Date`.
   */
  lemma StatsReceived(st: Stat, invoke: Invoke)
    requires ImplementsStats(invoke)
    ensures var r := Received(TransformValues(StatsVal(st), invoke));
      && Get(r, "isDirectory") == Bool(st.isDirectory)
      && Get(r, "isFile") == Bool(!st.isDirectory)
      && Get(r, "size") == Num(st.size)
      && Get(r, "birthtime") == DateJson(st.birthtimeMs)
  {
    var t := TransformValues(StatsVal(st), invoke);
    StatsProjected(st, invoke);
    PrototypesProjected();
    assert !PassesThrough(StatsVal(st));
    assert t.Obj? && t.proto == Some(ObjectPrototype);
    FieldsReceived(t, st);
  }

  /** The four fields of a projected stat, read back after the trip. */
  lemma FieldsReceived(t: Val, st: Stat)
    requires t.Obj? && t.proto == Some(ObjectPrototype)
    requires Get(t, "isDirectory") == Bool(st.isDirectory) && Get(t, "isFile") == Bool(!st.isDirectory)
    requires Get(t, "size") == Num(st.size) && Get(t, "birthtime") == Opaque(DateObject, st.birthtimeMs)
    ensures var r := Received(t);
      && Get(r, "isDirectory") == Bool(st.isDirectory)
      && Get(r, "isFile") == Bool(!st.isDirectory)
      && Get(r, "size") == Num(st.size)
      && Get(r, "birthtime") == DateJson(st.birthtimeMs)
  {
    GetReceived(t, "isDirectory");
    GetReceived(t, "isFile");
    GetReceived(t, "size");
    GetReceived(t, "birthtime");
  }

  /** The `stat` listener on an accepted path: the node's stat, or the storage's `ENOENT`. */
  lemma ServeStat(server: Server, disk: Node, effects: FsLocal.StorageCall -> Result<Val, string>, p: string)
    requires !IsUp(p)
    ensures var n := LookupPath(disk, Resolve(server.fs.root, p));
      ServePath(server, disk, effects, OnStat, p, []) ==
        if n.Some? then Success(StatsVal(StatOf(n.value))) else Failure("ENOENT")
  { }

  /**
   * A remote call over a served socket settles with what the method's
   * listener delivers, for any method but `del`.
   */
  lemma RemoteAnswers(root: string, options: Options, disk: Node,
                      effects: FsLocal.StorageCall -> Result<Val, string>, invoke: Invoke,
                      remote: FsRemote.Remote, m: FsRemote.Method, p: string, rest: seq<Val>, answer: FsRemote.Settled)
    requires remote.socket.Some? && !IsUp(remote.root) && !IsUp(p)
    requires m != FsRemote.DelCall
    requires Delivered(ServePath(Create(root, options), disk, effects, ListenerOf(m), Resolve(remote.root, p), SentRest(m, rest)), invoke) == answer
    ensures FsRemote.Call(remote, m, p, rest, Peer(Create(root, options), disk, effects, invoke)) == Success(answer)
  {
    RemoteOverServed(root, options, disk, effects, invoke, remote, m, p, rest);
  }

  /** With deleting off, a remote `del` is never answered and times out, whatever the path. */
  lemma RemoteDelTimesOut(root: string, options: Options, disk: Node,
                          effects: FsLocal.StorageCall -> Result<Val, string>, invoke: Invoke,
                          remote: FsRemote.Remote, p: string, rest: seq<Val>)
    requires remote.socket.Some? && !IsUp(remote.root) && !IsUp(p)
    requires !Truthy(options.delete)
    ensures FsRemote.Call(remote, FsRemote.DelCall, p, rest, Peer(Create(root, options), disk, effects, invoke))
      == Success(FsRemote.Rejected(TimeoutError))
  {
    RemoteOverServed(root, options, disk, effects, invoke, remote, FsRemote.DelCall, p, rest);
  }
}

=== FILE: js.dfy ===
/**
 * The JavaScript values that cross the adapters: call arguments, stat
 * records, reply envelopes and the payloads the value projection walks.
 * Objects are ordered property lists with a prototype link; arrays are
 * slot lists in which a hole is `None`.
 */
module Js {
  import opened Wrappers
  import opened Decimal

  /** The built-in classes the projection passes through untouched. */
  datatype OpaqueKind =
    | ErrorObject | DateObject | ArrayBufferObject | BufferObject | MapObject | SetObject
    | PromiseObject | StringObject | NumberObject | BooleanObject
    | Uint8ArrayObject | Uint16ArrayObject | Uint32ArrayObject
    | Int8ArrayObject | Int16ArrayObject | Int32ArrayObject

  datatype Val =
    | Undefined
    | Null
    | Bool(b: bool)
    | Num(n: int)
    | Str(s: string)
      /** An instance of one of the built-in classes, identified by `id`. */
    | Opaque(kind: OpaqueKind, id: nat)
      /** A callable, identified by `fid`; what a call returns is up to the caller's `Invoke`. */
    | Fn(fid: nat)
      /** Own enumerable properties in key order, and the prototype (`None` for a null prototype). */
    | Obj(props: seq<Prop>, proto: Option<Val>)
    | Arr(slots: seq<Option<Val>>)

  datatype Prop = Prop(key: string, value: Val)

  /**
   * Calling a function value with a receiver: `Some(result)`, or `None`
   * when the call throws.
   */
  type Invoke = (nat, Val) -> Option<Val>

  /** JavaScript truthiness (`!!v`). */
  predicate Truthy(v: Val) {
    match v
    case Undefined => false
    case Null => false
    case Bool(b) => b
    case Num(n) => n != 0
    case Str(s) => s != ""
    case _ => true
  }

  function Keys(props: seq<Prop>): seq<string>
    ensures |Keys(props)| == |props|
    ensures forall i | 0 <= i < |props| :: Keys(props)[i] == props[i].key
  {
    if props == [] then [] else Keys(props[..|props| - 1]) + [props[|props| - 1].key]
  }

  /** No key is listed twice, as for any object's `Object.keys`. */
  predicate UniqueKeys(props: seq<Prop>) {
    forall i, j | 0 <= i < j < |props| :: props[i].key != props[j].key
  }

  /** The value stored under `key`, reading the last entry that has it. */
  function Lookup(props: seq<Prop>, key: string): (r: Option<Val>)
    ensures r.Some? <==> key in Keys(props)
  {
    if props == [] then None
    else if props[|props| - 1].key == key then Some(props[|props| - 1].value)
    else Lookup(props[..|props| - 1], key)
  }

  /**
   * `o[key] = v` on a plain object: an existing key keeps its place and
   * takes the new value, a new key is appended.
   */
  function Put(props: seq<Prop>, key: string, v: Val): (r: seq<Prop>)
    ensures Lookup(r, key) == Some(v)
    ensures forall k | k != key :: Lookup(r, k) == Lookup(props, k)
    ensures key in Keys(props) ==> Keys(r) == Keys(props)
    ensures key !in Keys(props) ==> Keys(r) == Keys(props) + [key]
  {
    if key in Keys(props) then Replace(props, key, v) else props + [Prop(key, v)]
  }

  function Replace(props: seq<Prop>, key: string, v: Val): (r: seq<Prop>)
    ensures Keys(r) == Keys(props)
    ensures key in Keys(props) ==> Lookup(r, key) == Some(v)
    ensures forall k | k != key :: Lookup(r, k) == Lookup(props, k)
  {
    if props == [] then []
    else
      var init := Replace(props[..|props| - 1], key, v);
      var last := props[|props| - 1];
      assert Keys(props) == Keys(props[..|props| - 1]) + [last.key];
      init + [if last.key == key then Prop(key, v) else last]
  }

  /** `{ ...a, ...b }`: the keys of `b` written over a copy of `a`, in order. */
  function Spread(a: seq<Prop>, b: seq<Prop>): (r: seq<Prop>)
    ensures forall k :: Lookup(r, k) == (if Lookup(b, k).Some? then Lookup(b, k) else Lookup(a, k))
  {
    if b == [] then a
    else
      var last := b[|b| - 1];
      Put(Spread(a, b[..|b| - 1]), last.key, last.value)
  }

  /** Property access `v[key]`: own properties first, then the prototype chain; `undefined` when absent. */
  function Get(v: Val, key: string): Val
  {
    if !v.Obj? then Undefined
    else if Lookup(v.props, key).Some? then Lookup(v.props, key).value
    else if v.proto.Some? then Get(v.proto.value, key)
    else Undefined
  }

  /** `Object.prototype`: no enumerable properties, and a null prototype of its own. */
  const ObjectPrototype: Val := Obj([], None)

  /** A plain object literal `{ ... }` with the given properties. */
  function Record(props: seq<Prop>): (r: Val)
    ensures forall k :: Get(r, k) == (if Lookup(props, k).Some? then Lookup(props, k).value else Undefined)
  {
    Obj(props, Some(ObjectPrototype))
  }

  /** An entry whose key does not occur after it is what `Lookup` finds. */
  lemma {:induction false} LookupAt(props: seq<Prop>, i: nat)
    requires i < |props|
    requires forall j | i < j < |props| :: props[j].key != props[i].key
    ensures Lookup(props, props[i].key) == Some(props[i].value)
    decreases |props|
  {
    if i < |props| - 1 {
      LookupAt(props[..|props| - 1], i);
    }
  }

  // ---------------------------------------------------------------------
  // Text

  /**
   * `String(v)`, as string concatenation and `new URL` apply it. An array
   * joins its elements' text with commas, a hole, `undefined` or `null`
   * giving the empty text; a plain object reads `[object Object]`, and a
   * map, set, promise or array buffer its class tag. The text of a
   * built-in instance that depends on its contents (a buffer's bytes, a
   * date, an error's message, a boxed primitive, a typed array) and a
   * function's source are not part of a value here: they read
   * `[object Object]`.
   */
  function StringOf(v: Val): (r: string)
    ensures v.Str? ==> r == v.s
    ensures v.Num? ==> r == IntText(v.n)
    ensures v.Obj? ==> r == "[object Object]"
    ensures v.Opaque? && v.kind == MapObject ==> r == "[object Map]"
    ensures v.Opaque? && v.kind == SetObject ==> r == "[object Set]"
    decreases v, 1
  {
    match v
    case Undefined => "undefined"
    case Null => "null"
    case Bool(b) => if b then "true" else "false"
    case Num(n) => IntText(n)
    case Str(s) => s
    case Arr(slots) => JoinSlots(slots)
    case Opaque(kind, _) => TagText(kind)
    case _ => "[object Object]"
  }

  /** `Object.prototype.toString` of an instance whose text does not depend on its contents. */
  function TagText(kind: OpaqueKind): string {
    match kind
    case MapObject => "[object Map]"
    case SetObject => "[object Set]"
    case PromiseObject => "[object Promise]"
    case ArrayBufferObject => "[object ArrayBuffer]"
    case _ => "[object Object]"
  }

  /** `slots.join(',')`. */
  function JoinSlots(slots: seq<Option<Val>>): string
    decreases slots, 0
  {
    if slots == [] then ""
    else if |slots| == 1 then SlotText(slots[0])
    else SlotText(slots[0]) + "," + JoinSlots(slots[1..])
  }

  /** What `join` writes for one slot. */
  function SlotText(slot: Option<Val>): string
    decreases slot, 2
  {
    if slot.None? || slot.value == Undefined || slot.value == Null then "" else StringOf(slot.value)
  }

  /** The text of each slot, in order. */
  function SlotTexts(slots: seq<Option<Val>>): (r: seq<string>)
    ensures |r| == |slots| && forall i | 0 <= i < |slots| :: r[i] == SlotText(slots[i])
  {
    seq(|slots|, i requires 0 <= i < |slots| => SlotText(slots[i]))
  }

  /** The pieces of `s` between commas: `s.split(',')`. */
  function SplitAtCommas(s: string): (r: seq<string>)
    ensures |r| > 0
  {
    if s == [] then [""]
    else
      var rest := SplitAtCommas(s[1..]);
      if s[0] == ',' then [""] + rest else [[s[0]] + rest[0]] + rest[1..]
  }

  /** A one-element array reads as its element, unless that is `undefined` or `null`. */
  lemma SingletonText(x: Val)
    ensures StringOf(Arr([Some(x)])) == if x == Undefined || x == Null then "" else StringOf(x)
  {
    assert StringOf(Arr([Some(x)])) == JoinSlots([Some(x)]) == SlotText(Some(x));
  }

  lemma {:induction false} SplitNoComma(x: string)
    requires ',' !in x
    ensures SplitAtCommas(x) == [x]
  {
    if x != [] {
      SplitNoComma(x[1..]);
      assert [x[0]] + x[1..] == x;
    }
  }

  lemma {:induction false} SplitAfterComma(a: string, b: string)
    requires ',' !in a
    ensures SplitAtCommas(a + "," + b) == [a] + SplitAtCommas(b)
  {
    var s := a + "," + b;
    if a == [] {
      assert s[0] == ',' && s[1..] == b;
    } else {
      assert s[0] == a[0] && s[1..] == a[1..] + "," + b;
      SplitAfterComma(a[1..], b);
      assert [a[0]] + a[1..] == a;
    }
  }

  /**
   * Splitting an array's text at its commas gives back each element's
   * text, as long as no element's text has a comma of its own.
   */
  lemma {:induction false} JoinSplits(slots: seq<Option<Val>>)
    requires |slots| > 0
    requires forall i | 0 <= i < |slots| :: ',' !in SlotText(slots[i])
    ensures SplitAtCommas(StringOf(Arr(slots))) == SlotTexts(slots)
    decreases |slots|
  {
    if |slots| == 1 {
      SplitNoComma(SlotText(slots[0]));
      assert SlotTexts(slots) == [SlotText(slots[0])];
    } else {
      assert forall i | 0 <= i < |slots| - 1 :: slots[1..][i] == slots[i + 1];
      JoinSplits(slots[1..]);
      SplitAfterComma(SlotText(slots[0]), JoinSlots(slots[1..]));
      assert SlotTexts(slots) == [SlotText(slots[0])] + SlotTexts(slots[1..]);
    }
  }
}

=== FILE: node_values.dfy ===
/**
 * The JavaScript values the local adapter's results are, as the listener
 * hands them to the projection: `fs.Stats` objects, whose `isDirectory`
 * and `isFile` are methods inherited from a prototype, the plain `struct`
 * nodes, and the name list of `readdir`.
 */
module NodeValues {
  import opened Wrappers
  import opened Js
  import opened Disk
  import opened Transform
  import FsLocal

  /** `S_IFDIR` and `S_IFREG`, the file-type bits of a `mode`. */
  const DirectoryType: int := 16384
  const RegularType: int := 32768

  /** `mode & S_IFMT` for a non-negative numeric mode, and 0 for a missing one. */
  function FileTypeBits(mode: Val): int {
    if mode.Num? && mode.n >= 0 then (mode.n / 4096) % 16 * 4096 else 0
  }

  /** The function values of `isDirectory` and `isFile`. */
  const IsDirectoryFn: nat := 0
  const IsFileFn: nat := 1

  /** The prototype that declares the type predicates, by assignment and so enumerable. */
  const StatsBasePrototype: Val :=
    Obj([Prop("isDirectory", Fn(IsDirectoryFn)), Prop("isFile", Fn(IsFileFn))], Some(ObjectPrototype))

  /** `Stats.prototype`, which inherits from the one above. */
  const StatsPrototype: Val := Obj([], Some(StatsBasePrototype))

  /** A `Stats` object for a stat result. */
  function StatsVal(st: Stat): Val {
    Obj([ Prop("mode", Num(if st.isDirectory then DirectoryType else RegularType))
        , Prop("size", Num(st.size))
        , Prop("birthtimeMs", Num(st.birthtimeMs))
        , Prop("birthtime", Opaque(DateObject, st.birthtimeMs))
        ], Some(StatsPrototype))
  }

  /** What the type predicates return when called on `recv`: they test its `mode`. */
  function StatsMethod(fid: nat, recv: Val): Option<Val> {
    if fid == IsDirectoryFn then Some(Bool(FileTypeBits(Get(recv, "mode")) == DirectoryType))
    else if fid == IsFileFn then Some(Bool(FileTypeBits(Get(recv, "mode")) == RegularType))
    else None
  }

  /** Calls of the type predicates behave as Node's do. */
  ghost predicate ImplementsStats(invoke: Invoke) {
    forall recv ::
      invoke(IsDirectoryFn, recv) == StatsMethod(IsDirectoryFn, recv) && invoke(IsFileFn, recv) == StatsMethod(IsFileFn, recv)
  }

  /** Called on the `Stats` object itself, the inherited predicates report the stat's type. */
  lemma StatsMethodsReport(st: Stat)
    ensures Get(StatsVal(st), "isDirectory") == Fn(IsDirectoryFn) && Get(StatsVal(st), "isFile") == Fn(IsFileFn)
    ensures StatsMethod(IsDirectoryFn, StatsVal(st)) == Some(Bool(st.isDirectory))
    ensures StatsMethod(IsFileFn, StatsVal(st)) == Some(Bool(!st.isDirectory))
  {
    var s := StatsVal(st);
    StatsOwnKeys(st);
    PrototypePredicates();
    StatsMode(st);
  }

  /** `Stats.prototype` hands down both type predicates from its own prototype. */
  lemma PrototypePredicates()
    ensures Get(StatsPrototype, "isDirectory") == Fn(IsDirectoryFn) && Get(StatsPrototype, "isFile") == Fn(IsFileFn)
  {
    LookupAt(StatsBasePrototype.props, 0);
    LookupAt(StatsBasePrototype.props, 1);
    assert Get(StatsBasePrototype, "isDirectory") == Fn(IsDirectoryFn);
    assert Get(StatsBasePrototype, "isFile") == Fn(IsFileFn);
  }

  /** The `mode` of a `Stats` object carries the file-type bits of the stat's type. */
  lemma StatsMode(st: Stat)
    ensures Get(StatsVal(st), "mode") == Num(if st.isDirectory then DirectoryType else RegularType)
    ensures FileTypeBits(Get(StatsVal(st), "mode")) == (if st.isDirectory then DirectoryType else RegularType)
  {
    LookupAt(StatsVal(st).props, 0);
    assert FileTypeBits(Num(DirectoryType)) == DirectoryType;
    assert FileTypeBits(Num(RegularType)) == RegularType;
  }

  /** The own keys of a `Stats` object: distinct, with the type predicates only inherited. */
  lemma StatsOwnKeys(st: Stat)
    ensures var s := StatsVal(st);
      && UniqueKeys(s.props)
      && Lookup(s.props, "isDirectory") == None && Lookup(s.props, "isFile") == None
      && Lookup(s.props, "size") == Some(Num(st.size))
      && Lookup(s.props, "birthtime") == Some(Opaque(DateObject, st.birthtimeMs))
  {
    var s := StatsVal(st);
    assert "isDirectory" !in Keys(s.props) && "isFile" !in Keys(s.props);
    LookupAt(s.props, 1);
    LookupAt(s.props, 3);
  }

  /** The own `size` and `birthtime` of a `Stats` object are the stat's. */
  lemma StatsFields(st: Stat)
    ensures Get(StatsVal(st), "size") == Num(st.size)
    ensures Get(StatsVal(st), "birthtime") == Opaque(DateObject, st.birthtimeMs)
  {
    StatsOwnKeys(st);
  }

  /** None of the prototypes involved is a built-in instance. */
  lemma PrototypesProjected()
    ensures !PassesThrough(ObjectPrototype) && !PassesThrough(StatsBasePrototype) && !PassesThrough(StatsPrototype)
  { }

  /** Projecting `Object.prototype` contributes no keys. */
  lemma ObjectPrototypeEmpty(depth: nat, recv: Val, invoke: Invoke)
    ensures OwnEntries(Project(ObjectPrototype, depth, recv, invoke)) == []
  { }

  /** The projected `StatsBase.prototype`: each predicate's answer for the receiver. */
  lemma StatsBaseProjected(s: Val, depth: nat, invoke: Invoke, k: string)
    requires Truthy(s)
    ensures var base := OwnEntries(Project(StatsBasePrototype, depth, s, invoke));
      Lookup(base, k) ==
        if k == "isDirectory" then invoke(IsDirectoryFn, s)
        else if k == "isFile" then invoke(IsFileFn, s)
        else None
  {
    PrototypesProjected();
    ObjectPrototypeEmpty(depth + 1, s, invoke);
    ProjectedKey(StatsBasePrototype, depth, s, invoke, k);
    LookupAt(StatsBasePrototype.props, 0);
    LookupAt(StatsBasePrototype.props, 1);
  }

  /** The projected `Stats.prototype` holds the same keys as the projected base. */
  lemma StatsChainProjected(s: Val, depth: nat, invoke: Invoke, k: string)
    requires Truthy(s)
    ensures var mid := OwnEntries(Project(StatsPrototype, depth, s, invoke));
      Lookup(mid, k) ==
        if k == "isDirectory" then invoke(IsDirectoryFn, s)
        else if k == "isFile" then invoke(IsFileFn, s)
        else None
  {
    PrototypesProjected();
    StatsBaseProjected(s, depth + 1, invoke, k);
    ProjectedKey(StatsPrototype, depth, s, invoke, k);
  }

  /** A data key of an object projected without a receiver, before its prototype is looked into. */
  lemma DataKeyOverProto(s: Val, proto: Val, depth: nat, thisArg: Val, invoke: Invoke, k: string)
    requires s.Obj? && s.proto == Some(proto) && UniqueKeys(s.props) && !PassesThrough(s) && !Truthy(thisArg)
    requires Lookup(s.props, k).Some? ==> Lookup(s.props, k).value.Num? || Lookup(s.props, k).value.Opaque?
    ensures var inherited := OwnEntries(Project(proto, depth + 1, s, invoke));
      Lookup(OwnEntries(Project(s, depth, thisArg, invoke)), k) ==
        if Lookup(inherited, k).Some? then Lookup(inherited, k) else Lookup(s.props, k)
  {
    ProjectedDataKey(s, depth, thisArg, invoke, k);
  }

  /**
   * One key of the projection of an object shaped like a `Stats` object,
   * made without a receiver: the type predicates come from the prototype,
   * called on the object, and the other keys keep their own data.
   */
  lemma StatsShapedKey(s: Val, depth: nat, thisArg: Val, invoke: Invoke, k: string)
    requires s.Obj? && s.proto == Some(StatsPrototype) && UniqueKeys(s.props) && !PassesThrough(s) && !Truthy(thisArg)
    requires Lookup(s.props, k).Some? ==> Lookup(s.props, k).value.Num? || Lookup(s.props, k).value.Opaque?
    requires k == "isDirectory" || k == "isFile" ==> Lookup(s.props, k).None?
    ensures Lookup(OwnEntries(Project(s, depth, thisArg, invoke)), k) ==
      if k == "isDirectory" then invoke(IsDirectoryFn, s)
      else if k == "isFile" then invoke(IsFileFn, s)
      else Lookup(s.props, k)
  {
    DataKeyOverProto(s, StatsPrototype, depth, thisArg, invoke, k);
    StatsChainProjected(s, depth + 1, invoke, k);
  }

  /**
   * The projection of a `Stats` object replaces the inherited predicates
   * by their answers: a peer receives `isDirectory` and `isFile` as plain
   * booleans, next to the own fields.
   */
  lemma StatsProjected(st: Stat, invoke: Invoke)
    requires ImplementsStats(invoke)
    ensures var t := TransformValues(StatsVal(st), invoke);
      && Get(t, "isDirectory") == Bool(st.isDirectory)
      && Get(t, "isFile") == Bool(!st.isDirectory)
      && Get(t, "size") == Num(st.size)
      && Get(t, "birthtime") == Opaque(DateObject, st.birthtimeMs)
  {
    var s := StatsVal(st);
    PrototypesProjected();
    assert !PassesThrough(s);
    StatsMethodsReport(st);
    StatsOwnKeys(st);
    StatsShapedKey(s, 0, Null, invoke, "isDirectory");
    StatsShapedKey(s, 0, Null, invoke, "isFile");
    StatsShapedKey(s, 0, Null, invoke, "size");
    StatsShapedKey(s, 0, Null, invoke, "birthtime");
  }

  // ---------------------------------------------------------------------
  // struct and readdir results

  /** A `FileLike` or `DirLike` node as the object literal `struct` builds. */
  function EntryVal(e: FsLocal.Entry): Val
    decreases e, 1
  {
    match e
    case FileLike(name) => Record([Prop("name", Str(name)), Prop("isDirectory", Bool(false))])
    case DirLike(name, files) =>
      Record([Prop("name", Str(name)), Prop("isDirectory", Bool(true)), Prop("files", EntriesVal(files))])
  }

  /** The array `Promise.all` resolves with. */
  function EntriesVal(es: seq<FsLocal.Entry>): (r: Val)
    ensures r.Arr? && |r.slots| == |es|
    ensures forall i | 0 <= i < |es| :: r.slots[i] == Some(EntryVal(es[i]))
    decreases es, 0
  {
    if es == [] then Arr([])
    else Arr([Some(EntryVal(es[0]))] + EntriesVal(es[1..]).slots)
  }

  /** `opts.withFileTypes` of a `readdir` options argument. */
  predicate WithFileTypes(opts: Val) {
    Truthy(Get(opts, "withFileTypes"))
  }

  /**
   * `readdir` without file types: the entry names. With file types, the
   * `Dirent` objects, whose type predicates are class methods and so not
   * enumerable.
   */
  function ReaddirVal(entries: seq<Dirent>, withFileTypes: bool): (r: Val)
    ensures r.Arr? && |r.slots| == |entries|
    ensures forall i | 0 <= i < |entries| ::
      (r.slots[i].Some? && (withFileTypes ==> Get(r.slots[i].value, "name") == Str(entries[i].name)))
  {
    Arr(seq(|entries|, i requires 0 <= i < |entries| =>
      Some(if withFileTypes then Obj([Prop("name", Str(entries[i].name))], Some(DirentPrototype))
           else Str(entries[i].name))))
  }

  /** `Dirent.prototype`: its methods are not enumerable, so the projection sees no keys. */
  const DirentPrototype: Val := Obj([], Some(ObjectPrototype))

  /** `struct` results are plain data: their projection is themselves. */
  lemma {:induction false} EntriesPlain(es: seq<FsLocal.Entry>)
    ensures PlainData(EntriesVal(es))
    decreases es, 0
  {
    var v := EntriesVal(es);
    forall i | 0 <= i < |es|
      ensures PlainSlot(v.slots[i])
    {
      EntryPlain(es[i]);
    }
  }

  lemma {:induction false} EntryPlain(e: FsLocal.Entry)
    ensures PlainData(EntryVal(e))
    decreases e, 1
  {
    if e.DirLike? {
      EntriesPlain(e.files);
    }
  }

  /** The name list of `readdir` is plain data. */
  lemma NamesPlain(entries: seq<Dirent>)
    ensures PlainData(ReaddirVal(entries, false))
  { }
}

=== FILE: posix_path.dfy ===
/**
 * Node's lexical POSIX path functions (`path.normalize`, `path.join`,
 * `path.basename`), which every adapter of the system uses to resolve
 * caller-supplied paths. A path string is read as its '/'-separated
 * pieces; normalisation folds the pieces onto a stack of segments.
 */
module PosixPath {

  /** The pieces of `s` between '/' characters, as `s.split('/')` returns them. */
  function Split(s: string): (r: seq<string>)
    ensures |r| >= 1
    ensures forall k | 0 <= k < |r| :: '/' !in r[k]
    decreases |s|
  {
    if s == [] then [[]]
    else if s[0] == '/' then [[]] + Split(s[1..])
    else
      var t := Split(s[1..]);
      [[s[0]] + t[0]] + t[1..]
  }

  /** `segs.join('/')` */
  function JoinSegments(segs: seq<string>): (r: string)
    ensures |segs| >= 1 ==> |r| >= |segs[0]|
  {
    if segs == [] then ""
    else if |segs| == 1 then segs[0]
    else segs[0] + "/" + JoinSegments(segs[1..])
  }

  predicate IsAbsolute(s: string) {
    |s| > 0 && s[0] == '/'
  }

  predicate EndsWithSep(s: string) {
    |s| > 0 && s[|s| - 1] == '/'
  }

  /** A segment that normalisation keeps as a directory or file name. */
  predicate IsName(x: string) {
    x != "" && x != "." && x != ".." && '/' !in x
  }

  /**
   * The shape of a normalised segment stack: names, possibly preceded by
   * ".." segments when the path is relative (`aboveRoot`).
   */
  predicate ValidStack(st: seq<string>, aboveRoot: bool) {
    && (forall i | 0 <= i < |st| :: IsName(st[i]) || (aboveRoot && st[i] == ".."))
    && (forall i, j | 0 <= i < j < |st| :: st[j] == ".." ==> st[i] == "..")
  }

  /**
   * One piece of `normalizeString`: empty pieces and "." vanish, ".." pops a
   * name, or is kept when nothing can be popped and the path is relative.
   */
  function Step(st: seq<string>, piece: string, aboveRoot: bool): seq<string>
  {
    if piece == "" || piece == "." then st
    else if piece == ".." then
      if |st| > 0 && st[|st| - 1] != ".." then st[..|st| - 1]
      else if aboveRoot then st + [".."]
      else st
    else st + [piece]
  }

  function ReduceFrom(st: seq<string>, pieces: seq<string>, aboveRoot: bool): seq<string>
    decreases |pieces|
  {
    if pieces == [] then st
    else ReduceFrom(Step(st, pieces[0], aboveRoot), pieces[1..], aboveRoot)
  }

  /** The normalised segments of `s`; ".." may survive only when `s` is relative. */
  function Segments(s: string): seq<string>
  {
    ReduceFrom([], Split(s), !IsAbsolute(s))
  }

  /** The segments `s` normalises to when it is read as a relative path. */
  function RelativeSegments(s: string): seq<string>
  {
    ReduceFrom([], Split(s), true)
  }

  /** How `path.normalize` prints a segment stack. */
  function Render(absolute: bool, segs: seq<string>, trailing: bool): string
  {
    if segs == [] then (if absolute then "/" else if trailing then "./" else ".")
    else (if absolute then "/" else "") + JoinSegments(segs) + (if trailing then "/" else "")
  }

  /** `path.normalize(s)` for the POSIX separator. */
  function Normalize(s: string): (r: string)
    ensures r != ""
  {
    if s == [] then "."
    else
      SegmentsValid(s);
      Render(IsAbsolute(s), Segments(s), EndsWithSep(s))
  }

  /** `path.join(a, b)`: empty arguments are skipped, the rest joined by '/' and normalised. */
  function JoinPaths(a: string, b: string): (r: string)
    ensures r != ""
  {
    if a == [] && b == [] then "."
    else if a == [] then Normalize(b)
    else if b == [] then Normalize(a)
    else Normalize(a + "/" + b)
  }

  function LastNonEmpty(pieces: seq<string>): string
  {
    if pieces == [] then ""
    else if pieces[|pieces| - 1] != "" then pieces[|pieces| - 1]
    else LastNonEmpty(pieces[..|pieces| - 1])
  }

  /** `path.basename(s)`: the last non-empty piece, or "" when there is none. */
  function Basename(s: string): (r: string)
    ensures '/' !in r
  {
    LastNonEmptyIsPiece(Split(s));
    LastNonEmpty(Split(s))
  }

  lemma {:induction false} LastNonEmptyIsPiece(pieces: seq<string>)
    requires forall k | 0 <= k < |pieces| :: '/' !in pieces[k]
    ensures '/' !in LastNonEmpty(pieces)
    ensures LastNonEmpty(pieces) == "" || LastNonEmpty(pieces) in pieces
  {
    if pieces != [] && pieces[|pieces| - 1] == "" {
      LastNonEmptyIsPiece(pieces[..|pieces| - 1]);
    }
  }

  // ---------------------------------------------------------------------
  // Splitting and joining

  lemma {:induction false} SplitNoSep(x: string)
    requires '/' !in x
    ensures Split(x) == [x]
    decreases |x|
  {
    if x != [] {
      SplitNoSep(x[1..]);
      assert [x[0]] + x[1..] == x;
    }
  }

  /** Splitting distributes over a '/' between two strings. */
  lemma {:induction false} SplitConcat(a: string, b: string)
    ensures Split(a + "/" + b) == Split(a) + Split(b)
    decreases |a|
  {
    var s := a + "/" + b;
    if a == [] {
      assert s[0] == '/' && s[1..] == b;
    } else {
      assert s[0] == a[0];
      assert s[1..] == a[1..] + "/" + b;
      SplitConcat(a[1..], b);
    }
  }

  lemma {:induction false} SplitJoin(segs: seq<string>)
    requires |segs| >= 1
    requires forall k | 0 <= k < |segs| :: '/' !in segs[k]
    ensures Split(JoinSegments(segs)) == segs
    decreases |segs|
  {
    if |segs| == 1 {
      SplitNoSep(segs[0]);
    } else {
      SplitConcat(segs[0], JoinSegments(segs[1..]));
      SplitNoSep(segs[0]);
      SplitJoin(segs[1..]);
    }
  }

  /** The pieces of a rendered, non-empty stack: the stack, framed by the empty pieces of the separators. */
  lemma SplitRender(absolute: bool, segs: seq<string>, trailing: bool)
    requires |segs| >= 1
    requires forall k | 0 <= k < |segs| :: '/' !in segs[k]
    ensures Split(Render(absolute, segs, trailing))
         == (if absolute then [""] else []) + segs + (if trailing then [""] else [])
  {
    var j := JoinSegments(segs);
    var body := j + (if trailing then "/" else "");
    assert Split(body) == segs + (if trailing then [""] else []) by {
      SplitJoin(segs);
      if trailing {
        SplitConcat(j, "");
        assert body == j + "/" + "";
      } else {
        assert body == j;
      }
    }
    var r := Render(absolute, segs, trailing);
    if absolute {
      assert r == "/" + body;
      assert r[0] == '/' && r[1..] == body;
    } else {
      assert r == body;
    }
  }

  lemma SplitOfEmptyRenders()
    ensures Split("/") == ["", ""]
    ensures Split("./") == [".", ""]
    ensures Split(".") == ["."]
    ensures Split("") == [""]
  {
    SplitConcat("", "");
    assert "" + "/" + "" == "/";
    SplitConcat(".", "");
    assert "." + "/" + "" == "./";
    SplitNoSep(".");
  }

  // ---------------------------------------------------------------------
  // Folding pieces onto the segment stack

  lemma {:induction false} ReduceAppend(st: seq<string>, a: seq<string>, b: seq<string>, aboveRoot: bool)
    ensures ReduceFrom(st, a + b, aboveRoot) == ReduceFrom(ReduceFrom(st, a, aboveRoot), b, aboveRoot)
    decreases |a|
  {
    if a == [] {
      assert a + b == b;
    } else {
      var ab := a + b;
      assert ab != [] && ab[0] == a[0];
      assert ab[1..] == a[1..] + b;
      ReduceAppend(Step(st, a[0], aboveRoot), a[1..], b, aboveRoot);
      assert ReduceFrom(st, ab, aboveRoot) == ReduceFrom(Step(st, a[0], aboveRoot), a[1..] + b, aboveRoot);
    }
  }

  /** Pieces that are already a valid continuation of the stack are pushed unchanged. */
  lemma {:induction false} ReduceValid(st: seq<string>, xs: seq<string>, aboveRoot: bool)
    requires ValidStack(st + xs, aboveRoot)
    ensures ReduceFrom(st, xs, aboveRoot) == st + xs
    decreases |xs|
  {
    if xs != [] {
      var all := st + xs;
      assert all[|st|] == xs[0];
      if xs[0] == ".." {
        assert forall i | 0 <= i < |st| :: st[i] == all[i] && all[i] == "..";
      }
      assert Step(st, xs[0], aboveRoot) == st + [xs[0]];
      assert st + [xs[0]] + xs[1..] == all;
      ReduceValid(st + [xs[0]], xs[1..], aboveRoot);
    }
  }

  /** Pieces that are empty, "." or names push exactly the names. */
  lemma {:induction false} ReduceNames(st: seq<string>, xs: seq<string>, aboveRoot: bool)
    requires forall k | 0 <= k < |xs| :: xs[k] == "" || xs[k] == "." || IsName(xs[k])
    ensures ReduceFrom(st, xs, aboveRoot) == st + Filtered(xs)
    decreases |xs|
  {
    if xs != [] {
      ReduceNames(Step(st, xs[0], aboveRoot), xs[1..], aboveRoot);
      assert xs == [xs[0]] + xs[1..];
    }
  }

  /** The names among `xs`, in order. */
  function Filtered(xs: seq<string>): seq<string>
  {
    if xs == [] then []
    else if xs[0] == "" || xs[0] == "." then Filtered(xs[1..])
    else [xs[0]] + Filtered(xs[1..])
  }

  lemma {:induction false} StepValid(st: seq<string>, piece: string, aboveRoot: bool)
    requires ValidStack(st, aboveRoot)
    requires '/' !in piece
    ensures ValidStack(Step(st, piece, aboveRoot), aboveRoot)
  { }

  lemma {:induction false} ReduceValidStack(st: seq<string>, pieces: seq<string>, aboveRoot: bool)
    requires ValidStack(st, aboveRoot)
    requires forall k | 0 <= k < |pieces| :: '/' !in pieces[k]
    ensures ValidStack(ReduceFrom(st, pieces, aboveRoot), aboveRoot)
    decreases |pieces|
  {
    if pieces != [] {
      StepValid(st, pieces[0], aboveRoot);
      ReduceValidStack(Step(st, pieces[0], aboveRoot), pieces[1..], aboveRoot);
    }
  }

  lemma SegmentsValid(s: string)
    ensures ValidStack(Segments(s), !IsAbsolute(s))
    ensures ValidStack(RelativeSegments(s), true)
  {
    ReduceValidStack([], Split(s), !IsAbsolute(s));
    ReduceValidStack([], Split(s), true);
  }

  /** Once a ".." is on a relative stack, no later piece removes it. */
  lemma {:induction false} DotDotPersists(st: seq<string>, pieces: seq<string>)
    requires ".." in st
    ensures ".." in ReduceFrom(st, pieces, true)
    decreases |pieces|
  {
    if pieces != [] {
      var next := Step(st, pieces[0], true);
      if pieces[0] == ".." && |st| > 0 && st[|st| - 1] != ".." {
        var i :| 0 <= i < |st| && st[i] == "..";
        assert next[i] == "..";
      }
      DotDotPersists(next, pieces[1..]);
    }
  }

  /** When a relative reading keeps no "..", reading the pieces as absolute gives the same stack. */
  lemma {:induction false} AboveRootIrrelevant(st: seq<string>, pieces: seq<string>)
    requires ".." !in st
    requires ".." !in ReduceFrom(st, pieces, true)
    ensures ReduceFrom(st, pieces, false) == ReduceFrom(st, pieces, true)
    decreases |pieces|
  {
    if pieces != [] {
      var x := pieces[0];
      if x == ".." && st == [] {
        assert Step(st, x, true) == [".."];
        DotDotPersists([".."], pieces[1..]);
        assert false;
      }
      assert Step(st, x, false) == Step(st, x, true);
      var next := Step(st, x, true);
      if x == ".." {
        assert next == st[..|st| - 1];
        assert forall i | 0 <= i < |next| :: next[i] == st[i];
      }
      assert ".." !in next;
      AboveRootIrrelevant(next, pieces[1..]);
    }
  }

  // ---------------------------------------------------------------------
  // Normalisation

  lemma RenderShape(absolute: bool, segs: seq<string>, trailing: bool)
    requires ValidStack(segs, !absolute)
    ensures IsAbsolute(Render(absolute, segs, trailing)) == absolute
    ensures EndsWithSep(Render(absolute, segs, trailing)) == (trailing || (segs == [] && absolute))
  {
    var r := Render(absolute, segs, trailing);
    if segs != [] {
      var j := JoinSegments(segs);
      JoinSegmentsEnds(segs);
      assert segs[0] != "" && '/' !in segs[0];
      if !absolute {
        assert r[0] == j[0];
      }
      if !trailing {
        assert r[|r| - 1] == j[|j| - 1];
      }
    }
  }

  lemma {:induction false} JoinSegmentsEnds(segs: seq<string>)
    requires |segs| >= 1
    requires forall k | 0 <= k < |segs| :: segs[k] != ""
    ensures |JoinSegments(segs)| > 0
    ensures JoinSegments(segs)[0] == segs[0][0]
    ensures JoinSegments(segs)[|JoinSegments(segs)| - 1] == segs[|segs| - 1][|segs[|segs| - 1]| - 1]
    decreases |segs|
  {
    if |segs| > 1 {
      JoinSegmentsEnds(segs[1..]);
    }
  }

  /** A valid stack, rendered and read back, gives the same stack. */
  lemma SegmentsOfRender(absolute: bool, segs: seq<string>, trailing: bool)
    requires ValidStack(segs, !absolute)
    ensures Segments(Render(absolute, segs, trailing)) == segs
  {
    RenderShape(absolute, segs, trailing);
    var r := Render(absolute, segs, trailing);
    if segs == [] {
      SplitOfEmptyRenders();
    } else {
      SplitRender(absolute, segs, trailing);
      var pre := if absolute then [""] else [];
      var post := if trailing then [""] else [];
      ReduceAppend([], pre + segs, post, !absolute);
      ReduceAppend([], pre, segs, !absolute);
      assert ReduceFrom([], pre, !absolute) == [];
      ReduceValid([], segs, !absolute);
      assert [] + segs == segs;
      assert ReduceFrom(segs, post, !absolute) == segs;
    }
  }

  /** Normalising does not change the segments a path denotes. */
  lemma NormalizeSegments(s: string)
    ensures Segments(Normalize(s)) == Segments(s)
    ensures s != "" ==> IsAbsolute(Normalize(s)) == IsAbsolute(s)
  {
    if s == [] {
      SplitOfEmptyRenders();
    } else {
      SegmentsValid(s);
      SegmentsOfRender(IsAbsolute(s), Segments(s), EndsWithSep(s));
      RenderShape(IsAbsolute(s), Segments(s), EndsWithSep(s));
    }
  }

  /** `path.normalize` is idempotent. */
  lemma NormalizeIdempotent(s: string)
    ensures Normalize(Normalize(s)) == Normalize(s)
  {
    var r := Normalize(s);
    NormalizeSegments(s);
    if s == [] {
      SplitOfEmptyRenders();
    } else {
      SegmentsValid(s);
      RenderShape(IsAbsolute(s), Segments(s), EndsWithSep(s));
    }
  }

  /** The segments of `a/b` are those of `a` continued by the pieces of `b`. */
  lemma SegmentsOfConcat(a: string, b: string)
    requires a != ""
    ensures Segments(a + "/" + b) == ReduceFrom(Segments(a), Split(b), !IsAbsolute(a))
    ensures IsAbsolute(a + "/" + b) == IsAbsolute(a)
  {
    SplitConcat(a, b);
    assert (a + "/" + b)[0] == a[0];
    ReduceAppend([], Split(a), Split(b), !IsAbsolute(a));
  }

  /**
   * Reading a rendered stack of names on top of another stack pushes
   * exactly those names.
   */
  lemma ReduceRendered(st: seq<string>, absolute: bool, names: seq<string>, trailing: bool, aboveRoot: bool)
    requires forall k | 0 <= k < |names| :: IsName(names[k])
    ensures ReduceFrom(st, Split(Render(absolute, names, trailing)), aboveRoot) == st + names
  {
    if names == [] {
      SplitOfEmptyRenders();
      assert st + names == st;
    } else {
      SplitRender(absolute, names, trailing);
      var pieces := (if absolute then [""] else []) + names + (if trailing then [""] else []);
      ReduceNames(st, pieces, aboveRoot);
      FilteredFrame(absolute, names, trailing);
    }
  }

  lemma FilteredFrame(absolute: bool, names: seq<string>, trailing: bool)
    requires forall k | 0 <= k < |names| :: IsName(names[k])
    ensures Filtered((if absolute then [""] else []) + names + (if trailing then [""] else [])) == names
  {
    var pre := if absolute then [""] else [];
    var post := if trailing then [""] else [];
    FilteredAppend(pre, names + post);
    FilteredAppend(names, post);
    FilteredNames(names);
    assert pre + names + post == pre + (names + post);
  }

  lemma {:induction false} FilteredAppend(a: seq<string>, b: seq<string>)
    ensures Filtered(a + b) == Filtered(a) + Filtered(b)
    decreases |a|
  {
    if a == [] {
      assert a + b == b;
    } else {
      var ab := a + b;
      assert ab != [] && ab[0] == a[0];
      assert ab[1..] == a[1..] + b;
      FilteredAppend(a[1..], b);
    }
  }

  lemma {:induction false} FilteredNames(names: seq<string>)
    requires forall k | 0 <= k < |names| :: IsName(names[k])
    ensures Filtered(names) == names
    decreases |names|
  {
    if names != [] {
      FilteredNames(names[1..]);
    }
  }

  /** A single name reads as itself: one segment, already normal. */
  lemma NameSegments(name: string)
    requires IsName(name)
    ensures Split(name) == [name]
    ensures Segments(name) == [name] && RelativeSegments(name) == [name]
    ensures Normalize(name) == name
  {
    SplitNoSep(name);
    assert name[0] != '/' && name[|name| - 1] != '/';
    assert ReduceFrom([], [name], true) == [name];
    assert ReduceFrom([], [name], false) == [name];
    assert Render(false, [name], false) == JoinSegments([name]);
  }

  /** `join(path, name)` for a single name adds that name to the segments of `path`. */
  lemma JoinNameSegments(path: string, name: string)
    requires IsName(name)
    ensures Segments(JoinPaths(path, name)) == Segments(path) + [name]
  {
    NameSegments(name);
    if path == [] {
      SplitOfEmptyRenders();
      NormalizeSegments(name);
    } else {
      NormalizeSegments(path + "/" + name);
      SegmentsOfConcat(path, name);
    }
  }

  // ---------------------------------------------------------------------
  // Basename

  /** The basename of `dir/name` is `name`, whatever `dir` is. */
  lemma BasenameOfJoin(dir: string, name: string)
    requires name != "" && '/' !in name
    ensures Basename(dir + "/" + name) == name
  {
    SplitConcat(dir, name);
    SplitNoSep(name);
    assert Split(dir + "/" + name) == Split(dir) + [name];
  }

  /** A basename is a single segment: reading it back as a basename gives itself. */
  lemma BasenameIdempotent(s: string)
    ensures Basename(Basename(s)) == Basename(s)
  {
    var b := Basename(s);
    SplitNoSep(b);
  }
}

=== FILE: sandbox.dfy ===
/**
 * The path sandbox of src/util/path.js and the adapters' `path()` method:
 * `isup` runs the pattern `(?:^|[\\/])\.\.(?:[\\/]|$)` over the normalised
 * form of `'./' + p`, and an accepted path is resolved as
 * `join(root, normalize(p))`.
 */
module Sandbox {
  import opened PosixPath

  /** Both separators of the pattern's character class `[\\/]`. */
  predicate IsBoundary(c: char) {
    c == '/' || c == '\\'
  }

  /** The pattern matches with its `..` at index `i` of `s`. */
  predicate MatchesAt(s: string, i: int) {
    && 0 <= i && i + 2 <= |s|
    && s[i] == '.' && s[i + 1] == '.'
    && (i == 0 || IsBoundary(s[i - 1]))
    && (i + 2 == |s| || IsBoundary(s[i + 2]))
  }

  /** `UP_PATH_REGEXP.test(s)` */
  predicate UpPattern(s: string) {
    exists i | 0 <= i < |s| :: MatchesAt(s, i)
  }

  /** `isup(p)`: the pattern tested on `normalize('./' + p)`, never on `p` itself. */
  predicate IsUp(p: string) {
    UpPattern(Normalize("./" + p))
  }

  /** Some segment of `segs`, read on its own, matches the pattern. */
  predicate AnyUp(segs: seq<string>) {
    exists k | 0 <= k < |segs| :: UpPattern(segs[k])
  }

  /** `join(root, normalize(p))`, what `path(p)` returns once `isup(p)` is false. */
  function Resolve(root: string, p: string): string
  {
    JoinPaths(root, Normalize(p))
  }

  // ---------------------------------------------------------------------
  // The pattern over '/'-separated strings

  /**
   * A '/' is a boundary and never a '.', so no match straddles it: the
   * pattern matches `x/y` exactly when it matches `x` or `y`.
   */
  lemma UpPatternAroundSep(x: string, y: string)
    ensures UpPattern(x + "/" + y) <==> UpPattern(x) || UpPattern(y)
  {
    var s := x + "/" + y;
    assert s[|x|] == '/';
    if UpPattern(s) {
      var i :| 0 <= i < |s| && MatchesAt(s, i);
      if i + 2 <= |x| {
        assert MatchesAt(x, i);
      } else if i > |x| {
        var j := i - |x| - 1;
        assert s[i] == y[j] && s[i + 1] == y[j + 1];
        assert j > 0 ==> s[i - 1] == y[j - 1];
        assert i + 2 < |s| ==> s[i + 2] == y[j + 2];
        assert MatchesAt(y, j);
      } else {
        assert false;
      }
    }
    if UpPattern(x) {
      var i :| 0 <= i < |x| && MatchesAt(x, i);
      assert s[i] == x[i] && s[i + 1] == x[i + 1];
      assert i > 0 ==> s[i - 1] == x[i - 1];
      assert i + 2 < |x| ==> s[i + 2] == x[i + 2];
      assert MatchesAt(s, i);
    }
    if UpPattern(y) {
      var j :| 0 <= j < |y| && MatchesAt(y, j);
      var i := |x| + 1 + j;
      assert s[i] == y[j] && s[i + 1] == y[j + 1];
      assert j > 0 ==> s[i - 1] == y[j - 1];
      assert i + 2 < |s| ==> s[i + 2] == y[j + 2];
      assert MatchesAt(s, i);
    }
  }

  lemma {:induction false} UpPatternOfJoin(segs: seq<string>)
    requires |segs| >= 1
    ensures UpPattern(JoinSegments(segs)) <==> AnyUp(segs)
    decreases |segs|
  {
    if |segs| > 1 {
      var rest := segs[1..];
      UpPatternOfJoin(rest);
      UpPatternAroundSep(segs[0], JoinSegments(rest));
      if AnyUp(rest) {
        var k :| 0 <= k < |rest| && UpPattern(rest[k]);
        assert segs[k + 1] == rest[k];
      }
      if AnyUp(segs) {
        var k :| 0 <= k < |segs| && UpPattern(segs[k]);
        if k > 0 {
          assert rest[k - 1] == segs[k];
        }
      }
    }
  }

  lemma NoMatchInDots()
    ensures !UpPattern("") && !UpPattern(".") && !UpPattern("./")
    ensures UpPattern("..")
  {
    assert MatchesAt("..", 0);
    var s := "./";
    assert s[1] == '/';
  }

  /** The pattern matches a relative rendering exactly when one of its segments does. */
  lemma UpPatternOfRelativeRender(segs: seq<string>, trailing: bool)
    ensures UpPattern(Render(false, segs, trailing)) <==> AnyUp(segs)
  {
    NoMatchInDots();
    if segs != [] {
      var j := JoinSegments(segs);
      UpPatternOfJoin(segs);
      if trailing {
        UpPatternAroundSep(j, "");
        assert Render(false, segs, trailing) == j + "/" + "";
      } else {
        assert Render(false, segs, trailing) == j;
      }
    }
  }

  lemma DotPrefixSegments(p: string)
    ensures Segments("./" + p) == RelativeSegments(p)
    ensures Normalize("./" + p) == Render(false, RelativeSegments(p), EndsWithSep("./" + p))
  {
    var s := "./" + p;
    assert s == "." + "/" + p;
    SplitConcat(".", p);
    SplitOfEmptyRenders();
    assert Split(s) == ["."] + Split(p);
    ReduceAppend([], ["."], Split(p), true);
    assert !IsAbsolute(s);
  }

  /**
   * `isup(p)` holds exactly when some segment of the relative normalisation
   * of `p` matches the pattern on its own; a ".." segment always does.
   */
  lemma IsUpIff(p: string)
    ensures IsUp(p) <==> AnyUp(RelativeSegments(p))
    ensures ".." in RelativeSegments(p) ==> IsUp(p)
  {
    DotPrefixSegments(p);
    UpPatternOfRelativeRender(RelativeSegments(p), EndsWithSep("./" + p));
    NoMatchInDots();
    if ".." in RelativeSegments(p) {
      var k :| 0 <= k < |RelativeSegments(p)| && RelativeSegments(p)[k] == "..";
    }
  }

  /**
   * A segment with no separator of either kind matches the pattern only
   * when it is exactly "..": names like "..foo", "foo.." or "..." pass.
   */
  lemma PlainSegmentUp(x: string)
    requires forall i | 0 <= i < |x| :: !IsBoundary(x[i])
    ensures UpPattern(x) <==> x == ".."
  {
    if x == ".." {
      NoMatchInDots();
    }
    if UpPattern(x) {
      var i :| 0 <= i < |x| && MatchesAt(x, i);
      assert i == 0;
      assert |x| == 2;
      assert x == [x[0], x[1]];
    }
  }

  // ---------------------------------------------------------------------
  // Resolution stays under the root

  /** An accepted path normalises to names only, read as relative or as absolute. */
  lemma AcceptedSegments(p: string)
    requires !IsUp(p)
    ensures Segments(p) == RelativeSegments(p)
    ensures forall k | 0 <= k < |Segments(p)| :: IsName(Segments(p)[k])
  {
    IsUpIff(p);
    SegmentsValid(p);
    if IsAbsolute(p) {
      AboveRootIrrelevant([], Split(p));
    }
  }

  /**
   * Whenever `path(p)` returns, its segments are the segments of the
   * normalised root followed by names taken from `p`: the result lies
   * under the root.
   */
  lemma {:induction false} SandboxHolds(root: string, p: string)
    requires !IsUp(p)
    ensures ".." !in Segments(p)
    ensures Segments(Resolve(root, p)) == Segments(root) + Segments(p)
    ensures Segments(root) <= Segments(Resolve(root, p))
    ensures root != "" ==> IsAbsolute(Resolve(root, p)) == IsAbsolute(root)
  {
    AcceptedSegments(p);
    var np := Normalize(p);
    NormalizeSegments(p);
    SplitOfEmptyRenders();
    if root == [] {
      NormalizeSegments(np);
      assert Segments(root) == [];
    } else {
      var joined := root + "/" + np;
      NormalizeSegments(joined);
      SegmentsOfConcat(root, np);
      if p == [] {
        assert np == ".";
        assert ReduceFrom(Segments(root), Split(np), !IsAbsolute(root)) == Segments(root);
        assert Segments(p) == [];
      } else {
        ReduceRendered(Segments(root), IsAbsolute(p), Segments(p), EndsWithSep(p), !IsAbsolute(root));
      }
    }
  }

  /** A resolved path is already normalised. */
  lemma ResolveNormalized(root: string, p: string)
    ensures Normalize(Resolve(root, p)) == Resolve(root, p)
  {
    var np := Normalize(p);
    if root == [] {
      NormalizeIdempotent(np);
    } else {
      NormalizeIdempotent(root + "/" + np);
    }
  }

  /**
   * A path built from accepted pieces is accepted again: resolving an
   * accepted path against an accepted root gives a path `isup` rejects
   * nowhere, so it can be handed to a second sandbox.
   */
  lemma {:induction false} ResolvedIsAccepted(root: string, p: string)
    requires !IsUp(root) && !IsUp(p)
    ensures !IsUp(Resolve(root, p))
    ensures Segments(Resolve(root, p)) == Segments(root) + Segments(p)
  {
    SandboxHolds(root, p);
    AcceptedSegments(root);
    AcceptedSegments(p);
    var r := Resolve(root, p);
    var segs := Segments(root) + Segments(p);
    assert forall k | 0 <= k < |segs| :: IsName(segs[k]);
    ResolveNormalized(root, p);
    // The resolved path renders `segs`, so reading it as relative gives `segs` back.
    RenderedSegments(r, segs);
    IsUpIff(root);
    IsUpIff(p);
    IsUpIff(r);
    AnyUpConcat(Segments(root), Segments(p));
  }

  /** A segment of `a + b` matches exactly when one of `a` or one of `b` does. */
  lemma AnyUpConcat(a: seq<string>, b: seq<string>)
    ensures AnyUp(a + b) <==> AnyUp(a) || AnyUp(b)
  {
    var ab := a + b;
    if AnyUp(a) {
      var k :| 0 <= k < |a| && UpPattern(a[k]);
      assert ab[k] == a[k];
    }
    if AnyUp(b) {
      var k :| 0 <= k < |b| && UpPattern(b[k]);
      assert ab[|a| + k] == b[k];
    }
    if AnyUp(ab) {
      var k :| 0 <= k < |ab| && UpPattern(ab[k]);
      if k < |a| { assert ab[k] == a[k]; } else { assert ab[k] == b[k - |a|]; }
    }
  }

  /** A normalised path whose segments are names reads the same as relative or absolute. */
  lemma RenderedSegments(r: string, segs: seq<string>)
    requires Normalize(r) == r
    requires Segments(r) == segs
    requires forall k | 0 <= k < |segs| :: IsName(segs[k])
    ensures RelativeSegments(r) == segs
  {
    SegmentsValid(r);
    assert ".." !in segs;
    if IsAbsolute(r) {
      ValidNamesRelative(segs);
      AboveRootIrrelevantBack(r, segs);
    }
  }

  lemma ValidNamesRelative(segs: seq<string>)
    requires forall k | 0 <= k < |segs| :: IsName(segs[k])
    ensures ValidStack(segs, true) && ValidStack(segs, false)
  { }

  /** For an absolute `r` whose absolute reading has no "..", the relative reading agrees. */
  lemma AboveRootIrrelevantBack(r: string, segs: seq<string>)
    requires IsAbsolute(r) && Normalize(r) == r
    requires Segments(r) == segs
    requires forall k | 0 <= k < |segs| :: IsName(segs[k])
    ensures RelativeSegments(r) == segs
  {
    // `r` renders `segs` absolutely, so its pieces are names framed by empty pieces.
    var tr := EndsWithSep(r);
    assert r == Render(true, segs, tr);
    ReduceRendered([], true, segs, tr, true);
  }

  /**
   * Joining a directory entry's name onto an accepted path: the result is
   * up exactly when the name, read on its own, matches the pattern (a name
   * such as `a\\..`), and otherwise it denotes one segment more.
   */
  lemma JoinedNameUp(path: string, name: string)
    requires !IsUp(path) && IsName(name)
    ensures IsUp(JoinPaths(path, name)) <==> UpPattern(name)
    ensures Segments(JoinPaths(path, name)) == Segments(path) + [name]
  {
    var sub := JoinPaths(path, name);
    var segs := Segments(path) + [name];
    JoinNameSegments(path, name);
    AcceptedSegments(path);
    assert Normalize(sub) == sub by {
      if path == [] {
        NormalizeIdempotent(name);
      } else {
        NormalizeIdempotent(path + "/" + name);
      }
    }
    assert forall k | 0 <= k < |segs| :: IsName(segs[k]);
    RenderedSegments(sub, segs);
    IsUpIff(sub);
    IsUpIff(path);
    AnyUpConcat(Segments(path), [name]);
    assert AnyUp([name]) <==> UpPattern(name) by {
      assert [name][0] == name;
    }
  }

  /** Resolving `join(p, name)` lands one segment below resolving `p`. */
  lemma ResolveJoinedName(root: string, p: string, name: string)
    requires !IsUp(p) && IsName(name) && !IsUp(JoinPaths(p, name))
    ensures Segments(Resolve(root, JoinPaths(p, name))) == Segments(Resolve(root, p)) + [name]
  {
    JoinedNameUp(p, name);
    SandboxHolds(root, p);
    SandboxHolds(root, JoinPaths(p, name));
  }

  // ---------------------------------------------------------------------
  // Worked cases

  /** `isup` read off the '/'-separated pieces a path is written with. */
  lemma IsUpOfPieces(p: string, pieces: seq<string>)
    requires |pieces| >= 1 && forall k | 0 <= k < |pieces| :: '/' !in pieces[k]
    requires JoinSegments(pieces) == p
    ensures IsUp(p) <==> AnyUp(ReduceFrom([], pieces, true))
  {
    SplitJoin(pieces);
    IsUpIff(p);
  }

  /** One piece of a reduction. */
  lemma ReduceStep(st: seq<string>, x: string, rest: seq<string>)
    ensures ReduceFrom(st, [x] + rest, true) == ReduceFrom(Step(st, x, true), rest, true)
  { }

  /** A lone segment without separators is up only when it is "..". */
  lemma LoneSegment(x: string)
    requires forall i | 0 <= i < |x| :: !IsBoundary(x[i])
    ensures AnyUp([x]) <==> x == ".."
  {
    PlainSegmentUp(x);
    assert [x][0] == x;
  }

  /** ".." and "../" climb above the start. */
  lemma UpParent()
    ensures IsUp("..") && IsUp("../")
  {
    IsUpOfPieces("..", [".."]);
    assert ReduceFrom([], [".."], true) == [".."];
    assert JoinSegments(["..", ""]) == "../";
    IsUpOfPieces("../", ["..", ""]);
    assert ReduceFrom([], ["..", ""], true) == [".."];
    LoneSegment("..");
  }

  /** `./a/../../b` climbs one level above its start. */
  lemma UpPastStart(a: string, b: string)
    requires IsName(a) && IsName(b)
    ensures IsUp("./" + a + "/../../" + b)
  {
    var ps := [".", a, "..", "..", b];
    PastStartPieces(a, b);
    IsUpOfPieces("./" + a + "/../../" + b, ps);
    PastStartReduces(a, b);
    NoMatchInDots();
    assert ["..", b][0] == "..";
  }

  lemma PastStartPieces(a: string, b: string)
    ensures JoinSegments([".", a, "..", "..", b]) == "./" + a + "/../../" + b
  {
    var ps := [".", a, "..", "..", b];
    assert JoinSegments(ps[4..]) == b;
    assert JoinSegments(ps[3..]) == "../" + b;
    assert JoinSegments(ps[2..]) == "../../" + b;
    assert JoinSegments(ps[1..]) == a + "/../../" + b;
  }

  lemma PastStartReduces(a: string, b: string)
    requires IsName(a) && IsName(b)
    ensures ReduceFrom([], [".", a, "..", "..", b], true) == ["..", b]
  {
    assert [".", a, "..", "..", b] == ["."] + [a, "..", "..", b];
    ReduceStep([], ".", [a, "..", "..", b]);
    assert [a, "..", "..", b] == [a] + ["..", "..", b];
    ReduceStep([], a, ["..", "..", b]);
    assert Step([], a, true) == [a];
    assert ["..", "..", b] == [".."] + ["..", b];
    ReduceStep([a], "..", ["..", b]);
    assert Step([a], "..", true) == [];
    assert ["..", b] == [".."] + [b];
    ReduceStep([], "..", [b]);
    assert Step([], "..", true) == [".."];
    ReduceStep([".."], b, []);
    assert Step([".."], b, true) == ["..", b];
  }

  /** `../a/../b`: the ".." inside cancels `a`, the leading one stays. */
  lemma UpAfterCancel(a: string, b: string)
    requires IsName(a) && IsName(b)
    ensures IsUp("../" + a + "/../" + b)
  {
    var ps := ["..", a, "..", b];
    assert JoinSegments(ps) == "../" + a + "/../" + b by {
      assert JoinSegments(ps[3..]) == b;
      assert JoinSegments(ps[2..]) == "../" + b;
      assert JoinSegments(ps[1..]) == a + "/../" + b;
    }
    IsUpOfPieces("../" + a + "/../" + b, ps);
    AfterCancelReduces(a, b);
    NoMatchInDots();
    assert ["..", b][0] == "..";
  }

  lemma AfterCancelReduces(a: string, b: string)
    requires IsName(a) && IsName(b)
    ensures ReduceFrom([], ["..", a, "..", b], true) == ["..", b]
  {
    assert ["..", a, "..", b] == [".."] + [a, "..", b];
    ReduceStep([], "..", [a, "..", b]);
    assert Step([], "..", true) == [".."];
    assert [a, "..", b] == [a] + ["..", b];
    ReduceStep([".."], a, ["..", b]);
    assert Step([".."], a, true) == ["..", a];
    assert ["..", b] == [".."] + [b];
    ReduceStep(["..", a], "..", [b]);
    assert Step(["..", a], "..", true) == [".."];
    ReduceStep([".."], b, []);
    assert Step([".."], b, true) == ["..", b];
  }

  /** `./a` for a name `a` without separators is safe. */
  lemma NotUpName(a: string)
    requires IsName(a) && forall i | 0 <= i < |a| :: !IsBoundary(a[i])
    ensures !IsUp("./" + a)
  {
    var ps := [".", a];
    assert JoinSegments(ps) == "./" + a by {
      assert JoinSegments(ps[1..]) == a;
    }
    IsUpOfPieces("./" + a, ps);
    assert ReduceFrom([], ps, true) == [a] by {
      assert ps == ["."] + [a];
      ReduceStep([], ".", [a]);
      ReduceStep([], a, []);
      assert Step([], a, true) == [a];
    }
    LoneSegment(a);
  }

  /** `./a/../` cancels back to the start, which is safe. */
  lemma NotUpCancelled(a: string)
    requires IsName(a)
    ensures !IsUp("./" + a + "/../")
  {
    var ps := [".", a, "..", ""];
    assert JoinSegments(ps) == "./" + a + "/../" by {
      assert JoinSegments(ps[3..]) == "";
      assert JoinSegments(ps[2..]) == "../";
      assert JoinSegments(ps[1..]) == a + "/../";
    }
    IsUpOfPieces("./" + a + "/../", ps);
    CancelledReduces(a);
  }

  lemma CancelledReduces(a: string)
    requires IsName(a)
    ensures ReduceFrom([], [".", a, "..", ""], true) == []
  {
    assert [".", a, "..", ""] == ["."] + [a, "..", ""];
    ReduceStep([], ".", [a, "..", ""]);
    assert [a, "..", ""] == [a] + ["..", ""];
    ReduceStep([], a, ["..", ""]);
    assert Step([], a, true) == [a];
    assert ["..", ""] == [".."] + [""];
    ReduceStep([a], "..", [""]);
    assert Step([a], "..", true) == [];
    ReduceStep([], "", []);
  }

  lemma NotUpCurrent()
    ensures !IsUp("./")
  {
    assert JoinSegments([".", ""]) == "./";
    IsUpOfPieces("./", [".", ""]);
    assert ReduceFrom([], [".", ""], true) == [];
  }

  /**
   * Because of the "./" prefix a leading '/' does not anchor the path:
   * `/a` is safe for a name `a`, while `/..` is up.
   */
  lemma Unanchored(a: string)
    requires IsName(a) && forall i | 0 <= i < |a| :: !IsBoundary(a[i])
    ensures !IsUp("/" + a) && IsUp("/..")
  {
    var ps := ["", a];
    assert JoinSegments(ps) == "/" + a by {
      assert JoinSegments(ps[1..]) == a;
    }
    IsUpOfPieces("/" + a, ps);
    assert ReduceFrom([], ps, true) == [a] by {
      assert ps == [""] + [a];
      ReduceStep([], "", [a]);
      ReduceStep([], a, []);
      assert Step([], a, true) == [a];
    }
    LoneSegment(a);
    var qs := ["", ".."];
    assert JoinSegments(qs) == "/.." by {
      assert JoinSegments(qs[1..]) == "..";
    }
    IsUpOfPieces("/..", qs);
    assert ReduceFrom([], qs, true) == [".."];
    LoneSegment("..");
  }

  /** A name that only starts or ends with dots, like "..foo", "foo.." or "...", is safe. */
  lemma DottedName(x: string)
    requires IsName(x) && forall i | 0 <= i < |x| :: !IsBoundary(x[i])
    ensures !IsUp(x)
  {
    IsUpOfPieces(x, [x]);
    assert ReduceFrom([], [x], true) == [x];
    LoneSegment(x);
  }
}

=== FILE: transform.dfy ===
/**
 * `transformFunctionValuesToReturnValues` of src/util/tranform.js: the
 * projection every io-static reply passes its result through. Own
 * function-valued keys become the values those functions return, nested
 * composites are projected down to a fixed depth, and the projection of
 * an object's prototype is spread over the projected own keys.
 */
module Transform {
  import opened Wrappers
  import opened Js

  /** `transformFunctionValuesToReturnValues.MAX_DEPTH` */
  const MaxDepth: nat := 4

  /** JavaScript `typeof`. */
  function TypeOf(v: Val): string {
    match v
    case Undefined => "undefined"
    case Bool(_) => "boolean"
    case Num(_) => "number"
    case Str(_) => "string"
    case Fn(_) => "function"
    case _ => "object"
  }

  /**
   * `v instanceof C` for one of the listed built-in classes: `v` is such an
   * instance, or one is found on its prototype chain.
   */
  predicate InstanceOfBuiltin(v: Val) {
    v.Opaque? || (v.Obj? && v.proto.Some? && InstanceOfBuiltin(v.proto.value))
  }

  /** The guard at the top of the projection: such a value is returned as it is. */
  predicate PassesThrough(v: Val) {
    InstanceOfBuiltin(v) || !Truthy(v) || TypeOf(v) != "object"
  }

  /** `thisArg || target`: the receiver for the calls made at this level and below. */
  function Receiver(thisArg: Val, target: Val): (r: Val)
    ensures Truthy(target) ==> Truthy(r)
  {
    if Truthy(thisArg) then thisArg else target
  }

  /** The keys `{ ...v }` copies: the own properties of an object, and nothing of other values. */
  function OwnEntries(v: Val): seq<Prop> {
    if v.Obj? then v.props else []
  }

  /** The projection applied to a reply payload: depth 0 and no receiver yet. */
  function TransformValues(v: Val, invoke: Invoke): Val {
    Project(v, 0, Null, invoke)
  }

  function Project(target: Val, depth: nat, thisArg: Val, invoke: Invoke): (r: Val)
    ensures PassesThrough(target) ==> r == target
    ensures !PassesThrough(target) ==> (r.Arr? <==> target.Arr?) && (r.Obj? <==> target.Obj?)
    decreases target, 0
  {
    if PassesThrough(target) then target
    else
      var recv := Receiver(thisArg, target);
      if target.Arr? then
        Arr(TrimHoles(ProjectSlots(target.slots, depth, recv, invoke)))
      else
        var res := ProjectProps(target.props, depth, recv, invoke);
        if target.proto.None? then Record(res)
        else Record(Spread(res, OwnEntries(Project(target.proto.value, depth + 1, recv, invoke))))
  }

  /**
   * What one key of the projection holds: `None` when the key is left
   * out because calling its function threw.
   */
  function ProjectValue(v: Val, depth: nat, recv: Val, invoke: Invoke): (r: Option<Val>)
    ensures !v.Fn? ==> r.Some?
    ensures v.Fn? ==> r == invoke(v.fid, recv)
    ensures !v.Fn? && (depth >= MaxDepth || TypeOf(v) != "object") ==> r == Some(v)
    decreases v, 1
  {
    if v.Fn? then invoke(v.fid, recv)
    else if TypeOf(v) == "object" && depth < MaxDepth then Some(Project(v, depth + 1, recv, invoke))
    else Some(v)
  }

  /** The `reduce` over `Object.keys(target)` into a fresh `{}`, in key order. */
  function ProjectProps(props: seq<Prop>, depth: nat, recv: Val, invoke: Invoke): (r: seq<Prop>)
    ensures forall k | k in Keys(r) :: k in Keys(props)
    decreases props, 0
  {
    if props == [] then []
    else
      var acc := ProjectProps(props[..|props| - 1], depth, recv, invoke);
      var last := props[|props| - 1];
      assert Keys(props) == Keys(props[..|props| - 1]) + [last.key];
      match ProjectValue(last.value, depth, recv, invoke)
      case Some(x) => Put(acc, last.key, x)
      case None => acc
  }

  /** The same `reduce` over the indices of an array into a fresh `[]`, before its length is settled. */
  function ProjectSlots(slots: seq<Option<Val>>, depth: nat, recv: Val, invoke: Invoke): (r: seq<Option<Val>>)
    ensures |r| == |slots|
    ensures forall i | 0 <= i < |slots| :: r[i] == ProjectSlot(slots[i], depth, recv, invoke)
    decreases slots, 0
  {
    if slots == [] then []
    else ProjectSlots(slots[..|slots| - 1], depth, recv, invoke) + [ProjectSlot(slots[|slots| - 1], depth, recv, invoke)]
  }

  /** One slot of an array: a hole stays a hole. */
  function ProjectSlot(slot: Option<Val>, depth: nat, recv: Val, invoke: Invoke): (r: Option<Val>)
    ensures slot.None? ==> r.None?
    decreases slot, 2
  {
    if slot.Some? then ProjectValue(slot.value, depth, recv, invoke) else None
  }

  /**
   * The length of an array that was only written by index: up to and
   * including its last filled slot.
   */
  function TrimHoles(s: seq<Option<Val>>): (r: seq<Option<Val>>)
    ensures r <= s
    ensures r == [] || r[|r| - 1].Some?
    ensures forall i | |r| <= i < |s| :: s[i].None?
  {
    if s == [] || s[|s| - 1].Some? then s else TrimHoles(s[..|s| - 1])
  }

  // ---------------------------------------------------------------------
  // What the projection keeps

  /** The last key of a list with distinct keys does not occur before it. */
  lemma LastKeyFresh(props: seq<Prop>)
    requires props != [] && UniqueKeys(props)
    ensures UniqueKeys(props[..|props| - 1])
    ensures props[|props| - 1].key !in Keys(props[..|props| - 1])
  { }

  /**
   * With distinct keys, each key of the projected own properties holds the
   * projection of the key's value, and a key whose function threw is absent.
   */
  lemma {:induction false} ProjectPropsLookup(props: seq<Prop>, depth: nat, recv: Val, invoke: Invoke)
    requires UniqueKeys(props)
    ensures forall k :: (Lookup(ProjectProps(props, depth, recv, invoke), k) ==
      if Lookup(props, k).Some? then ProjectValue(Lookup(props, k).value, depth, recv, invoke) else None)
    decreases |props|
  {
    if props != [] {
      var init := props[..|props| - 1];
      var last := props[|props| - 1];
      LastKeyFresh(props);
      ProjectPropsLookup(init, depth, recv, invoke);
      forall k
        ensures Lookup(ProjectProps(props, depth, recv, invoke), k) ==
          if Lookup(props, k).Some? then ProjectValue(Lookup(props, k).value, depth, recv, invoke) else None
      {
        if k != last.key {
          assert Lookup(props, k) == Lookup(init, k);
        }
      }
    }
  }

  /**
   * An object projects to a plain object in which a key of the projected
   * prototype wins over an own key of the same name; the other own keys
   * hold their projected values, and keys whose functions threw are absent.
   */
  lemma InheritedOverridesOwn(target: Val, depth: nat, thisArg: Val, invoke: Invoke)
    requires target.Obj? && !PassesThrough(target) && UniqueKeys(target.props)
    ensures var r := Project(target, depth, thisArg, invoke);
      var recv := Receiver(thisArg, target);
      var inherited := if target.proto.Some? then OwnEntries(Project(target.proto.value, depth + 1, recv, invoke)) else [];
      && r.Obj? && r.proto == Some(ObjectPrototype)
      && forall k :: (Lookup(r.props, k) ==
        if Lookup(inherited, k).Some? then Lookup(inherited, k)
        else if Lookup(target.props, k).Some? then ProjectValue(Lookup(target.props, k).value, depth, recv, invoke)
        else None)
  {
    ProjectPropsLookup(target.props, depth, Receiver(thisArg, target), invoke);
  }

  /** One key of a projected object, as `InheritedOverridesOwn` describes it. */
  lemma ProjectedKey(target: Val, depth: nat, thisArg: Val, invoke: Invoke, k: string)
    requires target.Obj? && !PassesThrough(target) && UniqueKeys(target.props)
    ensures var r := Project(target, depth, thisArg, invoke);
      var recv := Receiver(thisArg, target);
      var inherited := if target.proto.Some? then OwnEntries(Project(target.proto.value, depth + 1, recv, invoke)) else [];
      Lookup(OwnEntries(r), k) ==
        if Lookup(inherited, k).Some? then Lookup(inherited, k)
        else if Lookup(target.props, k).Some? then ProjectValue(Lookup(target.props, k).value, depth, recv, invoke)
        else None
  {
    InheritedOverridesOwn(target, depth, thisArg, invoke);
  }

  /**
   * A key whose own value is data the projection keeps as it is (neither a
   * function nor an object it descends into) is copied unchanged, unless
   * the projected prototype supplies it.
   */
  lemma ProjectedDataKey(target: Val, depth: nat, thisArg: Val, invoke: Invoke, k: string)
    requires target.Obj? && !PassesThrough(target) && UniqueKeys(target.props)
    requires Lookup(target.props, k).Some? ==>
      !Lookup(target.props, k).value.Fn? && (TypeOf(Lookup(target.props, k).value) != "object" || InstanceOfBuiltin(Lookup(target.props, k).value))
    ensures var r := Project(target, depth, thisArg, invoke);
      var recv := Receiver(thisArg, target);
      var inherited := if target.proto.Some? then OwnEntries(Project(target.proto.value, depth + 1, recv, invoke)) else [];
      Lookup(OwnEntries(r), k) == if Lookup(inherited, k).Some? then Lookup(inherited, k) else Lookup(target.props, k)
  {
    ProjectedKey(target, depth, thisArg, invoke, k);
  }

  /**
   * An array projects to an array with the same indices: every slot up to
   * the new length holds the projection of the old one, and the slots cut
   * off are exactly trailing ones that end up empty.
   */
  lemma ArrayIndices(target: Val, depth: nat, thisArg: Val, invoke: Invoke)
    requires target.Arr?
    ensures var r := Project(target, depth, thisArg, invoke);
      var recv := Receiver(thisArg, target);
      && r.Arr? && |r.slots| <= |target.slots|
      && (r.slots == [] || r.slots[|r.slots| - 1].Some?)
      && (forall i | 0 <= i < |r.slots| :: r.slots[i] == ProjectSlot(target.slots[i], depth, recv, invoke))
      && (forall i | |r.slots| <= i < |target.slots| :: ProjectSlot(target.slots[i], depth, recv, invoke).None?)
  { }

  // ---------------------------------------------------------------------
  // Every call is made with the same receiver

  /**
   * Once a receiver is set, the projection depends on the functions only
   * through what they return when called with that receiver: every nested
   * function is called with it.
   */
  lemma {:induction false} ReceiverThreaded(target: Val, depth: nat, t: Val, inv1: Invoke, inv2: Invoke)
    requires Truthy(t)
    requires forall f :: inv1(f, t) == inv2(f, t)
    ensures Project(target, depth, t, inv1) == Project(target, depth, t, inv2)
    decreases target, 0
  {
    if !PassesThrough(target) {
      assert Receiver(t, target) == t;
      if target.Arr? {
        SlotsThreaded(target.slots, depth, t, inv1, inv2);
      } else {
        PropsThreaded(target.props, depth, t, inv1, inv2);
        if target.proto.Some? {
          ReceiverThreaded(target.proto.value, depth + 1, t, inv1, inv2);
        }
      }
    }
  }

  lemma {:induction false} ValueThreaded(v: Val, depth: nat, t: Val, inv1: Invoke, inv2: Invoke)
    requires Truthy(t)
    requires forall f :: inv1(f, t) == inv2(f, t)
    ensures ProjectValue(v, depth, t, inv1) == ProjectValue(v, depth, t, inv2)
    decreases v, 2
  {
    if !v.Fn? && TypeOf(v) == "object" && depth < MaxDepth {
      NestedThreaded(v, depth, t, inv1, inv2);
    }
  }

  lemma {:induction false} NestedThreaded(v: Val, depth: nat, t: Val, inv1: Invoke, inv2: Invoke)
    requires Truthy(t) && !v.Fn? && TypeOf(v) == "object" && depth < MaxDepth
    requires forall f :: inv1(f, t) == inv2(f, t)
    ensures ProjectValue(v, depth, t, inv1) == ProjectValue(v, depth, t, inv2)
    decreases v, 1
  {
    ReceiverThreaded(v, depth + 1, t, inv1, inv2);
  }

  lemma {:induction false} SlotThreaded(slot: Option<Val>, depth: nat, t: Val, inv1: Invoke, inv2: Invoke)
    requires Truthy(t)
    requires forall f :: inv1(f, t) == inv2(f, t)
    ensures ProjectSlot(slot, depth, t, inv1) == ProjectSlot(slot, depth, t, inv2)
    decreases slot, 3
  {
    if slot.Some? {
      ValueThreaded(slot.value, depth, t, inv1, inv2);
    }
  }

  lemma {:induction false} PropsThreaded(props: seq<Prop>, depth: nat, t: Val, inv1: Invoke, inv2: Invoke)
    requires Truthy(t)
    requires forall f :: inv1(f, t) == inv2(f, t)
    ensures ProjectProps(props, depth, t, inv1) == ProjectProps(props, depth, t, inv2)
    decreases props, 0
  {
    if props != [] {
      PropsThreaded(props[..|props| - 1], depth, t, inv1, inv2);
      ValueThreaded(props[|props| - 1].value, depth, t, inv1, inv2);
    }
  }

  lemma {:induction false} SlotsThreaded(slots: seq<Option<Val>>, depth: nat, t: Val, inv1: Invoke, inv2: Invoke)
    requires Truthy(t)
    requires forall f :: inv1(f, t) == inv2(f, t)
    ensures ProjectSlots(slots, depth, t, inv1) == ProjectSlots(slots, depth, t, inv2)
    decreases slots, 0
  {
    if slots != [] {
      SlotsThreaded(slots[..|slots| - 1], depth, t, inv1, inv2);
      SlotThreaded(slots[|slots| - 1], depth, t, inv1, inv2);
    }
  }

  /**
   * At the top level the receiver is the payload itself: the reply depends
   * only on what its functions return when called on the payload.
   */
  lemma OutermostReceiver(target: Val, inv1: Invoke, inv2: Invoke)
    requires forall f :: inv1(f, target) == inv2(f, target)
    ensures TransformValues(target, inv1) == TransformValues(target, inv2)
  {
    if !PassesThrough(target) {
      assert Receiver(Null, target) == target;
      if target.Arr? {
        SlotsThreaded(target.slots, 0, target, inv1, inv2);
      } else {
        PropsThreaded(target.props, 0, target, inv1, inv2);
        if target.proto.Some? {
          ReceiverThreaded(target.proto.value, 1, target, inv1, inv2);
        }
      }
    }
  }

  // ---------------------------------------------------------------------
  // Plain data is left as it is

  /**
   * Data with no functions: primitives, built-in instances, plain objects
   * with distinct keys, and arrays whose last slot is filled.
   */
  predicate PlainData(v: Val) {
    match v
    case Fn(_) => false
    case Obj(props, proto) =>
      && proto == Some(ObjectPrototype)
      && UniqueKeys(props)
      && forall i | 0 <= i < |props| :: PlainData(props[i].value)
    case Arr(slots) =>
      && (slots == [] || slots[|slots| - 1].Some?)
      && forall i | 0 <= i < |slots| :: PlainSlot(slots[i])
    case _ => true
  }

  predicate PlainSlot(slot: Option<Val>) {
    slot.Some? ==> PlainData(slot.value)
  }

  /** The projection of plain data, at any depth and with any receiver, is that data. */
  lemma {:induction false} PlainDataFixed(target: Val, depth: nat, thisArg: Val, invoke: Invoke)
    requires PlainData(target)
    ensures Project(target, depth, thisArg, invoke) == target
    decreases target, 0
  {
    if !PassesThrough(target) {
      var recv := Receiver(thisArg, target);
      if target.Arr? {
        PlainSlotsFixed(target.slots, depth, recv, invoke);
      } else {
        PlainPropsFixed(target.props, depth, recv, invoke);
        var proj := Project(ObjectPrototype, depth + 1, recv, invoke);
        assert OwnEntries(proj) == [];
      }
    }
  }

  lemma {:induction false} PlainValueFixed(v: Val, depth: nat, recv: Val, invoke: Invoke)
    requires PlainData(v)
    ensures ProjectValue(v, depth, recv, invoke) == Some(v)
    decreases v, 2
  {
    if TypeOf(v) == "object" && depth < MaxDepth {
      PlainNestedFixed(v, depth, recv, invoke);
    }
  }

  lemma {:induction false} PlainNestedFixed(v: Val, depth: nat, recv: Val, invoke: Invoke)
    requires PlainData(v) && TypeOf(v) == "object" && depth < MaxDepth
    ensures ProjectValue(v, depth, recv, invoke) == Some(v)
    decreases v, 1
  {
    PlainDataFixed(v, depth + 1, recv, invoke);
  }

  lemma {:induction false} PlainSlotFixed(slot: Option<Val>, depth: nat, recv: Val, invoke: Invoke)
    requires PlainSlot(slot)
    ensures ProjectSlot(slot, depth, recv, invoke) == slot
    decreases slot, 3
  {
    if slot.Some? {
      PlainValueFixed(slot.value, depth, recv, invoke);
    }
  }

  lemma {:induction false} PlainPropsFixed(props: seq<Prop>, depth: nat, recv: Val, invoke: Invoke)
    requires UniqueKeys(props)
    requires forall i | 0 <= i < |props| :: PlainData(props[i].value)
    ensures ProjectProps(props, depth, recv, invoke) == props
    decreases props, 0
  {
    if props != [] {
      var init := props[..|props| - 1];
      var last := props[|props| - 1];
      assert props == init + [last];
      LastKeyFresh(props);
      PlainPropsFixed(init, depth, recv, invoke);
      PlainValueFixed(last.value, depth, recv, invoke);
      assert ProjectProps(props, depth, recv, invoke) == Put(init, last.key, last.value);
      assert Put(init, last.key, last.value) == init + [Prop(last.key, last.value)];
    }
  }

  lemma {:induction false} PlainSlotsFixed(slots: seq<Option<Val>>, depth: nat, recv: Val, invoke: Invoke)
    requires slots == [] || slots[|slots| - 1].Some?
    requires forall i | 0 <= i < |slots| :: PlainSlot(slots[i])
    ensures TrimHoles(ProjectSlots(slots, depth, recv, invoke)) == slots
    decreases slots, 0
  {
    var projected := ProjectSlots(slots, depth, recv, invoke);
    forall i | 0 <= i < |slots|
      ensures projected[i] == slots[i]
    {
      PlainSlotFixed(slots[i], depth, recv, invoke);
    }
    assert projected == slots;
  }
}

=== FILE: wire.dfy ===
/**
 * What crosses a socket.io connection. The arguments of an `emit` and of
 * an acknowledgement are written as JSON, binary parts apart, and read
 * back on the other side. So a `Date` arrives as its ISO text,
 * `undefined` and functions vanish from objects and turn into `null` in
 * arrays, and other class instances arrive as plain objects that carry
 * only their own enumerable properties.
 */
module Wire {
  import opened Wrappers
  import opened Js
  import opened Dates

  /**
   * `JSON.stringify` of a `Date` with time value `ms`: its `toJSON` writes
   * the ISO text, or `null` for an invalid date.
   */
  function DateJson(ms: nat): (r: Val)
    ensures r.Str? <==> ms <= MaxTime
    ensures r.Str? ==> ParseIso(r.s) == Some(ms)
    ensures !r.Str? ==> r == Null
  {
    if ms <= MaxTime then ParseIsoText(ms); Str(IsoText(ms)) else Null
  }

  /**
   * A value as the peer reads it back, or `None` for what `JSON.stringify`
   * leaves out of an object: `undefined` and functions. A value's
   * prototype chain does not travel.
   */
  function Encoded(v: Val): (r: Option<Val>)
    ensures r.None? <==> v.Undefined? || v.Fn?
    ensures v.Obj? ==> r == Some(Record(EncodedProps(v.props)))
    ensures v.Arr? ==> r.Some? && r.value.Arr? && |r.value.slots| == |v.slots|
    ensures v.Null? || v.Bool? || v.Num? || v.Str? ==> r == Some(v)
    decreases v, 1
  {
    match v
    case Undefined => None
    case Fn(_) => None
    case Opaque(kind, id) => Some(OpaqueJson(kind, id))
    case Obj(props, _) => Some(Record(EncodedProps(props)))
    case Arr(slots) => Some(Arr(EncodedSlots(slots)))
    case _ => Some(v)
  }

  /**
   * An instance of a built-in class on the wire. A `Date` has the
   * identifier of its time value. Binary data travels as an attachment
   * and arrives as a `Buffer` with the same bytes. Errors, maps, sets and
   * promises have no enumerable properties and arrive as `{}`.
   */
  function OpaqueJson(kind: OpaqueKind, id: nat): (r: Val)
    ensures kind == DateObject ==> r == DateJson(id)
    ensures kind in {ErrorObject, MapObject, SetObject, PromiseObject} ==> r == Record([])
  {
    match kind
    case DateObject => DateJson(id)
    case ErrorObject => Record([])
    case MapObject => Record([])
    case SetObject => Record([])
    case PromiseObject => Record([])
    case StringObject => Opaque(kind, id)
    case NumberObject => Opaque(kind, id)
    case BooleanObject => Opaque(kind, id)
    case _ => Opaque(BufferObject, id)
  }

  /** The properties `JSON.stringify` writes, in key order, as read back. */
  function EncodedProps(props: seq<Prop>): (r: seq<Prop>)
    ensures forall k | k in Keys(r) :: k in Keys(props)
    decreases props, 0
  {
    if props == [] then []
    else
      var init := EncodedProps(props[..|props| - 1]);
      var last := props[|props| - 1];
      assert Keys(props) == Keys(props[..|props| - 1]) + [last.key];
      match Encoded(last.value)
      case None => init
      case Some(x) =>
        assert Keys(init + [Prop(last.key, x)]) == Keys(init) + [last.key];
        init + [Prop(last.key, x)]
  }

  /** The elements of an array, as read back. */
  function EncodedSlots(slots: seq<Option<Val>>): (r: seq<Option<Val>>)
    ensures |r| == |slots|
    ensures forall i | 0 <= i < |slots| :: r[i] == Some(EncodedSlot(slots[i]))
    decreases slots, 0
  {
    if slots == [] then []
    else EncodedSlots(slots[..|slots| - 1]) + [Some(EncodedSlot(slots[|slots| - 1]))]
  }

  /** One array element as read back: a hole, `undefined` or a function becomes `null`. */
  function EncodedSlot(slot: Option<Val>): (r: Val)
    ensures slot.None? ==> r == Null
    ensures slot.Some? && Encoded(slot.value).Some? ==> r == Encoded(slot.value).value
    ensures slot.Some? && Encoded(slot.value).None? ==> r == Null
    decreases slot, 2
  {
    if slot.None? then Null
    else
      match Encoded(slot.value)
      case None => Null
      case Some(x) => x
  }

  /**
   * An argument of an `emit` or of an acknowledgement as the peer reads
   * it: the arguments travel as a JSON array, so what JSON leaves out
   * arrives as `null`.
   */
  function Sent(v: Val): Val {
    EncodedSlot(Some(v))
  }

  /** The arguments of an `emit`, as the listener receives them. */
  function SentArgs(args: seq<Val>): (r: seq<Val>)
    ensures |r| == |args| && forall i | 0 <= i < |args| :: r[i] == Sent(args[i])
  {
    seq(|args|, i requires 0 <= i < |args| => Sent(args[i]))
  }

  /** A property value as the peer reads it: `undefined` when JSON left the key out. */
  function Received(v: Val): Val {
    match Encoded(v)
    case None => Undefined
    case Some(x) => x
  }

  // ---------------------------------------------------------------------
  // Properties of the encoding

  /**
   * A key of an encoded object holds the encoding of what the key held,
   * and a key that was absent stays absent. A key whose value JSON leaves
   * out is absent after the trip, as long as no key occurred twice.
   */
  lemma {:induction false} LookupEncoded(props: seq<Prop>, k: string)
    ensures Lookup(props, k).None? ==> Lookup(EncodedProps(props), k).None?
    ensures Lookup(props, k).Some? && Encoded(Lookup(props, k).value).Some? ==>
      Lookup(EncodedProps(props), k) == Encoded(Lookup(props, k).value)
    ensures UniqueKeys(props) && Lookup(props, k).Some? && Encoded(Lookup(props, k).value).None? ==>
      Lookup(EncodedProps(props), k).None?
    decreases |props|
  {
    if props != [] {
      var init := props[..|props| - 1];
      var last := props[|props| - 1];
      assert Keys(props) == Keys(init) + [last.key];
      LookupEncoded(init, k);
      if UniqueKeys(props) && last.key == k {
        assert k !in Keys(init) by {
          forall i | 0 <= i < |init|
            ensures Keys(init)[i] != k
          {
            assert props[i].key != props[|props| - 1].key;
          }
        }
      }
    }
  }

  /**
   * Reading a property of an object after the trip: a key that held
   * something JSON writes holds its encoding; with distinct keys, every
   * key reads as what was sent under it, `undefined` for what was left
   * out.
   */
  lemma GetReceived(v: Val, k: string)
    requires v.Obj? && v.proto == Some(ObjectPrototype)
    ensures Encoded(Get(v, k)).Some? ==> Get(Received(v), k) == Encoded(Get(v, k)).value
    ensures UniqueKeys(v.props) ==> Get(Received(v), k) == Received(Get(v, k))
    ensures Received(v) == Sent(v)
  {
    LookupEncoded(v.props, k);
    assert Get(ObjectPrototype, k) == Undefined;
  }

  /**
   * Data JSON carries unchanged: no `undefined`, functions, class
   * instances or holes, and only plain objects.
   */
  predicate JsonData(v: Val) {
    match v
    case Undefined => false
    case Fn(_) => false
    case Opaque(_, _) => false
    case Obj(props, proto) =>
      && proto == Some(ObjectPrototype)
      && forall i | 0 <= i < |props| :: JsonData(props[i].value)
    case Arr(slots) => forall i | 0 <= i < |slots| :: slots[i].Some? && JsonData(slots[i].value)
    case _ => true
  }

  /** Such data reads back as it was sent. */
  lemma {:induction false} JsonCarried(v: Val)
    requires JsonData(v)
    ensures Encoded(v) == Some(v)
    decreases v, 1
  {
    match v
    case Obj(props, proto) =>
      JsonPropsCarried(props);
    case Arr(slots) =>
      forall i | 0 <= i < |slots|
        ensures EncodedSlot(slots[i]) == slots[i].value
      {
        JsonCarried(slots[i].value);
      }
      assert EncodedSlots(slots) == slots;
    case _ =>
  }

  lemma {:induction false} JsonPropsCarried(props: seq<Prop>)
    requires forall i | 0 <= i < |props| :: JsonData(props[i].value)
    ensures EncodedProps(props) == props
    decreases props, 0
  {
    if props != [] {
      var init := props[..|props| - 1];
      JsonPropsCarried(init);
      JsonCarried(props[|props| - 1].value);
      assert init + [props[|props| - 1]] == props;
    }
  }
}

=== FILE: wrappers.dfy ===
/** Failure-compatible result types shared by every module of the model. */
module Wrappers {

  /** A value that may be missing: `undefined` in the source, or a call that did not happen. */
  datatype Option<+T> = None | Some(value: T) {

    predicate IsFailure() {
      None?
    }

    function PropagateFailure<U>(): Option<U>
      requires None?
    {
      None
    }

    function Extract(): T
      requires Some?
    {
      value
    }

    function GetOr(default: T): T {
      match this
      case Some(v) => v
      case None => default
    }
  }

  /** The outcome of an operation that can throw or reject. */
  datatype Result<+T, +E> = Success(value: T) | Failure(error: E) {

    predicate IsFailure() {
      Failure?
    }

    function PropagateFailure<U>(): Result<U, E>
      requires Failure?
    {
      Failure(error)
    }

    function Extract(): T
      requires Success?
    {
      value
    }
  }
}
